=== FILE: README.md ===
# fairy-start supervisor core, modelled in Dafny

fairy-start (and its older variant, autostart) is a small desktop supervisor for
local development services. Each service is a GitHub repository cloned under a
packages directory, with a start command and an optional localhost URL. This
project models the logic behind that supervisor as pure Dafny functions over
immutable data, and proves what that logic promises:

- **Repository input.** `parse_github_input` reduces what the user types to an
  `(owner, repo)` pair, and `github_url` turns the stored repository back into a
  clone URL (`Github`, `Service`).
- **Start-command detection.** `detect_service` probes the repository's files in a
  fixed cascade:
  1. shell scripts;
  2. `package.json`;
  3. `Procfile`;
  4. `Makefile`;
  5. `pyproject.toml` or `requirements.txt`, then the Python entry points
     (`manage.py`, then `server.py`, `app.py`, `main.py`, `run.py`);
  6. `go.mod`;
  7. `server/package.json` together with `client/package.json`;
  8. nothing found.

  It guesses a localhost port from the command or from Python source (`Detect`,
  `Ports`, `Patterns`).
- **Config writing.** `_toml_str`, `append_package_to_config` and `rewrite_config`
  write the config file (`Config`).
- **Process table.** The ProcessManager keeps a table of child processes
  (`ProcessTable`).
- **Start worker.** The start worker's probation decides RUNNING or ERROR. A crash
  is explained by the first matching advisory rule over a cleaned log tail
  (`Worker`, `Advisory`, `LogTail`).
- **Supervisor loop.** The single-threaded loop reacts to user actions, worker
  messages and health probes:
  - the per-service dot;
  - the health overlay;
  - the global Start All / Stop All button;
  - removal of a service.

  See `Health` and `Supervisor`.
- **Backup pass.** The periodic backup pass selects which cloned services to
  commit and which to push (`Backup`).

Both variants are modelled at once. `Service.Variant` (`FairyStart | Autostart`)
selects the few places where they differ:

- the name of the log file;
- the `fairy_backup = false` line in the rewritten config;
- the per-service backup opt-out.

Regular expressions are modelled pattern by pattern as a match at a position
(`Patterns.MatchAt`) plus a leftmost search (`Patterns.First`). `\d` and `\w` are
the ASCII classes, `\s` is the set of Python's `str.isspace`, and `IGNORECASE`
is ASCII lower-casing.

The supervisor is a record
`App(packages, states, tokens, stopping, procs)` with one pure handler per event,
`Supervisor.Step`, folded over an event sequence by `Supervisor.Run`. The record
holds:

- `packages`: the configured services;
- `states`: the state of each service's dot;
- `tokens`: the per-cycle stop events, where `true` means the event is set;
- `stopping`: the services whose stop is in flight;
- `procs`: the process table.

Worker threads appear as events that can arrive in any order:

- `Launched`: the worker's `start_one`;
- `ProcessEnded`: the child exiting;
- `StopFinished`: the stop thread's `stop_one` and its removal of the stopping mark. The stop thread's OFF report is a separate `StateMsg` event, which may be handled later.

All cited lines are in `fairy_start.py` unless the path says `autostart.py`.
Behaviour that both files share is cited once, in `fairy_start.py`.

## Model

| member | source | states |
|---|---|---|
| Advisory.FirstMatch | fairy_start.py:1653-1657 | The rule found is the first one in list order that matches the text, and no earlier rule matches. No result means that no rule matches. |
| Advisory.MakeAdvisory | fairy_start.py:1653-1657 | The advisory is empty exactly when none of the six rules matches the log text. Otherwise it is the message of the first rule that matches, in list order. |
| Advisory.ErrorAdvisory | fairy_start.py:2614-2618 | The error banner is never empty. It is the advisory when a rule matches the log tail. Otherwise it is "The service stopped unexpectedly. Check the log for details." |
| Advisory.PortConflictWins | fairy_start.py:1631-1637 | Any log mentioning `EADDRINUSE` or "address already in use" (in any case) that does not hit the storage rule gets the port-in-use advice. |
| Advisory.PortConflictBeforeNotFound | fairy_start.py:1631-1640 | Any log with `EADDRINUSE` followed later by "not found" matches both the port rule and the generic "not found" rule. Unless the storage rule also matches, it gets the port-in-use advice, because that rule comes first. |
| Advisory.NotFoundShadowsMissingPackage | fairy_start.py:1638-1643 | When both the generic "not found" rule and the missing-package rule match, the generic message wins, because it is listed first. |
| Advisory.MissingModuleReportedAsNotFound | fairy_start.py:1631-1643 | Any log containing the Node message `MODULE_NOT_FOUND: No such file` matches the missing-package rule but, unless the storage or port rule matches, is reported with the generic "not found" advice, which is listed first. |
| LogTail.StripAnsi | fairy_start.py:3050 | Removing colour codes never lengthens a line. |
| LogTail.StripAnsiSingleLine | fairy_start.py:3050 | Removing colour codes from a line without line breaks never creates one. |
| LogTail.StripAnsiRender | fairy_start.py:3050 | Removing colour codes from text built by interleaving `ESC[<digits/;>m` codes with plain text gives back exactly the plain text. |
| LogTail.StripBracketTag | fairy_start.py:3051 | The result is a suffix of the line. When the line opens with a non-empty `[...]` tag, the result starts at the first non-blank after its closing `]`. Otherwise the line is unchanged. |
| LogTail.TagClose | fairy_start.py:3051 | A tag is found only when the line starts with `[` and has a `]` at index 2 or later with no `]` before it. No tag on a line starting with `[` means it starts with `[]` or has no `]` at all. |
| LogTail.BracketTagRoundTrip | fairy_start.py:3051 | A non-empty tag without `]`, in brackets, followed by blanks and then text that does not start with a blank, is dropped along with the blanks, and exactly that text remains. |
| LogTail.CleanLines | fairy_start.py:3049-3053 | The kept lines are no more than the raw lines, and none of them is empty. |
| LogTail.NonBlank | fairy_start.py:3053 | The kept lines are exactly the non-empty input lines: each kept line is an input line, and each non-empty input line is kept. |
| LogTail.NonBlankAppend | fairy_start.py:3053 | The filter works line by line, so filtering two blocks gives the two filtered blocks in their order. |
| LogTail.CleanLinesOne | fairy_start.py:3049-3053 | One raw line contributes its cleaned form, or nothing when the cleaned form is empty. |
| LogTail.CleanLinesAppend | fairy_start.py:3049-3053 | The cleaned lines of two blocks are the cleaned lines of each block, in order. With CleanLinesOne this makes the result the in-order list of the non-empty cleaned lines. |
| LogTail.CleanLinesSingle | fairy_start.py:3049-3053 | Cleaning never introduces a line break into a line. |
| LogTail.Tail | fairy_start.py:3054 | The tail is a suffix of the lines, of length min(n, number of lines), and `n = 0` keeps everything (Python's `lines[-0:]`). |
| LogTail.ReadLogTail | fairy_start.py:3044-3058 | A missing log file gives "<name> exited unexpectedly". A log with no non-empty cleaned line gives "<name> exited (no log output)". |
| LogTail.ReadLogTailLines | fairy_start.py:3044-3058 | For a log with content, splitting the result on newlines gives back the last min(n, k) cleaned lines. None of them is empty. |
| LogTail.TailRoundTrip | fairy_start.py:3054-3055 | Joining the tail with newlines and splitting it again returns the tail. |
| Worker.ProbationOutcome | fairy_start.py:1599-1625 | The worker reports RUNNING, with an empty message, exactly when the launch succeeded and no exit was seen during probation. Every other outcome is ERROR. A setup failure reports its own text, which may be empty. A crash reports "Unexpected error: " plus the detail. An early exit reports the advisory for the log file, falling back to "Service stopped immediately after starting." |
| Worker.ProbationTiming | fairy_start.py:1609-1620 | With a poll every 100 ms until the 1.5 s deadline, a launched service is reported RUNNING exactly when it does not exit by the last poll, 1400 ms after launch. |
| ProcessTable.StartOne | fairy_start.py:1535-1547 | After a start the name is running and has no exit code. Every other entry is unchanged. |
| ProcessTable.StopOne | fairy_start.py:1549-1579 | After a stop the name is absent. Every other entry is unchanged, and stopping an unknown name changes nothing. |
| ProcessTable.PollOne | fairy_start.py:1585-1589 | Polling an unknown name gives no exit code. Polling a known one gives its recorded exit code. |
| ProcessTable.Exit | fairy_start.py:1585-1589 | After a child exits, polling its name gives the exit code. The name stays in the table, and every other entry is unchanged. |
| ProcessTable.StopAll | fairy_start.py:1581-1583 | The table ends empty. Each service that was in it is stopped exactly once. |
| Service.Find | fairy_start.py:2953 | The lookup succeeds exactly when some configured service has that name, and returns that service. |
| Service.GithubUrl | fairy_start.py:1033-1038 | A repository that is already a URL is used as is. A slug becomes `https://github.com/<slug>.git`. |
| Service.RemoveNamedNames | fairy_start.py:3130 | The remaining services' names are the old names minus the removed one. |
| Service.RemoveNamedKeeps | fairy_start.py:3130 | The records left are exactly the configured records whose name differs from the removed one, unchanged. |
| Service.RemoveNamedAppend | fairy_start.py:3130 | Removal works record by record, so the surviving records keep their order. |
| Patterns.MatchAt | fairy_start.py:1183-1215 | A match of any port pattern is a non-empty run of ASCII digits taken from the text. |
| Patterns.First | fairy_start.py:1183-1215 | `re.search`: the match returned is the one at the leftmost position where the pattern matches. No match means that no position matches. |
| Patterns.MatchRendered | fairy_start.py:1183-1215 | Each pattern, written out around a digit string and followed by nothing or a blank, captures exactly that digit string. So `--port=N`, `--bind=0.0.0.0:N`, ` -p N`, `localhost:N`, `:N`, `.run(port=N)`, `port = N` and `os.environ.get("PORT", N)` all give N. |
| Patterns.FirstRendered | fairy_start.py:1183-1215 | `re.search` returns that digit string for a text that starts with the written-out pattern. |
| Ports.FrontendPort | fairy_start.py:1193-1198 | The port comes from the first line that both mentions "frontend" or "client" (in any case) and contains `localhost:<digits>`, and it is that line's first `localhost:` port. No result means that no line does both. |
| Ports.PortFromCommand | fairy_start.py:1183-1203 | The port is a digit string occurring in the command. The sources are tried in order: the first `--port` match, then the first `--bind` match, then the first `-p` match, then the frontend line's port, then the first `localhost:` match anywhere. |
| Ports.FrontendPortInScript | fairy_start.py:1193-1202 | A frontend port found on one line is also a `localhost:` port of the whole command. |
| Ports.PortFromCommandNone | fairy_start.py:1183-1203 | No port is found exactly when none of `--port`, `--bind`, `-p` and `localhost:` matches anywhere in the command. |
| Ports.PortFromPythonSource | fairy_start.py:1206-1215 | The port is a digit string occurring in the source. The first `.run(…port=N` match wins. Otherwise the first `port = N` wins, and otherwise the first `os.environ.get("PORT", N)`. No port is found exactly when none of the three patterns matches. |
| Ports.CommandPortRoundTrip | fairy_start.py:1183-1186 | A command starting `--port=N`, followed by nothing or a blank, gives port N. |
| Ports.PythonPortRoundTrip | fairy_start.py:1206-1215 | A source starting `.run(port=N)`, followed by nothing or a blank, gives port N. |
| Ports.LocalUrl | fairy_start.py:1179 | The URL is empty exactly when no port was found. Otherwise it is `http://localhost:` followed by the port. |
| Health.Classify | fairy_start.py:2811-2857 | 0 means not listening, 500 and above means server error, and anything else is healthy. The three readings partition the integers. |
| Health.ProbeStatus | fairy_start.py:3007-3013 | A response gives its status, an HTTP error gives its code, and an unreachable URL or OS error gives 0. |
| Health.PortMismatchMessage | fairy_start.py:2826-2827 | The mismatch warning names the log's port at offset 15 and the configured port after it. Its length is fixed by the two ports. |
| Health.NotListeningBanner | fairy_start.py:2820-2834 | A warning appears exactly when the service has a URL and both the URL and the log tail name a port, and the two ports differ. |
| Health.ApplyHealth | fairy_start.py:2800-2878 | A healthy reading with a port-in-use log is a port conflict. Otherwise the dot is green exactly when the reading is healthy. A server error always shows a non-empty amber warning, and a healthy service never shows a banner. |
| Supervisor.Signal | fairy_start.py:3037-3040 | Only the named cycle's stop event becomes set, and only if it exists. |
| Supervisor.DoStart | fairy_start.py:2952-2973 | An unconfigured name changes nothing. Otherwise the service gets a fresh, unset stop event and is STARTING, and it is no longer marked stopping. |
| Supervisor.DoStop | fairy_start.py:2975-2988 | The service is marked stopping and its stop event is set. The dot and the process table are untouched until the stop thread reports back. |
| Supervisor.OnAction | fairy_start.py:2945-2950 | OFF or ERROR starts the service (when configured): only its state becomes STARTING, only its stop event is replaced by an unset one, and only its stopping mark is cleared. RUNNING stops it. STARTING ignores the click. A name with no state counts as OFF. |
| Supervisor.GlobalButton | fairy_start.py:2881-2898 | The button is enabled exactly when some service has a state. It reads "Stop All" exactly when every state is RUNNING. |
| Supervisor.StartEachEffect | fairy_start.py:2906-2909 | Start All starts exactly the configured services in OFF or ERROR. Every other service keeps its state, stop event and stopping mark. |
| Supervisor.StopEachEffect | fairy_start.py:2902-2905 | Stop All marks as stopping, and signals, exactly the configured RUNNING services. |
| Supervisor.OnGlobal | fairy_start.py:2900-2909 | When every state is RUNNING, the states are kept, and exactly the configured RUNNING services are marked stopping and have their stop events set. Otherwise exactly the configured OFF or ERROR services become STARTING, with fresh unset stop events, and lose their stopping mark. All other states are kept, and so are the stop events of the services not started. The configuration and the process table never change. |
| Supervisor.GlobalActionEffect | fairy_start.py:2881-2909 | What the button does matches its label. Under "Stop All", every configured service ends up stopping. Under "Start All", every configured service that was OFF or ERROR ends up STARTING. |
| Supervisor.OnAdded | fairy_start.py:3070-3076 | The new service joins the configuration and shows OFF. Nothing else changes. |
| Supervisor.OnRemove | fairy_start.py:3108-3149 | An unconfirmed removal changes nothing. A confirmed removal erases the name from the configuration, the states, the stop events and the stopping marks. Its process is stopped exactly when it was RUNNING or STARTING; otherwise the process table is unchanged. Other processes are untouched, and no entry is added. |
| Supervisor.OnStateMsg | fairy_start.py:2918-2924 | A worker report sets the state. Only OFF and ERROR also set the service's stop event. |
| Supervisor.OnExited | fairy_start.py:2930-2933 | An exit of a service being stopped on purpose is ignored. Any other exit turns the dot to ERROR. |
| Supervisor.OnHealth | fairy_start.py:2800-2863 | A probe result changes the supervisor only when the service is RUNNING and configured, the reading is healthy, and the log shows a port in use. The service then turns ERROR and its stop event is set. The process is not killed. |
| Supervisor.Step | fairy_start.py:2913-2941 | Only adding and removing a service change the configuration. An add adds the new name, a confirmed removal takes the name away, and an unconfirmed removal changes nothing at all. |
| Supervisor.Run | fairy_start.py:2913-2941 | A sequence of events with no add and no removal leaves the configuration as it was. |
| Supervisor.StepPreservesWf | fairy_start.py:2913-2941 | Every event keeps the invariant: each configured service has a state, and stop events exist only for configured services. |
| Supervisor.RunPreservesWf | fairy_start.py:2913-2941 | The invariant holds after any sequence of events. |
| Supervisor.LateReportAfterRemove | fairy_start.py:2566-2575 | A RUNNING report that arrives after its service was removed during STARTING re-creates a state for it. The global button then reads "Stop All", enabled, with no service configured. |
| Supervisor.UserStopIsNoCrash | fairy_start.py:2930-2933 | Pressing Stop on a running service and then seeing its process exit, before the stop thread finishes, leaves every dot as it was. The service stays marked stopping and its stop event is set. |
| Supervisor.QueuedExitAfterStop | fairy_start.py:2975-2988 | If the stop thread finishes before a queued exit report is handled, the report turns the dot to ERROR. The stop thread's own OFF report, handled after it, turns the dot back to OFF. |
| Github.NameEnd | fairy_start.py:1073 | The repository name runs up to the first `/` or whitespace. |
| Github.RepoName | fairy_start.py:1070 | The lazy name group and the optional `.git` give the name without one trailing `.git`, unless that would leave it empty. |
| Github.ParseGithubInput | fairy_start.py:1068-1083 | Input is accepted exactly when the stripped text has one of the three accepted forms. The owner is then non-empty and slash-free, and the repository name is non-empty and has no slash or whitespace. A rejection carries the raw input. |
| Github.SlugRoundTrip | fairy_start.py:1077-1079 | `owner/repo` and `owner/repo.git` parse back to `(owner, repo)`. |
| Github.SlugParses | fairy_start.py:1077-1079 | Any `owner/name` slug parses to the owner and the name without one `.git`. |
| Github.HttpsRoundTrip | fairy_start.py:1073-1075 | `https://github.com/owner/repo[.git]`, followed by nothing or by a `/`-led single-line path, parses back to `(owner, repo)`. |
| Github.HttpsParses | fairy_start.py:1073-1075 | Any GitHub https URL of that shape parses to the owner and the name without one `.git`. |
| Github.HttpFormOf | fairy_start.py:1073-1075 | `http://github.com/owner/repo[.git]`, followed by nothing or by a `/`-led single-line path, parses back to `(owner, repo)`. |
| Github.HttpParses | fairy_start.py:1073-1075 | Any GitHub plain-http URL of that shape parses to the owner and the name without one `.git`, as the https form does. |
| Github.SshRoundTrip | fairy_start.py:1070-1072 | `git@github.com:owner/repo[.git]` parses back to `(owner, repo)`. |
| Github.SshParses | fairy_start.py:1070-1072 | Any GitHub SSH URL parses to the owner and the name without one `.git`. |
| Github.SlugIsNoUrl | fairy_start.py:1068-1079 | A plain slug is never mistaken for an SSH or https URL. |
| Github.CloneUrlRoundTrip | fairy_start.py:1033-1038 | The clone URL that `github_url` builds from an `owner/repo` slug is `https://github.com/owner/repo.git`, and `parse_github_input` reads it back as the same owner and repository. |
| Detect.ScriptKey | fairy_start.py:1155-1161 | The script run is `dev` if present, else `start`, else `serve`. None is run exactly when all three are absent. |
| Detect.FrameworkPort | fairy_start.py:1168-1178 | The fallback port follows the dependency table in order: `next` gives 3000, then `vite` gives 5173, then `react-scripts` or `nuxt` give 3000, then `svelte` or `@sveltejs/kit` give 5173. There is none exactly when none of these is a dependency. |
| Detect.FromPackageJson | fairy_start.py:1148-1180 | A command exists exactly when the file parses and has a dev/start/serve script, and it is `npm run <script>`. There is a URL only with a command, and it is always a localhost URL. A `--port` in the script sets the port. Without one, the port is the framework fallback from the dependencies. An unparseable file gives no command and a note. |
| Detect.PackageJsonPortRoundTrip | fairy_start.py:1148-1179 | A parsed file whose `dev` script is `--port=N` followed by nothing or a blank gives `npm run dev` at `http://localhost:N`. |
| Detect.WebCommand | fairy_start.py:1243-1246 | The web command is the stripped text after `web:` on the first line whose stripped form starts with `web:`. There is none exactly when no such line exists. |
| Detect.FromProcfile | fairy_start.py:1242-1250 | Without a `web:` line there is no command and no URL. Otherwise the command is the first such line's text after `web:`, stripped, and the URL is that of the port guessed from it. |
| Detect.ProcfileRoundTrip | fairy_start.py:1242-1250 | The one-line Procfile `web: <c>`, for a stripped single-line `c`, gives back `c` as the command, with the URL guessed from `c`. |
| Detect.LastPyEnd | fairy_start.py:1284 | The `.py` token found is the rightmost one ending at or before the limit, which is the greedy `\S+` backtracking to the last `.py`. |
| Detect.PythonScript | fairy_start.py:1284 | A script is found only for a command starting `python`. It is a blank-free piece of the command that names a `.py` file. |
| Detect.PythonScriptRoundTrip | fairy_start.py:1284 | `python`, optional digits, one or more blanks, a blank-free name ending in `.py`, then nothing or a blank and any arguments: the script found is exactly that name. So `python3  app.py --port 5000` gives `app.py`. |
| Detect.FromPythonFile | fairy_start.py:1222-1238 | A FastAPI app without `uvicorn.run` is started through uvicorn, and any other file is run as `python <file>`. The URL is the localhost URL of the port found in the source, and empty when none is found. |
| Detect.FromPythonFiles | fairy_start.py:1221-1239 | An entry point is chosen exactly when one of the candidates exists. The chosen one is the first existing candidate, detected as that file. It always has a command. |
| Detect.FromPython | fairy_start.py:1218-1239 | `manage.py` wins, with `runserver` on port 8000. Python detection finds nothing exactly when neither `manage.py` nor any entry point exists. |
| Detect.FromPythonEntryPoint | fairy_start.py:1221-1238 | Without `manage.py`, the result is the detection of the first existing file among `server.py`, `app.py`, `main.py` and `run.py`: its command, its URL and its notes. |
| Detect.FirstPresent | fairy_start.py:1262-1265 | The name chosen exists, and it is the first name in the list that exists. None exists exactly when nothing is chosen. |
| Detect.ProcfileScriptUrl | fairy_start.py:1283-1290 | The URL is a localhost URL or empty. It is non-empty exactly when the command names a script that exists, is non-empty and yields a port. It is then the localhost URL of that port. |
| Detect.FromProcfileEntry | fairy_start.py:1280-1294 | A Procfile gives its web command, and keeps the URL guessed from it when there is one. Otherwise a non-empty command takes the URL of the Python script it runs, and an empty one has no URL. |
| Detect.FromMakefile | fairy_start.py:1296-1303 | A Makefile gives `make start` exactly when it has a start target, and never a URL. |
| Detect.MakefileStartsWithStart | fairy_start.py:1253-1254 | A Makefile whose text starts with `start:` has a start target. |
| Detect.FromLastResorts | fairy_start.py:1313-1331 | The last probes never produce a command. The confidence is NoneFound exactly when none of their files exists. A monorepo with no `go.mod` takes the URL that `package.json` detection gives for `client/package.json`. `go.mod` gives no URL. |
| Detect.FromManifests | fairy_start.py:1273-1331 | The first present file of the cascade decides: `package.json`, then `Procfile`, then `Makefile`, then `pyproject.toml` or `requirements.txt`, then the last probes. NoneFound means that none of these files exists. |
| Detect.DetectService | fairy_start.py:1257-1331 | The name and branch default to the repository name and `main`. Confidence is Full exactly when a command was found, and NoneFound exactly when nothing detectable exists. The URL is always local or empty. A start script wins over everything else. Without one, the result is the manifest cascade's. |
| Config.ReplaceChar | fairy_start.py:1335 | A string without the character is returned unchanged. |
| Config.ReplaceCharConcat | fairy_start.py:1335 | Replacement distributes over concatenation. |
| Config.TomlStrIsEscape | fairy_start.py:1334-1335 | The two replacement passes equal a single pass escaping each backslash and double quote, so the second pass cannot disturb the first. |
| Config.TomlStrRoundTrip | fairy_start.py:1334-1335 | Reading a basic TOML string back from the escaped value returns the original, for values without control characters. |
| Config.TomlStrLength | fairy_start.py:1334-1335 | The escaped value is longer by exactly the number of backslashes and double quotes. |
| Config.AppendLines | fairy_start.py:1338-1348 | The appended block is a blank line, `[[package]]` and four field lines, plus a fifth exactly when the service has a URL. |
| Config.FieldReadBack | fairy_start.py:1334-1348 | A field line written with a padded key of at most 13 characters reads back as that key and the escaped value. |
| Config.AppendLinesReadBack | fairy_start.py:1338-1348 | The field lines of the appended block read back, in order, as `name`, `repo`, `branch` and `start_command` with the service's escaped values, then `url` when the service has one. |
| Config.PackageLines | fairy_start.py:1362-1374 | A rewritten block is the appended block, plus `fairy_backup  = false` exactly when the newer variant records an opt-out. |
| Config.RewriteConfig | fairy_start.py:1353-1375 | The rewritten file is newline-terminated. |
| Config.AppendText | fairy_start.py:1349-1350 | The appended text starts and ends with a newline. |
| Config.AppendAgreesWithRewrite | fairy_start.py:1338-1375 | Appending a service with no opt-out to a rewritten file gives the file that a rewrite including the service would write. |
| Config.AppendLosesOptOut | fairy_start.py:1338-1375 | For a service that opts out of backups, the rewrite is the appended file followed by `fairy_backup  = false` and a newline, so the two files differ. |
| Config.RewriteEmpty | fairy_start.py:1356-1359 | With no services, the rewrite is the `[settings]` line and the `packages_dir` field, each newline-terminated. |
| Config.AppendTextLines | fairy_start.py:1338-1350 | The appended text splits into the blank line, the `[[package]]` header, the field lines and an empty remainder, when no value holds a line break. |
| Backup.BackupPass | fairy_start.py:3379-3387 | A pass schedules no more jobs than there are services. When every service is eligible there is one job per service, and when none is there are no jobs. |
| Backup.BackupPassAppend | fairy_start.py:3379-3387 | The pass works service by service: a pass over two lists is the pass over each, in order. |
| Backup.BackupPassJobs | fairy_start.py:3379-3387 | A job is scheduled exactly for each service that is cloned and (in the newer variant) not opted out. It pushes exactly when the repository contains `ux-mark/`. |
| Backup.OptOutIsFilter | autostart.py:2370-2376 | The newer pass is the older pass run over only the opted-in services. |

## Left out

- The Tk user interface: widgets, fonts, colours, dot animation, the accordion, the URL label text, dialogs and their validation, and the empty state.
- Threads and timing. Polling intervals, health intervals and the backup interval are not modelled; the probation schedule is modelled only as `Worker.ProbationTiming`. Worker actions are events that may arrive in any order.
- Which services have a health-probe thread running (`_start_health_check`). Probe results are events for any name.
- Subprocess creation, process groups, signals and the kill timeout inside `stop_one`. The process table records only "running, exit code".
- Network and file I/O: the GitHub API (`gh_api`, `gh_file_content` and their errors), cloning and `pip`/`npm` setup, and reading and writing files. File contents are inputs, and a missing file is an absent key.
- JSON and TOML parsing. `package.json` decoding is a parameter of `Detect.DetectService`. Config loading is not modelled, and neither is a non-object JSON document or a non-string script value.
- The git plumbing of `_fairy_backup_pkg`: status, commit and push. Its early return on a clean working tree is part of that plumbing. Only the choice of services and of push is modelled.
- `_on_edit_service` and the settings dialog. `_on_close` is modelled only as `ProcessTable.StopAll`.
- Tagging messages with their start cycle. The source has none, so late messages are applied as they arrive (see `Supervisor.LateReportAfterRemove`).
- Non-ASCII digits and word characters, and Unicode case folding in the regular expressions.
- Github.ParseGithubInput: the error carries the raw input rather than the formatted message containing its `repr`.
- Config.TomlStrRoundTrip: holds only for values without control characters, because `_toml_str` does not escape them and TOML rejects them raw.
- StripAnsi: its own contract states only that the text does not grow. What is removed is stated by `LogTail.StripAnsiRender` for text built from well-formed `ESC[<digits/;>m` codes and ESC-free text. A stray ESC not followed by such a code is kept by both the source's `re.sub` and the model, but no lemma states that case.
- RewriteConfig: its own contract states only that the file is newline-terminated. The content is stated by `Config.RewriteEmpty`, `Config.AppendAgreesWithRewrite` and `Config.AppendLosesOptOut`.
- AppendText: its own contract states only the leading and trailing newline. The lines are stated by `Config.AppendTextLines`.
- Config.AppendTextLines: holds only for values without a line break, because `_toml_str` writes one raw and it would start a new line.
- ProcessTable.StopAll: the order of stopping is any order of the keys, not the dictionary's insertion order.
- Supervisor.OnStateMsg: the report's message is not kept, because `_set_pkg_state` never reads it. An ERROR card recomputes its text from the log file (`Advisory.ErrorAdvisory`), so the message `Worker.ProbationOutcome` computes is discarded by the source itself.
- MatchAt: its contract says only that a capture is a run of digits from the text. Which digits is stated for one spelling of each pattern by `Patterns.MatchRendered`, not for every spelling the regular expression accepts (a blank instead of `=`, extra blanks, quotes, other arguments before `port`).
- CommandPortRoundTrip: covers a command that starts with `--port=N`. A flag after other words, or written `--port N`, is covered only by the general contract of `Ports.PortFromCommand`.
- PythonPortRoundTrip: covers a source that starts with `.run(port=N)`. An `app.run(host=…, port=N)` call after other code is covered only by the general contract of `Ports.PortFromPythonSource`.
- ProbationTiming: assumes each probation iteration takes exactly 100 ms, so the polls fall at 0, 100, …, 1400 ms. Real scheduling delays shift them.
- CleanLines: its own contract states only the count and non-emptiness. The contents and order of the result are stated by `LogTail.CleanLinesOne` and `LogTail.CleanLinesAppend`.
- RemoveNamed: its own contract states only that the list does not grow. The remaining names, records and order are stated by `Service.RemoveNamedNames`, `Service.RemoveNamedKeeps` and `Service.RemoveNamedAppend`, which keeps the proofs that use the function small.
- AppendLines: its own contract states the line count and the first two lines. The field lines are stated by `Config.AppendLinesReadBack`, through the model's own reader `Config.ReadField`.

## Notes on behaviour as written

- A healthy probe with a port-in-use log sets ERROR and the stop event, but does not terminate the process itself (`Supervisor.OnHealth`).
- The missing-package rule sits after the generic "not found" rule, so a Node `MODULE_NOT_FOUND ... No such file` log gets the generic advice (`Advisory.MissingModuleReportedAsNotFound`).
- A user's stop can still show as a crash. If the process exits, the monitor queues its exit report, and the stop thread then finishes before the report is handled. In that order the dot turns ERROR until the stop thread's OFF report arrives (`Supervisor.QueuedExitAfterStop`).
- Removing a service that is OFF or ERROR does not touch the process table. A dead process that has not been reaped stays recorded (`Supervisor.OnRemove`).
- A report that arrives after its service was removed re-creates a state entry (`Supervisor.LateReportAfterRemove`).
- A `Procfile` whose `web:` line has an empty command is reported in the notes as having no `web:` process type.
- `append_package_to_config` never writes `fairy_backup = false` (`Config.AppendLosesOptOut`). The add dialog creates services with backups enabled, so the difference shows only if an opted-out service is appended.
- `_toml_str` leaves line breaks raw, so a value holding one splits its field across two lines of the config file (`Config.AppendTextLines` needs values without one).

=== FILE: advisory.dfy ===
/**
  The advisory engine: log text to a one-line diagnosis through an ordered table
  of (pattern, message) rules, first match wins, "" when nothing matches.

  Every pattern in the table is an alternation of literal words searched
  case-insensitively, so a rule is kept as its alternatives in lower case and a
  pattern matches when one of them is a substring of the lower-cased log.
*/
module Advisory {

  import opened Wrappers
  import opened Text

  datatype Rule = Rule(alternatives: seq<string>, message: string)

  /** `re.search(pattern, text, re.IGNORECASE)` for a rule of literal alternatives. */
  predicate Matches(rule: Rule, text: string) {
    exists j :: 0 <= j < |rule.alternatives| && Contains(LowerStr(text), rule.alternatives[j])
  }

  const LocalStorageMessage: string :=
    "This app accesses browser storage before the page loads. "
    + "Wrap the affected code in  if (typeof window !== 'undefined') { … }"
  const PortInUseMessage: string :=
    "Something else is already using this port. "
    + "Edit the start command to free the port first, or switch to a different one."
  const NotFoundMessage: string :=
    "A command or file wasn't found. "
    + "Check the start command is correct and all required tools are installed."
  const MissingPackageMessage: string :=
    "A required package is missing. "
    + "Run  npm install  or  pip install -r requirements.txt  in the project folder."
  const PermissionMessage: string :=
    "Permission denied. "
    + "Try a port number above 1024, or check the folder's permissions."
  const OutOfMemoryMessage: string :=
    "The service ran out of memory. "
    + "Add  NODE_OPTIONS=--max-old-space-size=4096  before your start command."

  /** The port-conflict pattern, also used on its own by the health overlay. */
  const PortInUse: Rule := Rule(["eaddrinuse", "address already in use"], PortInUseMessage)

  /** The rule table, in the order the source lists it. */
  const Rules: seq<Rule> := [
    Rule(["localstorage.getitem is not a function"], LocalStorageMessage),
    PortInUse,
    Rule(["command not found", "not found", "no such file"], NotFoundMessage),
    Rule(["module_not_found", "cannot find module", "modulenotfounderror"], MissingPackageMessage),
    Rule(["eacces", "permission denied"], PermissionMessage),
    Rule(["javascript heap out of memory", "out of memory"], OutOfMemoryMessage)
  ]

  /** The index of the first rule of `rules` that matches `text`, from `from` on. */
  function FirstMatch(rules: seq<Rule>, text: string, from: nat): (r: Option<nat>)
    requires from <= |rules|
    ensures r.Some? ==> from <= r.value < |rules| && Matches(rules[r.value], text)
    ensures r.Some? ==> forall j :: from <= j < r.value ==> !Matches(rules[j], text)
    ensures r.None? ==> forall j :: from <= j < |rules| ==> !Matches(rules[j], text)
    decreases |rules| - from
  {
    if from == |rules| then None
    else if Matches(rules[from], text) then Some(from)
    else FirstMatch(rules, text, from + 1)
  }

  /** `_make_advisory`: the message of the first matching rule, or "". */
  function MakeAdvisory(text: string): (r: string)
    ensures r == "" <==> forall j :: 0 <= j < |Rules| ==> !Matches(Rules[j], text)
    ensures r != "" ==>
              exists i :: 0 <= i < |Rules| && Matches(Rules[i], text) && r == Rules[i].message
                          && forall j :: 0 <= j < i ==> !Matches(Rules[j], text)
  {
    match FirstMatch(Rules, text, 0)
    case None => ""
    case Some(i) => Rules[i].message
  }

  /** The line an ERROR card shows when no rule explains the failure. */
  const FallbackAdvisory: string := "The service stopped unexpectedly. Check the log for details."

  /**
    The message `_set_pkg_state` shows for an ERROR card: the advisory of the log
    tail, or the fallback line when no rule matches.
  */
  function ErrorAdvisory(logTail: string): (r: string)
    ensures r != ""
    ensures MakeAdvisory(logTail) != "" ==> r == MakeAdvisory(logTail)
    ensures MakeAdvisory(logTail) == "" ==> r == FallbackAdvisory
  {
    var a := MakeAdvisory(logTail);
    if a != "" then a else FallbackAdvisory
  }

  /** A rule matches whatever surrounds a text it matches. */
  lemma MatchesExtend(rule: Rule, text: string, prefix: string, suffix: string)
    requires Matches(rule, text)
    ensures Matches(rule, prefix + text + suffix)
  {
    var j :| 0 <= j < |rule.alternatives| && Contains(LowerStr(text), rule.alternatives[j]);
    var a := rule.alternatives[j];
    var o: nat :| o <= |LowerStr(text)| && OccursAt(LowerStr(text), a, o);
    var big := prefix + text + suffix;
    assert LowerStr(big)[|prefix| + o..|prefix| + o + |a|] == LowerStr(text)[o..o + |a|];
    assert OccursAt(LowerStr(big), a, |prefix| + o);
  }

  /** Case does not matter: upper-case log text matches the lower-case alternative. */
  lemma MatchesIgnoringCase(rule: Rule, text: string, j: nat)
    requires j < |rule.alternatives|
    requires LowerStr(text) == rule.alternatives[j]
    ensures Matches(rule, text)
  {
    assert OccursAt(LowerStr(text), rule.alternatives[j], 0);
  }

  /**
    Table order decides: a log that shows the port conflict gets the port-in-use
    message whatever later rules (such as "not found") also match, unless the
    browser-storage rule ahead of it matches too.
  */
  lemma PortConflictWins(text: string)
    requires Matches(PortInUse, text)
    requires !Matches(Rules[0], text)
    ensures MakeAdvisory(text) == PortInUseMessage
  {
    assert Rules[1] == PortInUse;
    assert FirstMatch(Rules, text, 1) == Some(1);
    assert FirstMatch(Rules, text, 0) == Some(1);
  }

  /**
    Text carrying both "EADDRINUSE" and, later, "not found" matches both the
    port rule and the generic "not found" rule, and gets the port-in-use
    message.
  */
  lemma PortConflictBeforeNotFound(prefix: string, middle: string, suffix: string)
    requires !Matches(Rules[0], prefix + "EADDRINUSE" + middle + "not found" + suffix)
    ensures Matches(PortInUse, prefix + "EADDRINUSE" + middle + "not found" + suffix)
    ensures Matches(Rules[2], prefix + "EADDRINUSE" + middle + "not found" + suffix)
    ensures MakeAdvisory(prefix + "EADDRINUSE" + middle + "not found" + suffix) == PortInUseMessage
  {
    var core := "EADDRINUSE";
    var nf := "not found";
    var text := prefix + core + middle + nf + suffix;
    assert LowerStr(core) == "eaddrinuse";
    MatchesIgnoringCase(PortInUse, core, 0);
    MatchesExtend(PortInUse, core, prefix, middle + nf + suffix);
    assert prefix + core + (middle + nf + suffix) == text;
    assert LowerStr(nf) == Rules[2].alternatives[1];
    MatchesIgnoringCase(Rules[2], nf, 1);
    MatchesExtend(Rules[2], nf, prefix + core + middle, suffix);
    PortConflictWins(text);
  }

  /**
    The generic "not found / no such file" rule sits ahead of the missing-package
    rule, so a log that matches both gets the generic message.
  */
  lemma NotFoundShadowsMissingPackage(text: string)
    requires !Matches(Rules[0], text) && !Matches(PortInUse, text)
    requires Matches(Rules[2], text) && Matches(Rules[3], text)
    ensures MakeAdvisory(text) == NotFoundMessage
  {
    assert Rules[1] == PortInUse;
    assert FirstMatch(Rules, text, 2) == Some(2);
    assert FirstMatch(Rules, text, 1) == Some(2);
    assert FirstMatch(Rules, text, 0) == Some(2);
  }

  /** `MODULE_NOT_FOUND: No such file` matches both the generic and the missing-package rule. */
  lemma MissingModuleCoreMatches(m: string, sep: string, nf: string)
    requires m == "MODULE_NOT_FOUND" && sep == ": " && nf == "No such file"
    ensures Matches(Rules[2], m + sep + nf) && Matches(Rules[3], m + sep + nf)
  {
    assert LowerStr(m) == Rules[3].alternatives[0];
    MatchesIgnoringCase(Rules[3], m, 0);
    MatchesExtend(Rules[3], m, "", sep + nf);
    assert "" + m + (sep + nf) == m + sep + nf;
    assert LowerStr(nf) == Rules[2].alternatives[2];
    MatchesIgnoringCase(Rules[2], nf, 2);
    MatchesExtend(Rules[2], nf, m + sep, "");
    assert m + sep + nf + "" == m + sep + nf;
  }

  /**
    Inputs showing the shadowing: a missing node module whose log also says
    "No such file" is reported as a missing command or file.
  */
  lemma MissingModuleReportedAsNotFound(prefix: string, suffix: string)
    requires !Matches(Rules[0], prefix + ("MODULE_NOT_FOUND" + ": " + "No such file") + suffix)
    requires !Matches(PortInUse, prefix + ("MODULE_NOT_FOUND" + ": " + "No such file") + suffix)
    ensures Matches(Rules[3], prefix + ("MODULE_NOT_FOUND" + ": " + "No such file") + suffix)
    ensures MakeAdvisory(prefix + ("MODULE_NOT_FOUND" + ": " + "No such file") + suffix) == NotFoundMessage
  {
    var core := "MODULE_NOT_FOUND" + ": " + "No such file";
    var text := prefix + core + suffix;
    MissingModuleCoreMatches("MODULE_NOT_FOUND", ": ", "No such file");
    MatchesExtend(Rules[2], core, prefix, suffix);
    MatchesExtend(Rules[3], core, prefix, suffix);
    NotFoundShadowsMissingPackage(text);
  }
}

=== FILE: backup.dfy ===
/**
  The periodic backup pass `_fairy_backup_loop`: which package directories are
  backed up on one pass, and which of those are also pushed. The backup itself
  (`_fairy_backup_pkg`, a series of git commands) is not modelled.
*/
module Backup {

  import opened Text
  import opened Service

  /** One `_fairy_backup_pkg(pkg_dir, push=push)` call. */
  datatype Job = Job(name: string, push: bool)

  /** Only repositories of the `ux-mark` account are pushed. */
  predicate Pushes(pkg: PackageConfig) {
    Contains(pkg.repo, "ux-mark/")
  }

  /** The call a pass makes for a package. */
  function JobOf(pkg: PackageConfig): Job {
    Job(pkg.name, Pushes(pkg))
  }

  /** A package a pass backs up: its directory exists and, in the newer variant, it did not opt out. */
  predicate Eligible(v: Variant, pkg: PackageConfig, cloned: set<string>) {
    BackupEnabled(v, pkg) && pkg.name in cloned
  }

  /**
    One pass over the configured packages, in order. `cloned` holds the names
    whose package directory exists.
  */
  function BackupPass(v: Variant, pkgs: seq<PackageConfig>, cloned: set<string>): (jobs: seq<Job>)
    ensures |jobs| <= |pkgs|
    ensures (forall k :: 0 <= k < |pkgs| ==> Eligible(v, pkgs[k], cloned)) ==> |jobs| == |pkgs|
    ensures (forall k :: 0 <= k < |pkgs| ==> !Eligible(v, pkgs[k], cloned)) ==> jobs == []
    decreases |pkgs|
  {
    if pkgs == [] then []
    else
      var rest := BackupPass(v, pkgs[1..], cloned);
      if Eligible(v, pkgs[0], cloned) then [JobOf(pkgs[0])] + rest else rest
  }

  /**
    A pass makes exactly the calls of the eligible packages: the directory
    exists, the package did not opt out, and it is pushed exactly when its
    repository belongs to `ux-mark`.
  */
  lemma {:induction false} BackupPassJobs(v: Variant, pkgs: seq<PackageConfig>, cloned: set<string>)
    ensures forall x :: x in BackupPass(v, pkgs, cloned) <==>
              exists k :: 0 <= k < |pkgs| && Eligible(v, pkgs[k], cloned) && x == JobOf(pkgs[k])
    decreases |pkgs|
  {
    if pkgs != [] {
      BackupPassJobs(v, pkgs[1..], cloned);
      var rest := BackupPass(v, pkgs[1..], cloned);
      forall x ensures x in BackupPass(v, pkgs, cloned) <==>
                       exists k :: 0 <= k < |pkgs| && Eligible(v, pkgs[k], cloned) && x == JobOf(pkgs[k]) {
        if x in rest {
          var k :| 0 <= k < |pkgs[1..]| && Eligible(v, pkgs[1..][k], cloned) && x == JobOf(pkgs[1..][k]);
          assert pkgs[k + 1] == pkgs[1..][k];
        }
        if exists k :: 0 <= k < |pkgs| && Eligible(v, pkgs[k], cloned) && x == JobOf(pkgs[k]) {
          var k :| 0 <= k < |pkgs| && Eligible(v, pkgs[k], cloned) && x == JobOf(pkgs[k]);
          if k > 0 {
            assert pkgs[1..][k - 1] == pkgs[k];
          }
        }
      }
    }
  }

  /** A pass works package by package: the jobs for two lists are the jobs for each, in order. */
  lemma {:induction false} BackupPassAppend(v: Variant, a: seq<PackageConfig>, b: seq<PackageConfig>, cloned: set<string>)
    ensures BackupPass(v, a + b, cloned) == BackupPass(v, a, cloned) + BackupPass(v, b, cloned)
    decreases |a|
  {
    if a == [] {
      assert a + b == b;
    } else {
      assert (a + b)[0] == a[0] && (a + b)[1..] == a[1..] + b;
      BackupPassAppend(v, a[1..], b, cloned);
    }
  }

  /** The packages that did not opt out of backups. */
  function OptedIn(pkgs: seq<PackageConfig>): (r: seq<PackageConfig>)
    ensures forall k :: 0 <= k < |r| ==> r[k].fairyBackup && r[k] in pkgs
    decreases |pkgs|
  {
    if pkgs == [] then []
    else if pkgs[0].fairyBackup then [pkgs[0]] + OptedIn(pkgs[1..])
    else OptedIn(pkgs[1..])
  }

  /** The newer variant's pass is the older one's over the packages that did not opt out. */
  lemma {:induction false} OptOutIsFilter(pkgs: seq<PackageConfig>, cloned: set<string>)
    ensures BackupPass(FairyStart, pkgs, cloned) == BackupPass(Autostart, OptedIn(pkgs), cloned)
    decreases |pkgs|
  {
    if pkgs != [] {
      OptOutIsFilter(pkgs[1..], cloned);
      var p := pkgs[0];
      if p.fairyBackup {
        assert ([p] + OptedIn(pkgs[1..]))[1..] == OptedIn(pkgs[1..]);
      }
    }
  }
}

=== FILE: config.dfy ===
/**
  Writing `config.toml`: the string escaping `_toml_str`, the full rewrite
  `rewrite_config` and the append `append_package_to_config`. Reading the file
  back is TOML parsing, which is not modelled; `Unescape` decodes the basic
  string form the writer produces.
*/
module Config {

  import opened Wrappers
  import opened Text
  import opened Service

  /** `s.replace(c, repl)` for a one-character `c`. */
  function ReplaceChar(s: string, c: char, repl: string): (r: string)
    ensures c !in s ==> r == s
  {
    if s == [] then []
    else (if s[0] == c then repl else [s[0]]) + ReplaceChar(s[1..], c, repl)
  }

  /** The escape of one character inside a TOML basic string, as `_toml_str` writes it. */
  function EscapeChar(c: char): (r: string)
    ensures c == '\\' ==> r == ['\\', '\\']
    ensures c == '"' ==> r == ['\\', '"']
    ensures c != '\\' && c != '"' ==> r == [c]
  {
    if c == '\\' then ['\\', '\\'] else if c == '"' then ['\\', '"'] else [c]
  }

  /** Character-by-character escaping: the reference `_toml_str` is checked against. */
  function Escape(s: string): (r: string)
    ensures |r| >= |s|
  {
    if s == [] then [] else EscapeChar(s[0]) + Escape(s[1..])
  }

  /** `_toml_str`: backslashes doubled first, then quotes escaped. */
  function TomlStr(s: string): string {
    ReplaceChar(ReplaceChar(s, '\\', ['\\', '\\']), '"', ['\\', '"'])
  }

  lemma ReplaceCharConcat(a: string, b: string, c: char, repl: string)
    ensures ReplaceChar(a + b, c, repl) == ReplaceChar(a, c, repl) + ReplaceChar(b, c, repl)
    decreases |a|
  {
    if a == [] {
      assert a + b == b;
    } else {
      assert (a + b)[0] == a[0] && (a + b)[1..] == a[1..] + b;
      ReplaceCharConcat(a[1..], b, c, repl);
    }
  }

  /** The two passes of `_toml_str` escape each character independently: the second pass never sees a quote the first one made. */
  lemma {:induction false} TomlStrIsEscape(s: string)
    ensures TomlStr(s) == Escape(s)
    decreases |s|
  {
    if s != [] {
      var bs := ['\\', '\\'];
      var q := ['\\', '"'];
      var head := if s[0] == '\\' then bs else [s[0]];
      assert s == [s[0]] + s[1..];
      assert ReplaceChar(s, '\\', bs) == head + ReplaceChar(s[1..], '\\', bs);
      ReplaceCharConcat(head, ReplaceChar(s[1..], '\\', bs), '"', q);
      if s[0] == '\\' {
        assert ReplaceChar(head, '"', q) == bs;
      } else if s[0] == '"' {
        assert ReplaceChar(head, '"', q) == q;
      } else {
        assert ReplaceChar(head, '"', q) == [s[0]];
      }
      TomlStrIsEscape(s[1..]);
    }
  }

  /** Characters a TOML basic string may not hold raw: the control characters other than tab. */
  predicate IsControl(c: char) {
    (c as int < 32 && c != '\t') || c as int == 127
  }

  /**
    Decoding the body of a TOML basic string that uses only the `\\` and `\\"`
    escapes: `None` for any other escape, a bare quote or a control character.
  */
  function Unescape(t: string): (r: Option<string>)
    decreases |t|
  {
    if t == [] then Some([])
    else if t[0] == '\\' then
      if |t| >= 2 && (t[1] == '\\' || t[1] == '"') then
        match Unescape(t[2..])
        case None => None
        case Some(rest) => Some([t[1]] + rest)
      else None
    else if t[0] == '"' || IsControl(t[0]) then None
    else
      match Unescape(t[1..])
      case None => None
      case Some(rest) => Some([t[0]] + rest)
  }

  predicate NoControl(s: string) {
    forall i :: 0 <= i < |s| ==> !IsControl(s[i])
  }

  /** A value without control characters is written so that it reads back unchanged. */
  lemma {:induction false} TomlStrRoundTrip(s: string)
    requires NoControl(s)
    ensures Unescape(TomlStr(s)) == Some(s)
    decreases |s|
  {
    TomlStrIsEscape(s);
    EscapeRoundTrip(s);
  }

  lemma {:induction false} EscapeRoundTrip(s: string)
    requires NoControl(s)
    ensures Unescape(Escape(s)) == Some(s)
    decreases |s|
  {
    if s != [] {
      var e := Escape(s);
      var tail := Escape(s[1..]);
      assert e == EscapeChar(s[0]) + tail;
      EscapeRoundTrip(s[1..]);
      if s[0] == '\\' || s[0] == '"' {
        assert e[0] == '\\' && e[1] == s[0];
        assert e[2..] == tail;
      } else {
        assert e[0] == s[0];
        assert e[1..] == tail;
      }
      assert [s[0]] + s[1..] == s;
    }
  }

  /** `_toml_str` adds one backslash per backslash and per quote. */
  lemma {:induction false} TomlStrLength(s: string)
    ensures |TomlStr(s)| == |s| + multiset(s)['\\'] + multiset(s)['"']
    decreases |s|
  {
    TomlStrIsEscape(s);
    EscapeLength(s);
  }

  lemma {:induction false} EscapeLength(s: string)
    ensures |Escape(s)| == |s| + multiset(s)['\\'] + multiset(s)['"']
    decreases |s|
  {
    if s != [] {
      assert s == [s[0]] + s[1..];
      assert multiset(s) == multiset([s[0]]) + multiset(s[1..]);
      EscapeLength(s[1..]);
    }
  }

  /** `key = "value"`, with the value escaped. */
  function Field(key: string, value: string): string {
    key + " = \"" + TomlStr(value) + "\""
  }

  /** The width of the key column of a package table: the length of `start_command`. */
  const KeyColumn: nat := 13

  /** A key padded with blanks to the column the writer aligns values on. */
  function Pad(key: string): (r: string)
    ensures |r| == if |key| < KeyColumn then KeyColumn else |key|
  {
    key + seq(if |key| < KeyColumn then KeyColumn - |key| else 0, _ => ' ')
  }

  /**
    Reading back one `key = "body"` line as the writer lays it out: the key
    runs to the first blank; blanks, `=`, blanks and a quote follow, and the
    body runs to the final quote. The body is returned still escaped.
  */
  function ReadField(line: string): (r: Option<(string, string)>)
    ensures r.Some? ==> ' ' !in r.value.0 && |r.value.1| < |line|
  {
    var k := FindChar(line, ' ');
    var e := SkipSpaces(line, k);
    if k < |line| && e < |line| && line[e] == '=' then
      var q := SkipSpaces(line, e + 1);
      if q + 1 < |line| && line[q] == '"' && line[|line| - 1] == '"' then
        assert forall j :: 0 <= j < k ==> line[..k][j] == line[j];
        Some((line[..k], line[q + 1..|line| - 1]))
      else None
    else None
  }

  /**
    Every field the writer lays out reads back as its key and its escaped
    value, whatever the padding: the key has no blank and fits the column.
  */
  lemma FieldReadBack(key: string, value: string)
    requires key != [] && ' ' !in key && |key| <= KeyColumn
    ensures ReadField(Field(Pad(key), value)) == Some((key, TomlStr(value)))
  {
    var pad := seq(KeyColumn - |key|, _ => ' ');
    var t := TomlStr(value);
    var line := Field(Pad(key), value);
    var e := KeyColumn + 1;
    assert line == key + pad + [' ', '=', ' ', '"'] + t + ['"'];
    assert forall j :: 0 <= j < |key| ==> line[j] == key[j];
    assert line[|key|] == ' ';
    assert FindChar(line, ' ') == |key|;
    assert forall j :: |key| <= j < e ==> line[j] == ' ';
    assert line[e] == '=';
    assert SkipSpaces(line, |key|) == e;
    assert line[e + 1] == ' ' && line[e + 2] == '"';
    assert SkipSpaces(line, e + 1) == e + 2;
    assert line[..|key|] == key;
    assert line[e + 3..|line| - 1] == t;
  }

  /** The lines `append_package_to_config` writes for one package (it never writes `fairy_backup`). */
  function AppendLines(pkg: PackageConfig): (lines: seq<string>)
    ensures |lines| == (if HasUrl(pkg) then 7 else 6)
    ensures lines[0] == "" && lines[1] == "[[package]]"
  {
    PackageFields(pkg) + (if HasUrl(pkg) then [Field(Pad("url"), pkg.url.value)] else [])
  }

  /**
    Read back line by line, the appended block holds each field of the
    package under its own key, in the order name, repo, branch, start
    command and, when there is one, URL.
  */
  lemma AppendLinesReadBack(pkg: PackageConfig)
    ensures var lines := AppendLines(pkg);
            && ReadField(lines[2]) == Some(("name", TomlStr(pkg.name)))
            && ReadField(lines[3]) == Some(("repo", TomlStr(pkg.repo)))
            && ReadField(lines[4]) == Some(("branch", TomlStr(pkg.branch)))
            && ReadField(lines[5]) == Some(("start_command", TomlStr(pkg.startCommand)))
            && (HasUrl(pkg) ==> ReadField(lines[6]) == Some(("url", TomlStr(pkg.url.value))))
  {
    var lines := AppendLines(pkg);
    assert lines[..6] == PackageFields(pkg);
    var fields := PackageFields(pkg);
    assert fields[2] == Field(Pad("name"), pkg.name) && fields[3] == Field(Pad("repo"), pkg.repo);
    assert fields[4] == Field(Pad("branch"), pkg.branch);
    assert fields[5] == Field(Pad("start_command"), pkg.startCommand);
    KeyFits("name");
    FieldReadBack("name", pkg.name);
    KeyFits("repo");
    FieldReadBack("repo", pkg.repo);
    KeyFits("branch");
    FieldReadBack("branch", pkg.branch);
    KeyFits("start_command");
    FieldReadBack("start_command", pkg.startCommand);
    if HasUrl(pkg) {
      KeyFits("url");
      FieldReadBack("url", pkg.url.value);
    }
  }

  lemma KeyFits(key: string)
    requires key in ["name", "repo", "branch", "start_command", "url"]
    ensures key != [] && ' ' !in key && |key| <= KeyColumn
  {
  }

  /** The header and the four fields every package block has. */
  function PackageFields(pkg: PackageConfig): (lines: seq<string>)
    ensures |lines| == 6 && lines[0] == "" && lines[1] == "[[package]]"
  {
    ["", "[[package]]",
     Field(Pad("name"), pkg.name),
     Field(Pad("repo"), pkg.repo),
     Field(Pad("branch"), pkg.branch),
     Field(Pad("start_command"), pkg.startCommand)]
  }

  /** The lines `rewrite_config` writes for one package; only the newer variant records an opt-out. */
  function PackageLines(v: Variant, pkg: PackageConfig): (lines: seq<string>)
    ensures BackupEnabled(v, pkg) ==> lines == AppendLines(pkg)
    ensures !BackupEnabled(v, pkg) ==> lines == AppendLines(pkg) + ["fairy_backup  = false"]
  {
    AppendLines(pkg) + (if v == FairyStart && !pkg.fairyBackup then ["fairy_backup  = false"] else [])
  }

  function AllPackageLines(v: Variant, pkgs: seq<PackageConfig>): seq<string>
    decreases |pkgs|
  {
    if pkgs == [] then [] else AllPackageLines(v, pkgs[..|pkgs| - 1]) + PackageLines(v, pkgs[|pkgs| - 1])
  }

  /** `rewrite_config`: the settings table, then every package, newline-terminated. */
  function RewriteConfig(v: Variant, packagesDir: string, pkgs: seq<PackageConfig>): (text: string)
    ensures |text| > 0 && text[|text| - 1] == '\n'
  {
    Join(["[settings]", Field("packages_dir", packagesDir)] + AllPackageLines(v, pkgs), '\n') + "\n"
  }

  /** What `append_package_to_config` adds to the end of the file. */
  function AppendText(pkg: PackageConfig): (text: string)
    ensures |text| > 0 && text[0] == '\n' && text[|text| - 1] == '\n'
  {
    var lines := AppendLines(pkg);
    assert lines == [lines[0]] + lines[1..];
    JoinCons(lines[0], lines[1..], '\n');
    Join(lines, '\n') + "\n"
  }

  lemma JoinCons(a: string, rest: seq<string>, sep: char)
    requires |rest| > 0
    ensures Join([a] + rest, sep) == a + [sep] + Join(rest, sep)
  {
    assert ([a] + rest)[1..] == rest;
  }

  /** Joining two non-empty lists is joining each and putting one separator between. */
  lemma {:induction false} JoinAppend(a: seq<string>, b: seq<string>, sep: char)
    requires |a| > 0 && |b| > 0
    ensures Join(a + b, sep) == Join(a, sep) + [sep] + Join(b, sep)
    decreases |a|
  {
    if |a| == 1 {
      JoinCons(a[0], b, sep);
      assert a + b == [a[0]] + b;
    } else {
      assert a + b == [a[0]] + (a[1..] + b);
      JoinCons(a[0], a[1..] + b, sep);
      JoinAppend(a[1..], b, sep);
      assert a == [a[0]] + a[1..];
      JoinCons(a[0], a[1..], sep);
    }
  }

  /**
    Appending a package to a file `rewrite_config` wrote gives the file it would
    write with the package included, whenever the package has no backup opt-out
    to record (the append never writes one).
  */
  lemma AppendAgreesWithRewrite(v: Variant, packagesDir: string, pkgs: seq<PackageConfig>, pkg: PackageConfig)
    requires BackupEnabled(v, pkg)
    ensures RewriteConfig(v, packagesDir, pkgs) + AppendText(pkg) == RewriteConfig(v, packagesDir, pkgs + [pkg])
  {
    var head := ["[settings]", Field("packages_dir", packagesDir)];
    var before := head + AllPackageLines(v, pkgs);
    var added := AppendLines(pkg);
    AllPackageLinesSnoc(v, pkgs, pkg);
    assert head + AllPackageLines(v, pkgs + [pkg]) == before + added;
    JoinAppend(before, added, '\n');
  }

  /** A rewrite lists the packages' blocks one after another. */
  lemma AllPackageLinesSnoc(v: Variant, pkgs: seq<PackageConfig>, pkg: PackageConfig)
    ensures AllPackageLines(v, pkgs + [pkg]) == AllPackageLines(v, pkgs) + PackageLines(v, pkg)
  {
    assert (pkgs + [pkg])[..|pkgs + [pkg]| - 1] == pkgs;
  }
  /**
    The other direction: for a package that opts out of backups, the appended
    text lacks the `fairy_backup` line a rewrite would contain, so the file
    differs from the rewritten one by exactly that line, at its end.
  */
  lemma AppendLosesOptOut(v: Variant, packagesDir: string, pkgs: seq<PackageConfig>, pkg: PackageConfig)
    requires !BackupEnabled(v, pkg)
    ensures RewriteConfig(v, packagesDir, pkgs + [pkg])
            == RewriteConfig(v, packagesDir, pkgs) + AppendText(pkg) + "fairy_backup  = false\n"
    ensures RewriteConfig(v, packagesDir, pkgs) + AppendText(pkg) != RewriteConfig(v, packagesDir, pkgs + [pkg])
  {
    var head := ["[settings]", Field("packages_dir", packagesDir)];
    var before := head + AllPackageLines(v, pkgs);
    var added := AppendLines(pkg);
    var optOut := "fairy_backup  = false";
    assert (pkgs + [pkg])[..|pkgs + [pkg]| - 1] == pkgs;
    assert AllPackageLines(v, pkgs + [pkg]) == AllPackageLines(v, pkgs) + (added + [optOut]);
    assert head + AllPackageLines(v, pkgs + [pkg]) == before + (added + [optOut]);
    JoinAppend(before, added + [optOut], '\n');
    JoinAppend(added, [optOut], '\n');
  }

  /** With no packages, `rewrite_config` writes only the settings table. */
  lemma RewriteEmpty(v: Variant, packagesDir: string)
    ensures RewriteConfig(v, packagesDir, []) == "[settings]\n" + Field("packages_dir", packagesDir) + "\n"
  {
    var head := ["[settings]", Field("packages_dir", packagesDir)];
    assert head + AllPackageLines(v, []) == head;
    JoinCons("[settings]", [Field("packages_dir", packagesDir)], '\n');
  }

  /** Escaping never introduces a line break. */
  lemma {:induction false} EscapeOneLine(s: string)
    requires '\n' !in s
    ensures '\n' !in Escape(s)
    decreases |s|
  {
    if s != [] {
      assert s[0] != '\n';
      assert s[1..] == s[|[s[0]]|..];
      EscapeOneLine(s[1..]);
    }
  }

  /** A field whose key and value hold no line break is one line. */
  lemma FieldOneLine(key: string, value: string)
    requires '\n' !in key && '\n' !in value
    ensures '\n' !in Field(Pad(key), value)
  {
    TomlStrIsEscape(value);
    EscapeOneLine(value);
  }

  /** Every line the append writes is one line when no value holds a line break. */
  lemma AppendLinesOneLine(pkg: PackageConfig)
    requires '\n' !in pkg.name && '\n' !in pkg.repo && '\n' !in pkg.branch && '\n' !in pkg.startCommand
    requires HasUrl(pkg) ==> '\n' !in pkg.url.value
    ensures forall k :: 0 <= k < |AppendLines(pkg)| ==> '\n' !in AppendLines(pkg)[k]
  {
    var lines := AppendLines(pkg);
    var fields := PackageFields(pkg);
    assert forall k :: 0 <= k < 6 ==> lines[k] == fields[k];
    FieldOneLine("name", pkg.name);
    FieldOneLine("repo", pkg.repo);
    FieldOneLine("branch", pkg.branch);
    FieldOneLine("start_command", pkg.startCommand);
    assert forall k :: 0 <= k < 6 ==> '\n' !in fields[k];
    if HasUrl(pkg) {
      FieldOneLine("url", pkg.url.value);
      assert lines[6] == Field(Pad("url"), pkg.url.value);
    }
  }

  /** Newline-terminated lines split back into the lines and an empty remainder. */
  lemma SplitTerminated(lines: seq<string>)
    requires |lines| >= 1 && forall k :: 0 <= k < |lines| ==> '\n' !in lines[k]
    ensures Split(Join(lines, '\n') + "\n", '\n') == lines + [""]
  {
    var all := lines + [""];
    JoinAppend(lines, [""], '\n');
    assert Join(all, '\n') == Join(lines, '\n') + "\n";
    assert forall k :: 0 <= k < |all| ==> '\n' !in all[k] by {
      forall k | 0 <= k < |all| ensures '\n' !in all[k] {
        if k < |lines| { assert all[k] == lines[k]; } else { assert all[k] == ""; }
      }
    }
    SplitJoin(all, '\n');
  }

  /**
    Split back into lines, the appended text is the blank separator line, the
    package's lines and the empty remainder after the final newline, as long
    as no value holds a line break.
  */
  lemma AppendTextLines(pkg: PackageConfig)
    requires '\n' !in pkg.name && '\n' !in pkg.repo && '\n' !in pkg.branch && '\n' !in pkg.startCommand
    requires HasUrl(pkg) ==> '\n' !in pkg.url.value
    ensures Split(AppendText(pkg), '\n') == AppendLines(pkg) + [""]
  {
    AppendLinesOneLine(pkg);
    SplitTerminated(AppendLines(pkg));
  }
}

=== FILE: detect.dfy ===
/**
  Service detection for a GitHub repository (`detect_service` and the
  per-ecosystem helpers). The repository is given as the files it has: a path
  maps to its text exactly when fetching it succeeds. JSON decoding is not
  modelled: `package.json` arrives already decoded.
*/
module Detect {

  import opened Wrappers
  import opened Text
  import opened Patterns
  import opened Ports

  /** The repository's files that detection may read, by path. */
  type Files = map<string, string>

  /** `gh_file_content(owner, repo, path)` */
  function Fetch(files: Files, path: string): Option<string> {
    if path in files then Some(files[path]) else None
  }

  /** The decoded `package.json`; `dependencies` and `devDependencies` are reduced to their keys. */
  datatype PackageJson =
    | Unparseable
    | Parsed(scripts: map<string, string>, dependencies: set<string>, devDependencies: set<string>)

  /** The answer of the repository API: its `name` and `default_branch`, when present. */
  datatype RepoInfo = RepoInfo(name: Option<string>, defaultBranch: Option<string>)

  datatype Confidence = Full | Partial | NoneFound

  datatype DetectionResult = DetectionResult(
    name: string,
    repoSlug: string,
    branch: string,
    startCommand: string,
    url: string,
    confidence: Confidence,
    notes: string)

  /** A `(cmd, url, notes)` triple of a detection helper. */
  datatype Found = Found(cmd: string, url: string, notes: string)

  /** A URL detection fills in: empty, or a localhost URL. */
  predicate IsLocalUrl(url: string) {
    url == "" || StartsWith(url, "http://localhost:")
  }

  /** The npm script that starts the service: the first of dev, start and serve that exists. */
  function ScriptKey(scripts: map<string, string>): (k: Option<string>)
    ensures k.Some? ==> k.value in scripts && k.value in ["dev", "start", "serve"]
    ensures k.None? <==> "dev" !in scripts && "start" !in scripts && "serve" !in scripts
    ensures "dev" in scripts ==> k == Some("dev")
    ensures "dev" !in scripts && "start" in scripts ==> k == Some("start")
  {
    if "dev" in scripts then Some("dev")
    else if "start" in scripts then Some("start")
    else if "serve" in scripts then Some("serve")
    else None
  }

  /** The default development port of the first known framework among the dependencies. */
  function FrameworkPort(deps: set<string>): (p: Option<string>)
    ensures p.None? <==> "next" !in deps && "vite" !in deps && "react-scripts" !in deps
                         && "nuxt" !in deps && "svelte" !in deps && "@sveltejs/kit" !in deps
    ensures p.Some? ==> p.value == "3000" || p.value == "5173"
    ensures "next" in deps ==> p == Some("3000")
    ensures "next" !in deps && "vite" in deps ==> p == Some("5173")
    ensures "next" !in deps && "vite" !in deps && ("react-scripts" in deps || "nuxt" in deps) ==> p == Some("3000")
    ensures ("next" !in deps && "vite" !in deps && "react-scripts" !in deps && "nuxt" !in deps
             && ("svelte" in deps || "@sveltejs/kit" in deps)) ==> p == Some("5173")
  {
    if "next" in deps then Some("3000")
    else if "vite" in deps then Some("5173")
    else if "react-scripts" in deps then Some("3000")
    else if "nuxt" in deps then Some("3000")
    else if "svelte" in deps || "@sveltejs/kit" in deps then Some("5173")
    else None
  }

  /** `_detect_from_package_json` */
  function FromPackageJson(pj: PackageJson): (r: Found)
    ensures r.cmd != "" <==> pj.Parsed? && ScriptKey(pj.scripts).Some?
    ensures r.cmd != "" ==> r.cmd == "npm run " + ScriptKey(pj.scripts).value
    ensures r.url != "" ==> r.cmd != ""
    ensures IsLocalUrl(r.url)
    ensures r.cmd != "" && First(PortFlag, pj.scripts[ScriptKey(pj.scripts).value]).Some? ==>
              r.url == "http://localhost:" + First(PortFlag, pj.scripts[ScriptKey(pj.scripts).value]).value
    ensures r.cmd != "" && First(PortFlag, pj.scripts[ScriptKey(pj.scripts).value]).None? ==>
              r.url == LocalUrl(FrameworkPort(pj.dependencies + pj.devDependencies))
    ensures pj.Unparseable? ==> r == Found("", "", "Could not parse package.json.")
  {
    match pj
    case Unparseable => Found("", "", "Could not parse package.json.")
    case Parsed(scripts, deps, devDeps) =>
      match ScriptKey(scripts)
      case None => Found("", "", "Found package.json but no dev/start/serve script.")
      case Some(key) =>
        var flag := First(PortFlag, scripts[key]);
        var port := if flag.Some? then flag else FrameworkPort(deps + devDeps);
        Found("npm run " + key, LocalUrl(port), "Detected npm script: " + key + ".")
  }

  /**
    An npm `dev` script that passes `--port=N` is started with `npm run dev`
    and served at port `N`, whatever the framework.
  */
  lemma PackageJsonPortRoundTrip(scripts: map<string, string>, deps: set<string>, devDeps: set<string>,
                                 d: string, rest: string)
    requires IsDigits(d) && (rest == [] || IsSpace(rest[0]))
    requires "dev" in scripts && scripts["dev"] == Rendered(PortFlag, d) + rest
    ensures FromPackageJson(Parsed(scripts, deps, devDeps)).cmd == "npm run dev"
    ensures FromPackageJson(Parsed(scripts, deps, devDeps)).url == "http://localhost:" + d
  {
    FirstRendered(PortFlag, d, rest);
    assert ScriptKey(scripts) == Some("dev");
    NpmRunDev();
  }

  lemma NpmRunDev()
    ensures "npm run " + "dev" == "npm run dev"
  {
  }

  /** The command of the first `web:` line of a Procfile, stripped. */
  function WebCommand(lines: seq<string>): (r: Option<string>)
    ensures r.Some? ==> exists k :: 0 <= k < |lines| && StartsWith(Strip(lines[k]), "web:")
                                  && r.value == Strip(Strip(lines[k])[4..])
                                  && forall j :: 0 <= j < k ==> !StartsWith(Strip(lines[j]), "web:")
    ensures r.None? <==> forall k :: 0 <= k < |lines| ==> !StartsWith(Strip(lines[k]), "web:")
  {
    var hits := seq(|lines|, j requires 0 <= j < |lines| => StartsWith(Strip(lines[j]), "web:"));
    assert forall j :: 0 <= j < |lines| ==> hits[j] == StartsWith(Strip(lines[j]), "web:");
    var k := FirstTrue(hits);
    if k < |lines| then Some(Strip(Strip(lines[k])[4..])) else None
  }

  /** `_detect_from_procfile`: the `web:` command and the URL of the port it names. */
  function FromProcfile(content: string): (r: (string, string))
    ensures WebCommand(SplitLines(content)).None? ==> r == ("", "")
    ensures WebCommand(SplitLines(content)).Some? ==>
              r == (WebCommand(SplitLines(content)).value, LocalUrl(PortFromCommand(WebCommand(SplitLines(content)).value)))
    ensures IsLocalUrl(r.1)
  {
    match WebCommand(SplitLines(content))
    case None => ("", "")
    case Some(cmd) => (cmd, LocalUrl(PortFromCommand(cmd)))
  }

  /**
    A Procfile whose one line declares `web: c` starts `c`, at the port `c`
    names.
  */
  lemma ProcfileRoundTrip(c: string)
    requires c != [] && IsSingleLine(c) && !IsSpace(c[0]) && !IsSpace(c[|c| - 1])
    ensures FromProcfile("web: " + c) == (c, LocalUrl(PortFromCommand(c)))
  {
    ProcfileWebLine(c);
  }

  /** The `web:` line of such a Procfile declares `c`. */
  lemma ProcfileWebLine(c: string)
    requires c != [] && IsSingleLine(c) && !IsSpace(c[0]) && !IsSpace(c[|c| - 1])
    ensures WebCommand(SplitLines("web: " + c)) == Some(c)
  {
    var line := "web: " + c;
    WebPrefixSingleLine();
    SingleLineConcat("web: ", c);
    SplitLinesSingle(line);
    WebLineStrips(c);
    WebCommandSingle(line);
  }

  /** Stripping the line `web: c` and then its command leaves `c`. */
  lemma WebLineStrips(c: string)
    requires c != [] && !IsSpace(c[0]) && !IsSpace(c[|c| - 1])
    ensures Strip("web: " + c) == "web: " + c && StartsWith("web: " + c, "web:")
    ensures Strip(("web: " + c)[4..]) == c
  {
    var line := "web: " + c;
    assert line[|line| - 1] == c[|c| - 1];
    StripUnchanged(line);
    assert line[..4] == "web:";
    WebSpace(c);
    StripSpaceBefore(c);
  }

  lemma WebSpace(c: string)
    ensures ("web: " + c)[4..] == " " + c
  {
    assert "web: " + c == "web:" + (" " + c);
  }

  lemma WebPrefixSingleLine()
    ensures IsSingleLine("web: ")
  {
  }

  /** A Procfile of one `web:` line declares that line's command. */
  lemma WebCommandSingle(line: string)
    requires StartsWith(Strip(line), "web:")
    ensures WebCommand([line]) == Some(Strip(Strip(line)[4..]))
  {
    var hits := seq(1, j requires 0 <= j < 1 => StartsWith(Strip([line][j]), "web:"));
    assert hits == [true];
    assert FirstTrue(hits) == 0;
  }

  /** `re.match(r'^start\s*:', line)` */
  predicate IsStartTarget(line: string) {
    StartsWith(line, "start") && SkipSpaces(line, 5) < |line| && line[SkipSpaces(line, 5)] == ':'
  }

  /** `_makefile_has_start` */
  predicate MakefileHasStart(content: string) {
    exists k :: 0 <= k < |SplitLines(content)| && IsStartTarget(SplitLines(content)[k])
  }

  /** A Makefile that opens with a `start:` target has one. */
  lemma MakefileStartsWithStart(rest: string)
    ensures MakefileHasStart("start:" + rest)
  {
    var content := "start:" + rest;
    SplitLinesFirst(content);
    var k := FindLineBreak(content);
    PrefixOfConcat("start:", rest);
    StartSingleLine();
    assert forall j :: 0 <= j < 6 ==> content[j] == content[..6][j];
    assert k >= 6;
    assert content[..k][..6] == content[..6];
    StartTargetLine(content[..k]);
  }

  lemma StartSingleLine()
    ensures IsSingleLine("start:")
  {
  }

  /** A line that opens with `start:` is a start target. */
  lemma StartTargetLine(line: string)
    requires |line| >= 6 && line[..6] == "start:"
    ensures IsStartTarget(line)
  {
    assert line[..5] == "start";
    assert line[5] == ':';
  }

  /** `.py` ends at index `e` of `s`. */
  predicate PyEndsAt(s: string, e: nat) {
    3 <= e <= |s| && s[e - 3..e] == ".py"
  }

  /**
    The end of the group of `\S+\.py` started at `k`: the last `.py` inside the
    non-space run, with at least one character before it. `j` scans down from
    the end of the run.
  */
  function LastPyEnd(s: string, k: nat, j: nat): (r: Option<nat>)
    requires k <= j <= |s|
    ensures r.Some? ==> k + 4 <= r.value <= j && PyEndsAt(s, r.value)
    ensures r.Some? ==> forall e :: r.value < e <= j ==> !PyEndsAt(s, e)
    ensures r.None? <==> forall e :: k + 4 <= e <= j ==> !PyEndsAt(s, e)
    decreases j
  {
    if j < k + 4 then None
    else if PyEndsAt(s, j) then Some(j)
    else LastPyEnd(s, k, j - 1)
  }

  /** The group of `re.match(r'python\d*\s+(\S+\.py)', cmd)`: the script a Procfile command runs. */
  function PythonScript(cmd: string): (r: Option<string>)
    ensures r.Some? ==> StartsWith(cmd, "python") && EndsWith(r.value, ".py") && |r.value| >= 4
    ensures r.Some? ==> Contains(cmd, r.value) && forall j :: 0 <= j < |r.value| ==> !IsSpace(r.value[j])
  {
    if StartsWith(cmd, "python") then
      var d := DigitEnd(cmd, 6);
      var k := SkipSpaces(cmd, d);
      if k > d then
        match LastPyEnd(cmd, k, NonSpaceEnd(cmd, k))
        case None => None
        case Some(e) =>
          assert cmd[k..e][|cmd[k..e]| - 3..] == cmd[e - 3..e];
          assert OccursAt(cmd, cmd[k..e], k);
          Some(cmd[k..e])
      else None
    else None
  }

  /**
    `python script.py` and `python3  script.py --port 5000` give back the
    script: any digits after `python`, a run of blanks, a blank-free name
    ending in `.py`, then nothing or a blank and any arguments.
  */
  lemma PythonScriptRoundTrip(v: string, sep: string, f: string, rest: string)
    requires forall i :: 0 <= i < |v| ==> IsDigit(v[i])
    requires |sep| > 0 && forall i :: 0 <= i < |sep| ==> IsSpace(sep[i])
    requires |f| >= 4 && EndsWith(f, ".py") && forall i :: 0 <= i < |f| ==> !IsSpace(f[i])
    requires rest == [] || IsSpace(rest[0])
    ensures PythonScript("python" + v + sep + f + rest) == Some(f)
  {
    var cmd := "python" + v + sep + f + rest;
    var d := 6 + |v|;
    var k := d + |sep|;
    var e := k + |f|;
    assert cmd[..6] == "python";
    assert forall i :: 6 <= i < d ==> cmd[i] == v[i - 6];
    assert forall i :: d <= i < k ==> cmd[i] == sep[i - d];
    assert forall i :: k <= i < e ==> cmd[i] == f[i - k];
    assert e < |cmd| ==> cmd[e] == rest[0];
    assert cmd[k..e] == f;
    assert cmd[e - 3..e] == f[|f| - 3..];
    PythonScriptAfter(cmd, d, k, e);
  }

  /** The shape the round trip builds: `python`, digits up to `d`, blanks up to `k`, the script up to `e`. */
  lemma PythonScriptAfter(cmd: string, d: nat, k: nat, e: nat)
    requires StartsWith(cmd, "python") && 6 <= d < k && k + 4 <= e <= |cmd|
    requires forall i :: 6 <= i < d ==> IsDigit(cmd[i])
    requires forall i :: d <= i < k ==> IsSpace(cmd[i])
    requires forall i :: k <= i < e ==> !IsSpace(cmd[i])
    requires e == |cmd| || IsSpace(cmd[e])
    requires PyEndsAt(cmd, e)
    ensures PythonScript(cmd) == Some(cmd[k..e])
  {
    assert !IsDigit(cmd[d]);
    assert DigitEnd(cmd, 6) == d;
    assert !IsSpace(cmd[k]);
    assert SkipSpaces(cmd, d) == k;
    assert NonSpaceEnd(cmd, k) == e;
    assert LastPyEnd(cmd, k, e) == Some(e);
  }

  /** `re.search(r'uvicorn\.run\s*\(', content)` */
  predicate CallsUvicornRun(content: string) {
    exists i :: 0 <= i <= |content| && OccursAt(content, "uvicorn.run", i)
                && SkipSpaces(content, i + 11) < |content| && content[SkipSpaces(content, i + 11)] == '('
  }

  /** `re.search(r'from fastapi import|import fastapi', content, re.IGNORECASE)` */
  predicate ImportsFastapi(content: string) {
    Contains(LowerStr(content), "from fastapi import") || Contains(LowerStr(content), "import fastapi")
  }

  /** The Python entry points tried, in order. */
  const PythonEntryPoints: seq<string> := ["server.py", "app.py", "main.py", "run.py"]

  /** What one Python entry point says: an ASGI app without its own runner is started through uvicorn. */
  function FromPythonFile(filename: string, content: string): (r: Found)
    requires EndsWith(filename, ".py")
    ensures r.cmd != ""
    ensures IsLocalUrl(r.url)
    ensures r.url != "" <==> PortFromPythonSource(content).Some?
    ensures r.url == LocalUrl(PortFromPythonSource(content))
    ensures ImportsFastapi(content) && !CallsUvicornRun(content) ==>
              r.cmd == "uvicorn " + filename[..|filename| - 3] + ":app --reload"
    ensures !(ImportsFastapi(content) && !CallsUvicornRun(content)) ==> r.cmd == "python " + filename
  {
    var port := PortFromPythonSource(content);
    var cmd := if ImportsFastapi(content) && !CallsUvicornRun(content)
               then "uvicorn " + filename[..|filename| - 3] + ":app --reload"
               else "python " + filename;
    var notes := "Detected Python entry point: " + filename + "."
                 + (if port.Some? then " Port " + port.value + " inferred from source."
                    else " Could not detect port; enter URL manually.");
    Found(cmd, LocalUrl(port), notes)
  }

  /** The first entry point among `names` that exists. */
  function FromPythonFiles(files: Files, names: seq<string>): (r: Option<Found>)
    requires forall k :: 0 <= k < |names| ==> EndsWith(names[k], ".py")
    ensures r.None? <==> FirstPresent(files, names).None?
    ensures r.Some? ==> r.value == FromPythonFile(FirstPresent(files, names).value, files[FirstPresent(files, names).value])
    ensures r.Some? ==> r.value.cmd != "" && IsLocalUrl(r.value.url)
  {
    if names == [] then None
    else if names[0] in files then Some(FromPythonFile(names[0], files[names[0]]))
    else
      var r := FromPythonFiles(files, names[1..]);
      assert forall k :: 1 <= k < |names| ==> names[k] == names[1..][k - 1];
      r
  }

  /** `_detect_from_python` */
  function FromPython(files: Files): (r: Found)
    ensures IsLocalUrl(r.url)
    ensures "manage.py" in files ==> r.cmd == "python manage.py runserver" && r.url == "http://localhost:8000"
    ensures r.cmd == "" <==> "manage.py" !in files && forall k :: 0 <= k < |PythonEntryPoints| ==> PythonEntryPoints[k] !in files
  {
    if "manage.py" in files then
      Found("python manage.py runserver", "http://localhost:8000", "Detected Django project.")
    else
      assert forall k :: 0 <= k < |PythonEntryPoints| ==> EndsWith(PythonEntryPoints[k], ".py");
      match FromPythonFiles(files, PythonEntryPoints)
      case Some(found) => found
      case None => Found("", "", "Detected Python project. Enter start command manually (e.g. python server.py).")
  }

  /** Without `manage.py`, a Python repository is detected as its first existing entry point. */
  lemma FromPythonEntryPoint(files: Files, name: string)
    requires "manage.py" !in files && FirstPresent(files, PythonEntryPoints) == Some(name)
    ensures EndsWith(name, ".py")
    ensures FromPython(files) == FromPythonFile(name, files[name])
  {
    assert forall k :: 0 <= k < |PythonEntryPoints| ==> EndsWith(PythonEntryPoints[k], ".py");
  }

  /** Shell entry points, tried first and in this order: they are an explicit choice of the developer. */
  const ShellScripts: seq<string> := ["init.sh", "start.sh", "run.sh", "dev.sh"]

  /** The first of `names` the repository has. */
  function FirstPresent(files: Files, names: seq<string>): (r: Option<string>)
    ensures r.Some? ==> r.value in files
    ensures r.Some? ==> exists k :: 0 <= k < |names| && names[k] == r.value
                                  && forall j :: 0 <= j < k ==> names[j] !in files
    ensures r.None? <==> forall k :: 0 <= k < |names| ==> names[k] !in files
  {
    if names == [] then None
    else if names[0] in files then Some(names[0])
    else
      var r := FirstPresent(files, names[1..]);
      assert forall k :: 1 <= k < |names| ==> names[k] == names[1..][k - 1];
      assert r.Some? ==> exists k :: 0 <= k < |names| && names[k] == r.value
                                  && forall j :: 0 <= j < k ==> names[j] !in files by {
        if r.Some? {
          var k :| 0 <= k < |names| - 1 && names[1..][k] == r.value
                   && forall j :: 0 <= j < k ==> names[1..][j] !in files;
          assert names[k + 1] == names[1..][k];
        }
      }
      r
  }

  /**
    A Procfile command without a port of its own that runs `python[N] script.py`:
    the URL of the port the script names, when the script exists and is not empty.
  */
  function ProcfileScriptUrl(files: Files, cmd: string): (url: string)
    ensures IsLocalUrl(url)
    ensures url != "" <==> (PythonScript(cmd).Some? && PythonScript(cmd).value in files
                            && files[PythonScript(cmd).value] != ""
                            && PortFromPythonSource(files[PythonScript(cmd).value]).Some?)
    ensures url != "" ==> url == LocalUrl(PortFromPythonSource(files[PythonScript(cmd).value]))
  {
    match PythonScript(cmd)
    case None => ""
    case Some(path) =>
      if path in files && files[path] != "" then LocalUrl(PortFromPythonSource(files[path])) else ""
  }

  function ConfidenceOf(cmd: string): (c: Confidence)
    ensures c == Full <==> cmd != ""
    ensures c != NoneFound
  {
    if cmd != "" then Full else Partial
  }

  /** What detection found, before the repository's name, slug and branch are added. */
  datatype Detected = Detected(cmd: string, url: string, confidence: Confidence, notes: string)

  /** The shape every detection result has: full exactly when there is a command, and a local URL. */
  predicate WellFormed(d: Detected) {
    (d.confidence == Full <==> d.cmd != "") && IsLocalUrl(d.url)
  }

  /** A detection helper's triple, full exactly when it found a command. */
  function Rate(f: Found): (d: Detected)
    requires IsLocalUrl(f.url)
    ensures WellFormed(d) && d.confidence != NoneFound
    ensures d.cmd == f.cmd && d.url == f.url && d.notes == f.notes
  {
    Detected(f.cmd, f.url, ConfidenceOf(f.cmd), f.notes)
  }

  /** The Procfile branch: a `web:` command, its port, or the port of the Python script it runs. */
  function FromProcfileEntry(files: Files, content: string): (d: Detected)
    ensures WellFormed(d) && d.confidence != NoneFound
    ensures d.cmd == FromProcfile(content).0
    ensures FromProcfile(content).1 != "" ==> d.url == FromProcfile(content).1
    ensures FromProcfile(content).1 == "" ==> d.url == (if d.cmd != "" then ProcfileScriptUrl(files, d.cmd) else "")
  {
    var (cmd, url) := FromProcfile(content);
    var url2 := if cmd != "" && url == "" then ProcfileScriptUrl(files, cmd) else url;
    Detected(cmd, url2, ConfidenceOf(cmd),
             if cmd != "" then "Detected from Procfile." else "Found Procfile but no web: process type.")
  }

  /** The Makefile branch. */
  function FromMakefile(content: string): (d: Detected)
    ensures WellFormed(d) && d.confidence != NoneFound
    ensures d.cmd != "" <==> MakefileHasStart(content)
    ensures d.cmd != "" ==> d.cmd == "make start"
    ensures d.url == ""
  {
    if MakefileHasStart(content) then Detected("make start", "", Full, "Detected from Makefile.")
    else Detected("", "", Partial, "Found Makefile but no start: target.")
  }

  /** The notes of the last resorts. */
  const GoNote := "Detected Go project. Enter start command manually (e.g. go run .)."
  const MonorepoNote := "Monorepo with server/ and client/. Enter a start command (e.g. a shell script that starts both)."
  const NothingNote := "Could not detect project type. Fill in start command manually."

  /** The URL a monorepo's `client/package.json` suggests. */
  function ClientUrl(pj: PackageJson): (url: string)
    ensures IsLocalUrl(url)
    ensures url != "" ==> pj.Parsed? && ScriptKey(pj.scripts).Some?
  {
    FromPackageJson(pj).url
  }

  /** The last resorts: a Go module, a client/server monorepo, or nothing. */
  function FromLastResorts(files: Files, decode: string -> PackageJson): (d: Detected)
    ensures WellFormed(d) && d.cmd == ""
    ensures d.confidence == NoneFound <==>
              "go.mod" !in files && !("server/package.json" in files && "client/package.json" in files)
    ensures "go.mod" !in files && "server/package.json" in files && "client/package.json" in files ==>
              d.url == FromPackageJson(decode(files["client/package.json"])).url
    ensures "go.mod" in files || d.confidence == NoneFound ==> d.url == ""
  {
    if "go.mod" in files then
      Detected("", "", Partial, GoNote)
    else if "server/package.json" in files && "client/package.json" in files then
      Detected("", ClientUrl(decode(files["client/package.json"])), Partial,
               MonorepoNote)
    else
      Detected("", "", NoneFound, NothingNote)
  }

  /** Everything after the shell scripts, in order. */
  function FromManifests(files: Files, decode: string -> PackageJson): (d: Detected)
    ensures WellFormed(d)
    ensures d.confidence == NoneFound <==>
              "package.json" !in files && "Procfile" !in files && "Makefile" !in files
              && "pyproject.toml" !in files && "requirements.txt" !in files
              && FromLastResorts(files, decode).confidence == NoneFound
    ensures "package.json" in files ==> d == Rate(FromPackageJson(decode(files["package.json"])))
    ensures "package.json" !in files && "Procfile" in files ==> d == FromProcfileEntry(files, files["Procfile"])
    ensures "package.json" !in files && "Procfile" !in files && "Makefile" in files ==> d == FromMakefile(files["Makefile"])
    ensures ("package.json" !in files && "Procfile" !in files && "Makefile" !in files
             && ("pyproject.toml" in files || "requirements.txt" in files)) ==> d == Rate(FromPython(files))
    ensures ("package.json" !in files && "Procfile" !in files && "Makefile" !in files
             && "pyproject.toml" !in files && "requirements.txt" !in files) ==> d == FromLastResorts(files, decode)
  {
    if "package.json" in files then Rate(FromPackageJson(decode(files["package.json"])))
    else if "Procfile" in files then FromProcfileEntry(files, files["Procfile"])
    else if "Makefile" in files then FromMakefile(files["Makefile"])
    else if "pyproject.toml" in files || "requirements.txt" in files then Rate(FromPython(files))
    else FromLastResorts(files, decode)
  }

  /** A repository with none of the files detection looks for. */
  predicate NothingDetectable(files: Files) {
    (forall k :: 0 <= k < |ShellScripts| ==> ShellScripts[k] !in files)
    && "package.json" !in files && "Procfile" !in files && "Makefile" !in files
    && "pyproject.toml" !in files && "requirements.txt" !in files && "go.mod" !in files
    && !("server/package.json" in files && "client/package.json" in files)
  }

  /**
    `detect_service`: the first kind of project the repository's files reveal,
    in the order shell script, `package.json`, Procfile, Makefile, Python, Go,
    client/server monorepo. `decode` stands for `json.loads` on `package.json`.
  */
  function DetectService(owner: string, repo: string, info: RepoInfo, files: Files,
                         decode: string -> PackageJson): (r: DetectionResult)
    ensures r.name == info.name.GetOr(repo) && r.branch == info.defaultBranch.GetOr("main")
    ensures r.repoSlug == owner + "/" + repo
    ensures r.confidence == Full <==> r.startCommand != ""
    ensures r.confidence == NoneFound <==> NothingDetectable(files)
    ensures IsLocalUrl(r.url)
    ensures FirstPresent(files, ShellScripts).Some? ==>
              r.startCommand == "bash " + FirstPresent(files, ShellScripts).value
              && r.url == LocalUrl(PortFromCommand(files[FirstPresent(files, ShellScripts).value]))
    ensures FirstPresent(files, ShellScripts).None? && "package.json" in files ==>
              r.startCommand == FromPackageJson(decode(files["package.json"])).cmd
    ensures FirstPresent(files, ShellScripts).None? ==>
              var d := FromManifests(files, decode);
              r.startCommand == d.cmd && r.url == d.url && r.confidence == d.confidence && r.notes == d.notes
  {
    var d := match FirstPresent(files, ShellScripts)
      case Some(script) =>
        Detected("bash " + script, LocalUrl(PortFromCommand(files[script])), Full,
                 "Detected shell entry point: " + script + ".")
      case None => FromManifests(files, decode);
    DetectionResult(info.name.GetOr(repo), owner + "/" + repo, info.defaultBranch.GetOr("main"),
                    d.cmd, d.url, d.confidence, d.notes)
  }
}

=== FILE: github.dfy ===
/**
  `parse_github_input`: what the add-service dialog accepts as a repository,
  reduced to an `(owner, repo)` pair. Three forms are tried in order on the
  stripped input: `git@github.com:owner/repo[.git]`,
  `http[s]://github.com/owner/repo[.git][/anything]` and `owner/repo[.git]`.
*/
module Github {

  import opened Wrappers
  import opened Text
  import opened Service

  /** `[^/\s]`, the characters of a repository name. */
  predicate IsNameChar(c: char) {
    c != '/' && !IsSpace(c)
  }

  predicate AllNameChars(s: string) {
    forall i :: 0 <= i < |s| ==> IsNameChar(s[i])
  }

  /** The first index in `s` of a `/` or a whitespace character, or `|s|`. */
  function NameEnd(s: string): (k: nat)
    ensures k <= |s|
    ensures AllNameChars(s[..k])
    ensures k < |s| ==> !IsNameChar(s[k])
  {
    if |s| == 0 || !IsNameChar(s[0]) then 0
    else
      var k := 1 + NameEnd(s[1..]);
      assert forall i :: 1 <= i < k ==> s[..k][i] == s[1..][..k - 1][i - 1];
      k
  }

  /**
    The lazy group `([^/\s]+?)` followed by `(?:\.git)?` at the end: the name
    loses one trailing `.git`, unless nothing would be left.
  */
  function RepoName(r: string): (name: string)
    ensures |name| > 0 <== |r| > 0
    ensures name == r || (EndsWith(r, ".git") && r == name + ".git")
    ensures AllNameChars(r) ==> AllNameChars(name)
  {
    if |r| > 4 && EndsWith(r, ".git") then
      assert r == r[..|r| - 4] + ".git";
      r[..|r| - 4]
    else r
  }

  const SshPrefix: string := "git@github.com:"

  /** `^git@github\.com:([^/]+)/([^/\s]+?)(?:\.git)?$` */
  function SshForm(s: string): (r: Option<(string, string)>)
  {
    if StartsWith(s, SshPrefix) then
      var t := s[15..];
      var k := FindChar(t, '/');
      if 1 <= k < |t| && |t[k + 1..]| > 0 && AllNameChars(t[k + 1..]) then Some((t[..k], RepoName(t[k + 1..])))
      else None
    else None
  }

  /**
    `^https?://github\.com/([^/]+)/([^/\s]+?)(?:\.git)?(?:/.*)?$`: after the
    owner, the name runs to the first `/` or whitespace, and what follows it must
    be nothing or a `/` and a single line.
  */
  function HttpsForm(s: string): (r: Option<(string, string)>)
  {
    var p := if StartsWith(s, "https://github.com/") then 19
             else if StartsWith(s, "http://github.com/") then 18 else 0;
    if p == 0 then None
    else
      var t := s[p..];
      var k := FindChar(t, '/');
      if 1 <= k < |t| then
        var rest := t[k + 1..];
        var e := NameEnd(rest);
        if e >= 1 && (e == |rest| || (rest[e] == '/' && '\n' !in rest[e + 1..])) then
          Some((t[..k], RepoName(rest[..e])))
        else None
      else None
  }

  /** `^([^/\s]+)/([^/\s]+?)(?:\.git)?$` */
  function SlugForm(s: string): (r: Option<(string, string)>)
  {
    var k := FindChar(s, '/');
    if 1 <= k < |s| && AllNameChars(s[..k]) && |s[k + 1..]| > 0 && AllNameChars(s[k + 1..]) then
      Some((s[..k], RepoName(s[k + 1..])))
    else None
  }

  /**
    `parse_github_input`: the first form that matches the stripped input; an
    input no form accepts is an error carrying the raw input.
  */
  function ParseGithubInput(raw: string): (r: Result<(string, string), string>)
    ensures r.Ok? ==> |r.value.0| > 0 && '/' !in r.value.0
    ensures r.Ok? ==> |r.value.1| > 0 && AllNameChars(r.value.1)
    ensures r.Err? ==> r.error == raw
    ensures r.Ok? <==> SshForm(Strip(raw)).Some? || HttpsForm(Strip(raw)).Some? || SlugForm(Strip(raw)).Some?
  {
    var s := Strip(raw);
    var ssh := SshForm(s);
    if ssh.Some? then
      var t := s[15..];
      var k := FindChar(t, '/');
      assert '/' !in t[..k];
      Ok(ssh.value)
    else
      var https := HttpsForm(s);
      if https.Some? then HttpsShape(s); Ok(https.value)
      else
        var slug := SlugForm(s);
        if slug.Some? then
          assert '/' !in s[..FindChar(s, '/')];
          Ok(slug.value)
        else Err(raw)
  }

  lemma HttpsShape(s: string)
    requires HttpsForm(s).Some?
    ensures |HttpsForm(s).value.0| > 0 && '/' !in HttpsForm(s).value.0
    ensures |HttpsForm(s).value.1| > 0 && AllNameChars(HttpsForm(s).value.1)
  {
    var p := if StartsWith(s, "https://github.com/") then 19 else 18;
    var t := s[p..];
    var k := FindChar(t, '/');
    assert '/' !in t[..k];
  }

  /** The first `/` of `a + "/" + b` is the one between them when `a` has none. */
  lemma FindSlashJoined(a: string, b: string)
    requires '/' !in a
    ensures FindChar(a + "/" + b, '/') == |a|
    ensures (a + "/" + b)[..|a|] == a && (a + "/" + b)[|a| + 1..] == b
  {
    var s := a + "/" + b;
    assert forall j :: 0 <= j < |a| ==> s[j] == a[j];
    assert s[|a|] == '/';
  }

  /** The name ends where a `/`-led tail begins. */
  lemma NameEndBeforeTail(r: string, tail: string)
    requires AllNameChars(r)
    requires tail == [] || tail[0] == '/'
    ensures NameEnd(r + tail) == |r|
    ensures (r + tail)[..|r|] == r
    decreases |r|
  {
    if |r| > 0 {
      assert (r + tail)[1..] == r[1..] + tail;
      NameEndBeforeTail(r[1..], tail);
    }
  }

  /** Neither side of `a + "/" + b` has a slash, so no `//` occurs in it. */
  lemma NoDoubleSlash(a: string, b: string, i: nat)
    requires '/' !in a && '/' !in b
    requires i + 1 < |a + "/" + b|
    ensures !((a + "/" + b)[i] == '/' && (a + "/" + b)[i + 1] == '/')
  {
    var s := a + "/" + b;
    if i < |a| {
      assert s[i] == a[i];
    } else {
      assert s[i + 1] == b[i - |a|];
    }
  }

  /** An `owner/repo` slug is not mistaken for an HTTPS URL or, unless its owner says so, an SSH address. */
  lemma SlugIsNoUrl(o: string, r: string)
    requires |o| > 0 && AllNameChars(o) && |r| > 0 && AllNameChars(r)
    requires !StartsWith(o, SshPrefix)
    ensures SshForm(o + "/" + r).None? && HttpsForm(o + "/" + r).None?
  {
    var s := o + "/" + r;
    assert '/' !in o && '/' !in r by {
      assert forall i :: 0 <= i < |o| ==> IsNameChar(o[i]);
      assert forall i :: 0 <= i < |r| ==> IsNameChar(r[i]);
    }
    if |s| >= 8 {
      NoDoubleSlash(o, r, 6);
      NoDoubleSlash(o, r, 5);
    }
    assert !StartsWith(s, "https://github.com/") && !StartsWith(s, "http://github.com/");
    if |s| >= 15 {
      if |o| >= 15 {
        assert s[..15] == o[..15];
      } else {
        assert s[|o|] == '/' && SshPrefix[|o|] != '/';
      }
    }
    assert !StartsWith(s, SshPrefix);
  }

  /** Regrouping a three-part concatenation, as a step of its own so that the proofs using it stay small. */
  lemma Associative(a: string, b: string, c: string)
    ensures a + b + c == a + (b + c)
  {
  }

  /** One trailing `.git` is what the name group gives up. */
  lemma RepoNameDropsGit(r: string)
    requires |r| > 0 && AllNameChars(r)
    ensures AllNameChars(r + ".git")
    ensures RepoName(r + ".git") == r
  {
    var g := r + ".git";
    assert forall i :: 0 <= i < |r| ==> g[i] == r[i];
    assert g[|g| - 4..] == ".git";
    assert g[..|r|] == r;
  }

  /** `owner/name`, with or without `.git`, parses back to the owner and the bare name. */
  lemma SlugRoundTrip(o: string, r: string)
    requires |o| > 0 && AllNameChars(o) && |r| > 0 && AllNameChars(r) && !EndsWith(r, ".git")
    requires !StartsWith(o, SshPrefix)
    ensures ParseGithubInput(o + "/" + r) == Ok((o, r))
    ensures ParseGithubInput(o + "/" + r + ".git") == Ok((o, r))
  {
    SlugParses(o, r);
    SlugGitParses(o, r, ".git");
  }

  lemma SlugGitParses(o: string, r: string, git: string)
    requires git == ".git"
    requires |o| > 0 && AllNameChars(o) && |r| > 0 && AllNameChars(r)
    requires !StartsWith(o, SshPrefix)
    ensures ParseGithubInput(o + "/" + r + git) == Ok((o, r))
  {
    RepoNameDropsGit(r);
    SlugParses(o, r + git);
    Associative(o + "/", r, git);
  }

  lemma SlugParses(o: string, r: string)
    requires |o| > 0 && AllNameChars(o) && |r| > 0 && AllNameChars(r)
    requires !StartsWith(o, SshPrefix)
    ensures ParseGithubInput(o + "/" + r) == Ok((o, RepoName(r)))
  {
    var s := o + "/" + r;
    assert !IsSpace(s[0]) && !IsSpace(s[|s| - 1]) by {
      assert s[0] == o[0] && s[|s| - 1] == r[|r| - 1];
    }
    StripUnchanged(s);
    SlugIsNoUrl(o, r);
    assert '/' !in o by { assert forall i :: 0 <= i < |o| ==> IsNameChar(o[i]); }
    FindSlashJoined(o, r);
  }

  /**
    `https://github.com/owner/name`, with or without `.git` and with any
    single-line `/…` path after it, parses back to the owner and the bare name.
  */
  lemma HttpsRoundTrip(o: string, r: string, tail: string)
    requires |o| > 0 && '/' !in o && |r| > 0 && AllNameChars(r) && !EndsWith(r, ".git")
    requires tail == [] || (tail[0] == '/' && '\n' !in tail[1..] && !IsSpace(tail[|tail| - 1]))
    ensures ParseGithubInput("https://github.com/" + o + "/" + r + tail) == Ok((o, r))
    ensures ParseGithubInput("https://github.com/" + o + "/" + r + ".git" + tail) == Ok((o, r))
  {
    HttpsParses(o, r, tail);
    HttpsGitParses(o, r, tail, ".git");
  }

  lemma HttpsGitParses(o: string, r: string, tail: string, git: string)
    requires git == ".git"
    requires |o| > 0 && '/' !in o && |r| > 0 && AllNameChars(r)
    requires tail == [] || (tail[0] == '/' && '\n' !in tail[1..] && !IsSpace(tail[|tail| - 1]))
    ensures ParseGithubInput("https://github.com/" + o + "/" + r + git + tail) == Ok((o, r))
  {
    RepoNameDropsGit(r);
    HttpsParses(o, r + git, tail);
    Associative("https://github.com/" + o + "/", r, git);
  }

  lemma HttpsFormOf(o: string, r: string, tail: string)
    requires |o| > 0 && '/' !in o && |r| > 0 && AllNameChars(r)
    requires tail == [] || (tail[0] == '/' && '\n' !in tail[1..])
    ensures HttpsForm("https://github.com/" + o + "/" + r + tail) == Some((o, RepoName(r)))
  {
    var pre := "https://github.com/";
    var s := pre + o + "/" + r + tail;
    assert s[..19] == pre;
    assert StartsWith(s, pre);
    var t := s[19..];
    assert t == o + "/" + (r + tail);
    FindSlashJoined(o, r + tail);
    NameEndBeforeTail(r, tail);
    assert (r + tail)[|r|..] == tail;
  }

  lemma HttpsParses(o: string, r: string, tail: string)
    requires |o| > 0 && '/' !in o && |r| > 0 && AllNameChars(r)
    requires tail == [] || (tail[0] == '/' && '\n' !in tail[1..] && !IsSpace(tail[|tail| - 1]))
    ensures ParseGithubInput("https://github.com/" + o + "/" + r + tail) == Ok((o, RepoName(r)))
  {
    var s := "https://github.com/" + o + "/" + r + tail;
    assert !IsSpace(s[0]) && !IsSpace(s[|s| - 1]) by {
      assert s[0] == 'h';
      if tail == [] { assert s[|s| - 1] == r[|r| - 1]; } else { assert s[|s| - 1] == tail[|tail| - 1]; }
    }
    StripUnchanged(s);
    assert SshForm(s).None? by { assert s[0] != SshPrefix[0]; }
    HttpsFormOf(o, r, tail);
  }

  lemma HttpFormOf(o: string, r: string, tail: string)
    requires |o| > 0 && '/' !in o && |r| > 0 && AllNameChars(r)
    requires tail == [] || (tail[0] == '/' && '\n' !in tail[1..])
    ensures HttpsForm("http://github.com/" + o + "/" + r + tail) == Some((o, RepoName(r)))
  {
    var pre := "http://github.com/";
    var s := pre + o + "/" + r + tail;
    assert s[..18] == pre;
    assert StartsWith(s, pre);
    assert !StartsWith(s, "https://github.com/") by { assert s[4] == ':'; }
    var t := s[18..];
    assert t == o + "/" + (r + tail);
    FindSlashJoined(o, r + tail);
    NameEndBeforeTail(r, tail);
    assert (r + tail)[|r|..] == tail;
  }

  /** The plain `http://` form of a GitHub URL parses like the `https://` one. */
  lemma HttpParses(o: string, r: string, tail: string)
    requires |o| > 0 && '/' !in o && |r| > 0 && AllNameChars(r)
    requires tail == [] || (tail[0] == '/' && '\n' !in tail[1..] && !IsSpace(tail[|tail| - 1]))
    ensures ParseGithubInput("http://github.com/" + o + "/" + r + tail) == Ok((o, RepoName(r)))
  {
    var s := "http://github.com/" + o + "/" + r + tail;
    assert !IsSpace(s[0]) && !IsSpace(s[|s| - 1]) by {
      assert s[0] == 'h';
      if tail == [] { assert s[|s| - 1] == r[|r| - 1]; } else { assert s[|s| - 1] == tail[|tail| - 1]; }
    }
    StripUnchanged(s);
    assert SshForm(s).None? by { assert s[0] != SshPrefix[0]; }
    HttpFormOf(o, r, tail);
  }

  /** The SSH address `git@github.com:owner/name`, with or without `.git`, parses back. */
  lemma SshRoundTrip(o: string, r: string)
    requires |o| > 0 && '/' !in o && |r| > 0 && AllNameChars(r) && !EndsWith(r, ".git")
    ensures ParseGithubInput(SshPrefix + o + "/" + r) == Ok((o, r))
    ensures ParseGithubInput(SshPrefix + o + "/" + r + ".git") == Ok((o, r))
  {
    SshParses(o, r);
    SshGitParses(o, r, ".git");
  }

  lemma SshGitParses(o: string, r: string, git: string)
    requires git == ".git"
    requires |o| > 0 && '/' !in o && |r| > 0 && AllNameChars(r)
    ensures ParseGithubInput(SshPrefix + o + "/" + r + git) == Ok((o, r))
  {
    RepoNameDropsGit(r);
    SshParses(o, r + git);
    Associative(SshPrefix + o + "/", r, git);
  }

  lemma SshParses(o: string, r: string)
    requires |o| > 0 && '/' !in o && |r| > 0 && AllNameChars(r)
    ensures ParseGithubInput(SshPrefix + o + "/" + r) == Ok((o, RepoName(r)))
  {
    var s := SshPrefix + o + "/" + r;
    assert s[0] == 'g' && s[|s| - 1] == r[|r| - 1];
    StripUnchanged(s);
    assert s[..15] == SshPrefix;
    assert s[15..] == o + "/" + r;
    FindSlashJoined(o, r);
  }

  /** A slug never looks like a full URL to `github_url`, unless its owner starts with `git@`. */
  lemma SlugIsNoFullUrl(o: string, r: string)
    requires |o| > 0 && AllNameChars(o) && AllNameChars(r)
    requires !StartsWith(o, "git@")
    ensures !IsFullUrl(o + "/" + r)
  {
    var s := o + "/" + r;
    assert '/' !in o by { assert forall i :: 0 <= i < |o| ==> IsNameChar(o[i]); }
    assert '/' !in r by { assert forall i :: 0 <= i < |r| ==> IsNameChar(r[i]); }
    if |s| >= 8 { NoDoubleSlash(o, r, 6); }
    if |s| >= 7 { NoDoubleSlash(o, r, 5); }
    if |o| < 4 { assert s[|o|] == '/'; } else { assert s[..4] == o[..4]; }
  }

  /**
    `PackageConfig.github_url` turns an `owner/name` slug into a clone URL that
    `parse_github_input` reads back as the same owner and name.
  */
  lemma CloneUrlRoundTrip(o: string, r: string)
    requires |o| > 0 && AllNameChars(o) && |r| > 0 && AllNameChars(r) && !EndsWith(r, ".git")
    requires !StartsWith(o, "git@")
    ensures GithubUrl(o + "/" + r) == "https://github.com/" + o + "/" + r + ".git"
    ensures ParseGithubInput(GithubUrl(o + "/" + r)) == Ok((o, r))
  {
    var s := o + "/" + r;
    var u := "https://github.com/" + o + "/" + r + ".git";
    SlugIsNoFullUrl(o, r);
    assert GithubUrl(s) == "https://github.com/" + s + ".git";
    Associative("https://github.com/", s, ".git");
    assert "https://github.com/" + s == "https://github.com/" + o + "/" + r;
    assert '/' !in o by { assert forall i :: 0 <= i < |o| ==> IsNameChar(o[i]); }
    HttpsRoundTrip(o, r, []);
    assert u + [] == u;
  }
}

=== FILE: health.dfy ===
/**
  HTTP health checks of a running service (`_health_check_loop`) and what one
  reading does to its card (`_apply_pkg_health`).
*/
module Health {

  import opened Wrappers
  import opened Text
  import opened Service
  import opened Patterns
  import opened Advisory

  /** How one probe of the service URL ended. */
  datatype ProbeResult =
    | Responded(status: int)  // a response with a success or redirect status
    | HttpError(code: int)    // a response with an error status
    | Unreachable             // `URLError` or `OSError`: nothing answered

  /** The status posted on the queue: the HTTP status, or 0 when nothing answered. */
  function ProbeStatus(p: ProbeResult): (status: int)
    ensures p.Unreachable? ==> status == 0
    ensures p.Responded? ==> status == p.status
    ensures p.HttpError? ==> status == p.code
  {
    match p
    case Responded(s) => s
    case HttpError(c) => c
    case Unreachable => 0
  }

  /** The three readings `_apply_pkg_health` distinguishes. */
  datatype Reading = NotListening | ServerError | Healthy

  function Classify(status: int): (r: Reading)
    ensures r == NotListening <==> status == 0
    ensures r == ServerError <==> status >= 500
    ensures r == Healthy <==> status != 0 && status < 500
  {
    if status == 0 then NotListening
    else if status >= 500 then ServerError
    else Healthy
  }

  datatype Banner = NoBanner | Warning(text: string)

  /**
    The outcome of one reading on a RUNNING card: either the card is redrawn
    (dot colour and amber banner) and the service state is untouched, or a port
    conflict is detected and the service must go to ERROR.
  */
  datatype HealthEffect =
    | Display(dot: PkgState, banner: Banner)
    | PortConflict

  const ServerErrorMessage: string := "The service is responding with errors. Check the log for details."

  /** The banner shown when the log names a different port from the configured URL. */
  function PortMismatchMessage(logPort: string, urlPort: string): (m: string)
    ensures StartsWith(m, "Service is on :")
    ensures |m| == |logPort| + |urlPort| + 76
    ensures m[15..15 + |logPort|] == logPort
    ensures m[22 + |logPort|..22 + |logPort| + |urlPort|] == urlPort
  {
    "Service is on :" + logPort + ", not :" + urlPort + ". Update the URL here, or change the port in the repo."
  }

  /**
    The banner for a service that does not answer: a port-mismatch warning when
    the service has a URL, its first `:N` and the log's first `localhost:N` both
    exist and differ; otherwise none.
  */
  function NotListeningBanner(pkg: PackageConfig, logTail: string): (b: Banner)
    ensures b.Warning? <==>
              HasUrl(pkg) && First(ColonPort, pkg.url.value).Some? && First(Localhost, logTail).Some?
              && First(Localhost, logTail) != First(ColonPort, pkg.url.value)
    ensures b.Warning? ==>
              b.text == PortMismatchMessage(First(Localhost, logTail).value, First(ColonPort, pkg.url.value).value)
  {
    if HasUrl(pkg) then
      var urlPort := First(ColonPort, pkg.url.value);
      var logPort := First(Localhost, logTail);
      if urlPort.Some? && logPort.Some? && logPort.value != urlPort.value then
        Warning(PortMismatchMessage(logPort.value, urlPort.value))
      else NoBanner
    else NoBanner
  }

  /** `_apply_pkg_health` for a configured service whose state is RUNNING. */
  function ApplyHealth(status: int, pkg: PackageConfig, logTail: string): (r: HealthEffect)
    ensures r.PortConflict? <==> Classify(status) == Healthy && Matches(PortInUse, logTail)
    ensures r.Display? ==> (r.dot == RUNNING <==> Classify(status) == Healthy)
    ensures r.Display? ==> r.dot == RUNNING || r.dot == STARTING
    ensures r.Display? && r.dot == RUNNING ==> r.banner == NoBanner
    ensures Classify(status) == ServerError ==>
              r == Display(STARTING, Warning(if MakeAdvisory(logTail) != "" then MakeAdvisory(logTail)
                                             else ServerErrorMessage))
    ensures Classify(status) == NotListening ==> r == Display(STARTING, NotListeningBanner(pkg, logTail))
    ensures Classify(status) == ServerError ==> r.Display? && r.banner.Warning? && r.banner.text != ""
  {
    match Classify(status)
    case NotListening => Display(STARTING, NotListeningBanner(pkg, logTail))
    case ServerError =>
      var advice := MakeAdvisory(logTail);
      Display(STARTING, Warning(if advice != "" then advice else ServerErrorMessage))
    case Healthy =>
      if Matches(PortInUse, logTail) then PortConflict else Display(RUNNING, NoBanner)
  }
}

=== FILE: logtail.dfy ===
/**
  `_read_log_tail`: the cleaned last lines of a service's log, as shown in an
  ERROR card and handed to the advisory engine.

  Each raw line loses its ANSI colour codes (`ESC [ params m`), then one leading
  `[...]` tag such as a timestamp, then surrounding whitespace; blank results are
  dropped and the last `n` survivors are joined with newlines.
*/
module LogTail {

  import opened Wrappers
  import opened Text

  const Esc: char := 27 as char

  /** A character that may appear between `ESC [` and `m` in a colour code. */
  predicate IsParamChar(c: char) {
    IsDigit(c) || c == ';'
  }

  /** The end of the maximal `[0-9;]*` run starting at `i`. */
  function ParamEnd(s: string, i: nat): (j: nat)
    requires i <= |s|
    ensures i <= j <= |s|
    ensures forall k :: i <= k < j ==> IsParamChar(s[k])
    ensures j == |s| || !IsParamChar(s[j])
    decreases |s| - i
  {
    if i < |s| && IsParamChar(s[i]) then ParamEnd(s, i + 1) else i
  }

  /** The length of the colour code `\x1b\[[0-9;]*m` at the start of `s`, if there is one. */
  function ColorCodeLength(s: string): (r: Option<nat>)
    ensures r.Some? ==> 3 <= r.value <= |s| && s[0] == Esc
  {
    if |s| >= 2 && s[0] == Esc && s[1] == '[' then
      var j := ParamEnd(s, 2);
      if j < |s| && s[j] == 'm' then Some(j + 1) else None
    else None
  }

  /** `re.sub(r'\x1b\[[0-9;]*m', '', s)`: one left-to-right pass removing colour codes. */
  function StripAnsi(s: string): (r: string)
    ensures |r| <= |s|
    decreases |s|
  {
    if |s| == 0 then ""
    else
      match ColorCodeLength(s)
      case Some(k) => StripAnsi(s[k..])
      case None => [s[0]] + StripAnsi(s[1..])
  }

  /** Removing colour codes introduces no line break. */
  lemma {:induction false} StripAnsiSingleLine(s: string)
    requires IsSingleLine(s)
    ensures IsSingleLine(StripAnsi(s))
    decreases |s|
  {
    if |s| > 0 {
      match ColorCodeLength(s)
      case Some(k) =>
        assert IsSingleLine(s[k..]) by {
          forall j | 0 <= j < |s[k..]| ensures !IsLineBreak(s[k..][j]) { assert s[k..][j] == s[k + j]; }
        }
        StripAnsiSingleLine(s[k..]);
      case None =>
        assert IsSingleLine(s[1..]) by {
          forall j | 0 <= j < |s[1..]| ensures !IsLineBreak(s[1..][j]) { assert s[1..][j] == s[1 + j]; }
        }
        StripAnsiSingleLine(s[1..]);
        var r := StripAnsi(s[1..]);
        forall j | 0 <= j < |[s[0]] + r| ensures !IsLineBreak(([s[0]] + r)[j]) {
          if j > 0 { assert ([s[0]] + r)[j] == r[j - 1]; }
        }
    }
  }

  /**
    The index of the `]` that closes a leading non-empty `[...]` tag (the
    first `]`, at index 2 or later), `None` when the line has no such tag.
  */
  function TagClose(s: string): (c: Option<nat>)
    ensures c.Some? ==> 2 <= c.value < |s| && s[0] == '[' && s[c.value] == ']'
                        && forall j :: 1 <= j < c.value ==> s[j] != ']'
    ensures c.None? && |s| > 1 && s[0] == '[' ==> s[1] == ']' || forall j :: 1 <= j < |s| ==> s[j] != ']'
  {
    if |s| > 0 && s[0] == '[' then
      var close := 1 + FindChar(s[1..], ']');
      assert forall j :: 1 <= j < close ==> s[j] == s[1..][j - 1];
      if 2 <= close < |s| then Some(close) else None
    else None
  }

  /** `re.sub(r'^\[[^\]]+\]\s*', '', s)`: drop one leading non-empty `[...]` tag and the blanks after it. */
  function StripBracketTag(s: string): (r: string)
    ensures |r| <= |s| && r == s[|s| - |r|..]
    ensures TagClose(s).None? ==> r == s
    ensures TagClose(s).Some? ==> r == s[SkipSpaces(s, TagClose(s).value + 1)..]
  {
    var c := TagClose(s);
    if c.Some? then s[SkipSpaces(s, c.value + 1)..] else s
  }

  /** A non-empty tag in brackets and the blanks after it are dropped; the text that follows is kept. */
  lemma BracketTagRoundTrip(tag: string, blanks: string, rest: string)
    requires tag != [] && ']' !in tag
    requires forall j :: 0 <= j < |blanks| ==> IsSpace(blanks[j])
    requires rest == [] || !IsSpace(rest[0])
    ensures StripBracketTag("[" + tag + "]" + blanks + rest) == rest
  {
    var s := "[" + tag + "]" + blanks + rest;
    var c := 1 + |tag|;
    assert TagClose(s) == Some(c) by {
      var after := "]" + blanks + rest;
      TagLineTail(tag, blanks, rest);
      assert forall j :: 0 <= j < |tag| ==> (tag + after)[j] == tag[j];
      assert (tag + after)[|tag|] == ']';
      assert FindChar(tag + after, ']') == |tag|;
    }
    var e := c + 1 + |blanks|;
    assert forall k :: c + 1 <= k < e ==> s[k] == blanks[k - c - 1];
    assert e == |s| || s[e] == rest[0];
    assert SkipSpaces(s, c + 1) == e;
    assert s[e..] == rest;
  }

  lemma TagLineTail(tag: string, blanks: string, rest: string)
    ensures ("[" + tag + "]" + blanks + rest)[1..] == tag + ("]" + blanks + rest)
  {
    var s := "[" + tag + "]" + blanks + rest;
    assert s == "[" + (tag + ("]" + blanks + rest));
  }

  /** One log line as it appears in the tail, or "" when nothing of it is left. */
  function CleanLine(raw: string): string {
    Strip(StripBracketTag(StripAnsi(raw)))
  }

  /** Cleaning never introduces a line boundary. */
  lemma CleanLineSingle(raw: string)
    requires IsSingleLine(raw)
    ensures IsSingleLine(CleanLine(raw))
  {
    StripAnsiSingleLine(raw);
    BracketTagSingleLine(StripAnsi(raw));
    StripSingleLine(StripBracketTag(StripAnsi(raw)));
  }

  lemma BracketTagSingleLine(a: string)
    requires IsSingleLine(a)
    ensures IsSingleLine(StripBracketTag(a))
  {
    var b := StripBracketTag(a);
    forall k | 0 <= k < |b| ensures !IsLineBreak(b[k]) {
      assert b[k] == a[|a| - |b| + k];
    }
  }

  /** The non-blank lines, in order (the `if line:` filter). */
  function NonBlank(lines: seq<string>): (r: seq<string>)
    ensures |r| <= |lines|
    ensures forall k :: 0 <= k < |r| ==> r[k] != ""
    ensures forall x :: x in r <==> x in lines && x != ""
  {
    if |lines| == 0 then []
    else if lines[0] == "" then NonBlank(lines[1..])
    else [lines[0]] + NonBlank(lines[1..])
  }

  /** Filtering works line by line: the survivors of two blocks are the survivors of each, in order. */
  lemma {:induction false} NonBlankAppend(a: seq<string>, b: seq<string>)
    ensures NonBlank(a + b) == NonBlank(a) + NonBlank(b)
  {
    if a == [] {
      assert a + b == b;
    } else {
      assert (a + b)[1..] == a[1..] + b;
      NonBlankAppend(a[1..], b);
    }
  }

  /** Filtering keeps only lines that were there, so single lines stay single. */
  lemma {:induction false} NonBlankSingle(lines: seq<string>)
    requires forall j :: 0 <= j < |lines| ==> IsSingleLine(lines[j])
    ensures forall k :: 0 <= k < |NonBlank(lines)| ==> IsSingleLine(NonBlank(lines)[k])
  {
    if |lines| > 0 {
      assert forall j :: 0 <= j < |lines[1..]| ==> lines[1..][j] == lines[j + 1];
      NonBlankSingle(lines[1..]);
      var rest := NonBlank(lines[1..]);
      if lines[0] != "" {
        forall k | 0 <= k < |[lines[0]] + rest| ensures IsSingleLine(([lines[0]] + rest)[k]) {
          if k > 0 { assert ([lines[0]] + rest)[k] == rest[k - 1]; }
        }
      }
    }
  }

  /** The cleaned, non-blank lines, in order. */
  function CleanLines(raws: seq<string>): (lines: seq<string>)
    ensures |lines| <= |raws|
    ensures forall k :: 0 <= k < |lines| ==> lines[k] != ""
  {
    NonBlank(Map(CleanLine, raws))
  }

  /** One raw line gives its cleaned form, or nothing when that is blank. */
  lemma CleanLinesOne(raw: string)
    ensures CleanLines([raw]) == if CleanLine(raw) == "" then [] else [CleanLine(raw)]
  {
    MapOne(CleanLine, raw);
    NonBlankOne(CleanLine(raw));
  }

  lemma NonBlankOne(line: string)
    ensures NonBlank([line]) == if line == "" then [] else [line]
  {
    assert [line][1..] == [];
  }

  /** Lines are cleaned one at a time: the cleaned lines of two blocks are those of each block, in order. */
  lemma CleanLinesAppend(a: seq<string>, b: seq<string>)
    ensures CleanLines(a + b) == CleanLines(a) + CleanLines(b)
  {
    MapAppend(CleanLine, a, b);
    NonBlankAppend(Map(CleanLine, a), Map(CleanLine, b));
  }

  /** Cleaned lines of single-line inputs are single lines. */
  lemma CleanLinesSingle(raws: seq<string>)
    requires forall j :: 0 <= j < |raws| ==> IsSingleLine(raws[j])
    ensures forall k :: 0 <= k < |CleanLines(raws)| ==> IsSingleLine(CleanLines(raws)[k])
  {
    var each := Map(CleanLine, raws);
    forall j | 0 <= j < |each| ensures IsSingleLine(each[j]) {
      CleanLineSingle(raws[j]);
    }
    NonBlankSingle(each);
  }

  /** `lines[-n:] if len(lines) >= n else lines` (note `lines[-0:]` is the whole list). */
  function Tail(lines: seq<string>, n: nat): (r: seq<string>)
    ensures n > 0 ==> |r| == if |lines| < n then |lines| else n
    ensures n == 0 ==> r == lines
    ensures r == lines[|lines| - |r|..]
  {
    if |lines| >= n && n > 0 then lines[|lines| - n..] else lines
  }

  /**
    `_read_log_tail(name, n)`: `log` is the log file's text, `None` when reading it
    raised `OSError`.
  */
  function ReadLogTail(name: string, log: Option<string>, n: nat): (r: string)
    ensures log.None? ==> r == name + " exited unexpectedly"
    ensures log.Some? && CleanLines(SplitLines(log.value)) == [] ==> r == name + " exited (no log output)"
  {
    match log
    case None => name + " exited unexpectedly"
    case Some(text) =>
      var tail := Tail(CleanLines(SplitLines(text)), n);
      if tail == [] then name + " exited (no log output)" else Join(tail, '\n')
  }

  /** Joining a tail of single lines and splitting it again gives the tail back. */
  lemma TailRoundTrip(cleaned: seq<string>, n: nat)
    requires n > 0 && cleaned != []
    requires forall k :: 0 <= k < |cleaned| ==> IsSingleLine(cleaned[k])
    ensures Split(Join(Tail(cleaned, n), '\n'), '\n') == Tail(cleaned, n)
  {
    var tail := Tail(cleaned, n);
    forall k | 0 <= k < |tail| ensures '\n' !in tail[k] {
      assert tail[k] == cleaned[|cleaned| - |tail| + k];
      assert IsSingleLine(tail[k]);
      assert IsLineBreak('\n');
    }
    SplitJoin(tail, '\n');
  }

  /**
    The tail is the last `min(n, total)` cleaned lines, each non-empty, and
    splitting the result on newlines gives exactly those lines back.
  */
  lemma ReadLogTailLines(name: string, text: string, n: nat)
    requires n > 0
    requires CleanLines(SplitLines(text)) != []
    ensures var cleaned := CleanLines(SplitLines(text));
            var lines := Split(ReadLogTail(name, Some(text), n), '\n');
            && |lines| == (if |cleaned| < n then |cleaned| else n)
            && lines == cleaned[|cleaned| - |lines|..]
            && forall k :: 0 <= k < |lines| ==> lines[k] != ""
  {
    var cleaned := CleanLines(SplitLines(text));
    var tail := Tail(cleaned, n);
    assert ReadLogTail(name, Some(text), n) == Join(tail, '\n');
    assert Split(Join(tail, '\n'), '\n') == tail by {
      CleanLinesSingle(SplitLines(text));
      TailRoundTrip(cleaned, n);
    }
    TailNonEmpty(cleaned, n);
  }

  /** A tail of non-empty lines has non-empty lines. */
  lemma TailNonEmpty(cleaned: seq<string>, n: nat)
    requires forall k :: 0 <= k < |cleaned| ==> cleaned[k] != ""
    ensures forall k :: 0 <= k < |Tail(cleaned, n)| ==> Tail(cleaned, n)[k] != ""
  {
    var tail := Tail(cleaned, n);
    forall k | 0 <= k < |tail| ensures tail[k] != "" {
      assert tail[k] == cleaned[|cleaned| - |tail| + k];
    }
  }

  /** A piece of a coloured log line: visible text, or a colour code with its parameters. */
  datatype Segment = Plain(text: string) | Color(params: string)

  predicate WellFormedSegment(seg: Segment) {
    match seg
    case Plain(t) => Esc !in t
    case Color(p) => forall k :: 0 <= k < |p| ==> IsParamChar(p[k])
  }

  /** The characters a terminal program writes for a list of segments. */
  function Render(segs: seq<Segment>): string {
    if |segs| == 0 then ""
    else
      match segs[0]
      case Plain(t) => t + Render(segs[1..])
      case Color(p) => [Esc, '['] + p + "m" + Render(segs[1..])
  }

  /** The visible text of a list of segments. */
  function Visible(segs: seq<Segment>): string {
    if |segs| == 0 then ""
    else
      match segs[0]
      case Plain(t) => t + Visible(segs[1..])
      case Color(_) => Visible(segs[1..])
  }

  lemma {:induction false} StripAnsiPlainPrefix(t: string, rest: string)
    requires Esc !in t
    ensures StripAnsi(t + rest) == t + StripAnsi(rest)
    decreases |t|
  {
    if |t| > 0 {
      assert (t + rest)[0] == t[0] != Esc;
      assert ColorCodeLength(t + rest).None?;
      assert (t + rest)[1..] == t[1..] + rest;
      StripAnsiPlainPrefix(t[1..], rest);
    } else {
      assert t + rest == rest;
    }
  }

  lemma StripAnsiCodePrefix(p: string, rest: string)
    requires forall k :: 0 <= k < |p| ==> IsParamChar(p[k])
    ensures StripAnsi([Esc, '['] + p + "m" + rest) == StripAnsi(rest)
  {
    var s := [Esc, '['] + p + "m" + rest;
    assert forall k :: 2 <= k < 2 + |p| ==> s[k] == p[k - 2];
    assert s[2 + |p|] == 'm';
    assert ParamEnd(s, 2) == 2 + |p|;
    assert ColorCodeLength(s) == Some(3 + |p|);
    assert s[3 + |p|..] == rest;
  }

  /** Stripping colour codes from a rendered line leaves exactly its visible text. */
  lemma {:induction false} StripAnsiRender(segs: seq<Segment>)
    requires forall k :: 0 <= k < |segs| ==> WellFormedSegment(segs[k])
    ensures StripAnsi(Render(segs)) == Visible(segs)
  {
    if |segs| > 0 {
      StripAnsiRender(segs[1..]);
      match segs[0]
      case Plain(t) =>
        StripAnsiPlainPrefix(t, Render(segs[1..]));
      case Color(p) =>
        StripAnsiCodePrefix(p, Render(segs[1..]));
    }
  }
}

=== FILE: patterns.dfy ===
/**
  The regular expressions that pull a port number out of a command line, a
  script, a URL or a Python source file.

  Each pattern is modelled by `MatchAt(p, s, i)`: the text of its `(\d+)` group
  when the pattern matches at index `i`, with greedy quantifiers and their
  backtracking worked out by hand. `re.search` is then the leftmost index at
  which `MatchAt` succeeds (`First`).
*/
module Patterns {

  import opened Wrappers
  import opened Text

  datatype Pattern =
    | PortFlag       // --port[= ](\d+)
    | BindFlag       // --bind[= ]\S*:(\d+)
    | ShortPortFlag  // \s-p[= ](\d+)
    | Localhost      // localhost:(\d+)
    | ColonPort      // :(\d+)
    | RunCallPort    // \.run\s*\([^)]*port\s*=\s*(\d+)
    | PortAssign     // \bport\s*=\s*(\d+)
    | EnvPort        // os\.environ\.get\(["\']PORT["\'],\s*["\']?(\d+)["\']?\)

  /** `[= ]` */
  predicate IsEqOrSpace(c: char) {
    c == '=' || c == ' '
  }

  /** `["\']` */
  predicate IsQuote(c: char) {
    c == '"' || c == '\''
  }

  /** `<flag>[= ](\d+)` at `i`. */
  function FlagAt(s: string, i: nat, flag: string): (r: Option<string>)
    ensures r.Some? ==> IsDigits(r.value) && Contains(s, r.value)
  {
    var k := i + |flag|;
    if OccursAt(s, flag, i) && k < |s| && IsEqOrSpace(s[k]) then DigitsAt(s, k + 1) else None
  }

  /**
    The group of `\S*:(\d+)` tried at `k`: the greedy `\S*` backs off to the last
    `:` followed by a digit inside the non-space run that starts at `k`.
    `j` scans that run from its end down to `k`.
  */
  function LastColonDigits(s: string, k: nat, j: nat): (r: Option<string>)
    requires k <= j <= |s|
    ensures r.Some? ==> IsDigits(r.value) && Contains(s, r.value)
    decreases j - k
  {
    if j == k then None
    else if s[j - 1] == ':' && j < |s| && IsDigit(s[j]) then DigitsAt(s, j)
    else LastColonDigits(s, k, j - 1)
  }

  /** The group of `port\s*=\s*(\d+)` at `p`. */
  function PortAssignTail(s: string, p: nat): (r: Option<string>)
    ensures r.Some? ==> IsDigits(r.value) && Contains(s, r.value)
  {
    if OccursAt(s, "port", p) then
      var a := SkipSpaces(s, p + 4);
      if a < |s| && s[a] == '=' then DigitsAt(s, SkipSpaces(s, a + 1)) else None
    else None
  }

  /**
    The group of `[^)]*port\s*=\s*(\d+)` tried at `k`, with `c` the first `)` at or
    after `k`: the greedy `[^)]*` backs off to the last `port = N` before `c`.
    `j` scans from `c` down to `k`.
  */
  function LastPortAssign(s: string, k: nat, j: nat): (r: Option<string>)
    requires k <= j <= |s|
    ensures r.Some? ==> IsDigits(r.value) && Contains(s, r.value)
    decreases j - k
  {
    if j == k then None
    else
      var m := PortAssignTail(s, j - 1);
      if m.Some? then m else LastPortAssign(s, k, j - 1)
  }

  /** `os\.environ\.get\(["\']PORT["\'],\s*["\']?(\d+)["\']?\)` at `i`. */
  function EnvPortAt(s: string, i: nat): (r: Option<string>)
    ensures r.Some? ==> IsDigits(r.value) && Contains(s, r.value)
  {
    if OccursAt(s, "os.environ.get(", i) && i + 22 <= |s| && IsQuote(s[i + 15])
       && s[i + 16..i + 20] == "PORT" && IsQuote(s[i + 20]) && s[i + 21] == ',' then
      var k := SkipSpaces(s, i + 22);
      var k2 := if k < |s| && IsQuote(s[k]) then k + 1 else k;
      match DigitsAt(s, k2)
      case None => None
      case Some(d) =>
        var e := k2 + |d|;
        var e2 := if e < |s| && IsQuote(s[e]) then e + 1 else e;
        if e2 < |s| && s[e2] == ')' then Some(d) else None
    else None
  }

  /** The `(\d+)` group of pattern `p` when it matches at index `i` of `s`. */
  function MatchAt(p: Pattern, s: string, i: nat): (r: Option<string>)
    ensures r.Some? ==> IsDigits(r.value) && Contains(s, r.value)
  {
    match p
    case PortFlag => FlagAt(s, i, "--port")
    case BindFlag =>
      if OccursAt(s, "--bind", i) && i + 6 < |s| && IsEqOrSpace(s[i + 6]) then
        LastColonDigits(s, i + 7, NonSpaceEnd(s, i + 7))
      else None
    case ShortPortFlag =>
      if i + 3 < |s| && IsSpace(s[i]) && s[i + 1] == '-' && s[i + 2] == 'p' && IsEqOrSpace(s[i + 3])
      then DigitsAt(s, i + 4) else None
    case Localhost => if OccursAt(s, "localhost:", i) then DigitsAt(s, i + 10) else None
    case ColonPort => if i < |s| && s[i] == ':' then DigitsAt(s, i + 1) else None
    case RunCallPort =>
      if OccursAt(s, ".run", i) then
        var k := SkipSpaces(s, i + 4);
        if k < |s| && s[k] == '(' then
          var c := k + 1 + FindChar(s[k + 1..], ')');
          LastPortAssign(s, k + 1, c)
        else None
      else None
    case PortAssign =>
      if i == 0 || (i <= |s| && !IsWordChar(s[i - 1])) then PortAssignTail(s, i) else None
    case EnvPort => EnvPortAt(s, i)
  }

  /**
    `re.search`'s scan: the value at the leftmost index from `from` to `n` at
    which `f` has one.
  */
  function Search(f: nat -> Option<string>, n: nat, from: nat): (r: Option<string>)
    requires from <= n
    ensures r.Some? ==> exists i :: from <= i <= n && f(i) == r && forall j :: from <= j < i ==> f(j).None?
    ensures r.None? <==> forall j :: from <= j <= n ==> f(j).None?
    decreases n - from
  {
    if f(from).Some? then f(from)
    else if from == n then None
    else Search(f, n, from + 1)
  }

  /** `re.search(p, s)`: the group of the leftmost match, `None` when there is none. */
  function First(p: Pattern, s: string): (r: Option<string>)
    ensures r.Some? ==> IsDigits(r.value) && Contains(s, r.value)
    ensures r.Some? ==> exists i :: 0 <= i <= |s| && MatchAt(p, s, i) == r
                                  && forall j :: 0 <= j < i ==> MatchAt(p, s, j).None?
    ensures r.None? <==> forall j :: 0 <= j <= |s| ==> MatchAt(p, s, j).None?
  {
    var f: nat -> Option<string> := (i: nat) => MatchAt(p, s, i);
    assert forall i: nat :: f(i) == MatchAt(p, s, i);
    var r := Search(f, |s|, 0);
    assert r.Some? ==> IsDigits(r.value) && Contains(s, r.value) by {
      if r.Some? {
        var i :| 0 <= i <= |s| && f(i) == r;
      }
    }
    r
  }

  /**
    Each pattern written out the way a command line or a source file would
    spell it, around the port digits `d`.
  */
  function Rendered(p: Pattern, d: string): string {
    match p
    case PortFlag => "--port=" + d
    case BindFlag => "--bind=0.0.0.0:" + d
    case ShortPortFlag => " -p " + d
    case Localhost => "localhost:" + d
    case ColonPort => ":" + d
    case RunCallPort => ".run(port=" + d + ")"
    case PortAssign => "port = " + d
    case EnvPort => "os.environ.get(\"PORT\", " + d + ")"
  }

  /** Every pattern captures exactly the port written into its rendering, whatever follows after a blank. */
  lemma MatchRendered(p: Pattern, d: string, rest: string)
    requires IsDigits(d)
    requires rest == [] || IsSpace(rest[0])
    ensures MatchAt(p, Rendered(p, d) + rest, 0) == Some(d)
  {
    match p
    case PortFlag => PortFlagRendered(d, rest);
    case ShortPortFlag => ShortPortRendered(d, rest);
    case Localhost => LocalhostRendered(d, rest);
    case ColonPort => ColonPortRendered(d, rest);
    case PortAssign => PortAssignRendered(d, rest);
    case BindFlag => BindRendered(d, rest);
    case RunCallPort => RunCallRendered(d, rest);
    case EnvPort => EnvPortRendered(d, rest);
  }

  /** `re.search` finds the rendered port at the very start. */
  lemma FirstRendered(p: Pattern, d: string, rest: string)
    requires IsDigits(d)
    requires rest == [] || IsSpace(rest[0])
    ensures First(p, Rendered(p, d) + rest) == Some(d)
  {
    MatchRendered(p, d, rest);
    FirstAtZero(p, Rendered(p, d) + rest);
  }

  lemma PortFlagRendered(d: string, rest: string)
    requires IsDigits(d)
    requires rest == [] || IsSpace(rest[0])
    ensures MatchAt(PortFlag, Rendered(PortFlag, d) + rest, 0) == Some(d)
  {
    var lit := "--port=";
    var s := lit + d + rest;
    assert s == Rendered(PortFlag, d) + rest;
    Parts(lit, d, rest);
    DigitsAfter(lit, d, rest);
    assert s[..6] == "--port";
  }

  lemma ShortPortRendered(d: string, rest: string)
    requires IsDigits(d)
    requires rest == [] || IsSpace(rest[0])
    ensures MatchAt(ShortPortFlag, Rendered(ShortPortFlag, d) + rest, 0) == Some(d)
  {
    var lit := " -p ";
    var s := lit + d + rest;
    assert s == Rendered(ShortPortFlag, d) + rest;
    Parts(lit, d, rest);
    DigitsAfter(lit, d, rest);
  }

  lemma LocalhostRendered(d: string, rest: string)
    requires IsDigits(d)
    requires rest == [] || IsSpace(rest[0])
    ensures MatchAt(Localhost, Rendered(Localhost, d) + rest, 0) == Some(d)
  {
    var lit := "localhost:";
    var s := lit + d + rest;
    assert s == Rendered(Localhost, d) + rest;
    Parts(lit, d, rest);
    DigitsAfter(lit, d, rest);
  }

  lemma ColonPortRendered(d: string, rest: string)
    requires IsDigits(d)
    requires rest == [] || IsSpace(rest[0])
    ensures MatchAt(ColonPort, Rendered(ColonPort, d) + rest, 0) == Some(d)
  {
    var lit := ":";
    var s := lit + d + rest;
    assert s == Rendered(ColonPort, d) + rest;
    DigitsAfter(lit, d, rest);
  }

  lemma PortAssignRendered(d: string, rest: string)
    requires IsDigits(d)
    requires rest == [] || IsSpace(rest[0])
    ensures MatchAt(PortAssign, Rendered(PortAssign, d) + rest, 0) == Some(d)
  {
    var s := Rendered(PortAssign, d) + rest;
    DigitsAfter("port = ", d, rest);
    assert SkipSpaces(s, 4) == 5 && SkipSpaces(s, 6) == 7;
  }

  lemma BindRendered(d: string, rest: string)
    requires IsDigits(d)
    requires rest == [] || IsSpace(rest[0])
    ensures MatchAt(BindFlag, Rendered(BindFlag, d) + rest, 0) == Some(d)
  {
    var lit := "--bind=0.0.0.0:";
    var s := lit + d + rest;
    assert s == Rendered(BindFlag, d) + rest;
    assert OccursAt(s, "--bind", 0) && 6 < |s| && IsEqOrSpace(s[6]) by {
      Parts(lit, d, rest);
      assert s[..6] == lit[..6];
    }
    assert NonSpaceEnd(s, 7) == 15 + |d| by {
      Parts(lit, d, rest);
      NonSpaceRun(s, 7, 15 + |d|);
    }
    assert LastColonDigits(s, 7, 15 + |d|) == Some(d) by {
      Parts(lit, d, rest);
      DigitsAfter(lit, d, rest);
      LastColonRun(s, 15, 15 + |d|);
    }
  }

  lemma RunCallRendered(d: string, rest: string)
    requires IsDigits(d)
    requires rest == [] || IsSpace(rest[0])
    ensures MatchAt(RunCallPort, Rendered(RunCallPort, d) + rest, 0) == Some(d)
  {
    var s := ".run(port=" + d + (")" + rest);
    assert s == Rendered(RunCallPort, d) + rest;
    RunCallScan(d, rest);
    assert OccursAt(s, ".run", 0) by { assert s[..4] == ".run"; }
  }

  /** The steps of `\.run\s*\(` and of the scan for the last `port=` inside the parentheses. */
  lemma RunCallScan(d: string, rest: string)
    requires IsDigits(d)
    ensures var s := ".run(port=" + d + (")" + rest);
            SkipSpaces(s, 4) == 4 && s[4] == '(' && 5 + FindChar(s[5..], ')') == 10 + |d|
            && LastPortAssign(s, 5, 10 + |d|) == Some(d)
  {
    var lit := ".run(port=";
    var s := lit + d + (")" + rest);
    Parts(lit, d, ")" + rest);
    assert s[4] == lit[4] == '(';
    RunCallClose(d, rest);
    RunCallLast(d, rest);
  }

  lemma RunCallClose(d: string, rest: string)
    requires IsDigits(d)
    ensures var s := ".run(port=" + d + (")" + rest);
            FindChar(s[5..], ')') == 5 + |d|
  {
    var lit := "port=";
    var t := lit + d + (")" + rest);
    assert ".run(port=" + d + (")" + rest) == ".run(" + t;
    assert (".run(" + t)[5..] == t;
    Parts(lit, d, ")" + rest);
    assert forall k :: 0 <= k < 5 + |d| ==> t[k] != ')' by {
      forall k | 0 <= k < 5 + |d| ensures t[k] != ')' {
        if k >= 5 { assert t[k] == d[k - 5]; } else { assert t[k] == lit[k]; }
      }
    }
    assert t[5 + |d|] == ')';
    FirstClose(t, 5 + |d|);
  }

  lemma RunCallLast(d: string, rest: string)
    requires IsDigits(d)
    ensures var s := ".run(port=" + d + (")" + rest);
            LastPortAssign(s, 5, 10 + |d|) == Some(d)
  {
    var s := ".run(port=" + d + (")" + rest);
    RunCallNoP(d, rest);
    LastPortAssignRun(s, 5, 10 + |d|);
    RunCallAssign(d, rest);
  }

  /** Inside the parentheses only the `p` of `port` is a `p`. */
  lemma RunCallNoP(d: string, rest: string)
    requires IsDigits(d)
    ensures var s := ".run(port=" + d + (")" + rest);
            10 + |d| <= |s| && s[5] == 'p' && forall q :: 5 < q < 10 + |d| ==> s[q] != 'p'
  {
    var lit := ".run(port=";
    var tail := ")" + rest;
    var s := lit + d + tail;
    Parts(lit, d, tail);
    forall q | 5 < q < 10 + |d| ensures s[q] != 'p' {
      if q >= 10 { assert s[q] == d[q - 10]; } else { assert s[q] == lit[q]; }
    }
  }

  lemma RunCallAssign(d: string, rest: string)
    requires IsDigits(d)
    ensures var s := ".run(port=" + d + (")" + rest);
            PortAssignTail(s, 5) == Some(d)
  {
    var lit := ".run(port=";
    var tail := ")" + rest;
    var s := lit + d + tail;
    Parts(lit, d, tail);
    assert s[5] == lit[5] && s[6] == lit[6] && s[7] == lit[7] && s[8] == lit[8] && s[9] == lit[9];
    DigitsAfter(lit, d, tail);
    PortAssignAt(s, 5, d);
  }

  /** A literal `port=` followed by digits is an assignment of those digits. */
  lemma PortAssignAt(s: string, p: nat, d: string)
    requires p + 5 <= |s|
    requires s[p] == 'p' && s[p + 1] == 'o' && s[p + 2] == 'r' && s[p + 3] == 't' && s[p + 4] == '='
    requires DigitsAt(s, p + 5) == Some(d)
    ensures PortAssignTail(s, p) == Some(d)
  {
    assert s[p..p + 4] == "port";
    assert s[p + 4] == '=';
    assert SkipSpaces(s, p + 4) == p + 4;
    assert SkipSpaces(s, p + 5) == p + 5;
  }

  /** Where the three parts of a concatenation sit. */
  lemma Parts(a: string, b: string, c: string)
    ensures (a + b + c)[..|a|] == a
    ensures forall k :: 0 <= k < |a| ==> (a + b + c)[k] == a[k]
    ensures forall k :: |a| <= k < |a| + |b| ==> (a + b + c)[k] == b[k - |a|]
    ensures forall k :: |a| + |b| <= k < |a| + |b| + |c| ==> (a + b + c)[k] == c[k - |a| - |b|]
  {
  }

  lemma EnvPortRendered(d: string, rest: string)
    requires IsDigits(d)
    requires rest == [] || IsSpace(rest[0])
    ensures MatchAt(EnvPort, Rendered(EnvPort, d) + rest, 0) == Some(d)
  {
    var s := "os.environ.get(\"PORT\", " + d + (")" + rest);
    assert s == Rendered(EnvPort, d) + rest;
    EnvPortHead(d, ")" + rest);
    EnvPortDigits(d, rest);
    assert SkipSpaces(s, 22) == 23;
    assert EnvPortAt(s, 0) == Some(d);
  }

  /** The port digits of `os.environ.get("PORT", d)` and the parenthesis after them. */
  lemma EnvPortDigits(d: string, rest: string)
    requires IsDigits(d)
    ensures var s := "os.environ.get(\"PORT\", " + d + (")" + rest);
            DigitsAt(s, 23) == Some(d) && !IsQuote(s[23]) && 23 + |d| < |s| && s[23 + |d|] == ')'
  {
    var lit := "os.environ.get(\"PORT\", ";
    var tail := ")" + rest;
    var s := lit + d + tail;
    Parts(lit, d, tail);
    DigitsAfter(lit, d, tail);
  }

  /** The fixed part of `os.environ.get("PORT", ` is all in place. */
  lemma EnvPortHead(d: string, tail: string)
    ensures var s := "os.environ.get(\"PORT\", " + d + tail;
            OccursAt(s, "os.environ.get(", 0) && 22 <= |s| && IsQuote(s[15]) && s[16..20] == "PORT"
            && IsQuote(s[20]) && s[21] == ',' && s[22] == ' '
  {
    var lit := "os.environ.get(\"PORT\", ";
    var s := lit + d + tail;
    assert s[..23] == lit;
    assert s[..15] == lit[..15];
    assert s[16..20] == lit[16..20];
  }

  /** The digits `d` placed after `lit` are what `(\d+)` captures there. */
  lemma DigitsAfter(lit: string, d: string, rest: string)
    requires IsDigits(d)
    requires rest == [] || !IsDigit(rest[0])
    ensures DigitsAt(lit + d + rest, |lit|) == Some(d)
  {
    var s := lit + d + rest;
    assert s[|lit|..|lit| + |d|] == d;
    if rest != [] {
      assert s[|lit| + |d|] == rest[0];
    }
    DigitsAtRun(s, |lit|, d);
  }

  /** A run of non-blank characters ending in a blank or the end is what `\S*` consumes. */
  lemma NonSpaceRun(s: string, i: nat, j: nat)
    requires i <= j <= |s|
    requires forall k :: i <= k < j ==> !IsSpace(s[k])
    requires j == |s| || IsSpace(s[j])
    ensures NonSpaceEnd(s, i) == j
    decreases j - i
  {
    if i < j {
      NonSpaceRun(s, i + 1, j);
    }
  }

  /** Scanning down over digits to a `:` right before them finds those digits. */
  lemma {:induction false} LastColonRun(s: string, c: nat, j: nat)
    requires 7 < c <= j <= |s| && s[c - 1] == ':'
    requires forall k :: c <= k < j ==> IsDigit(s[k])
    requires c < |s| && IsDigit(s[c])
    ensures LastColonDigits(s, 7, j) == DigitsAt(s, c)
    decreases j
  {
    if j > c {
      assert s[j - 1] != ':';
      LastColonRun(s, c, j - 1);
    }
  }

  /** `k` is the first `)` of `t`. */
  lemma FirstClose(t: string, k: nat)
    requires k < |t| && t[k] == ')' && forall j :: 0 <= j < k ==> t[j] != ')'
    ensures FindChar(t, ')') == k
  {
  }

  /** Scanning down to `port=` at `k` over text without a `p` finds its assignment. */
  lemma {:induction false} LastPortAssignRun(s: string, k: nat, j: nat)
    requires k < j <= |s| && s[k] == 'p'
    requires forall q :: k < q < j ==> s[q] != 'p'
    ensures LastPortAssign(s, k, j) == PortAssignTail(s, k)
    decreases j
  {
    if j - 1 > k {
      assert j - 1 + 4 > |s| || s[j - 1..j + 3][0] == s[j - 1];
      assert !OccursAt(s, "port", j - 1);
      LastPortAssignRun(s, k, j - 1);
    }
  }

  /** A match at index 0 is the one `re.search` reports. */
  lemma FirstAtZero(p: Pattern, s: string)
    requires MatchAt(p, s, 0).Some?
    ensures First(p, s) == MatchAt(p, s, 0)
  {
    var r := First(p, s);
    assert r.Some?;
    var i :| 0 <= i <= |s| && MatchAt(p, s, i) == r && forall j :: 0 <= j < i ==> MatchAt(p, s, j).None?;
    assert i == 0;
  }
}

=== FILE: ports.dfy ===
/**
  Port inference from a start command or shell script (`_port_from_command`) and
  from a Python entry point (`_port_from_python_source`).
*/
module Ports {

  import opened Wrappers
  import opened Text
  import opened Patterns

  /** The case-insensitive search for `frontend|client` on one line. */
  predicate MentionsFrontend(line: string) {
    Contains(LowerStr(line), "frontend") || Contains(LowerStr(line), "client")
  }

  /** A line the frontend rule accepts: it mentions the frontend or client and has a `localhost:N`. */
  predicate FrontendHit(line: string) {
    MentionsFrontend(line) && First(Localhost, line).Some?
  }

  /** The `localhost:N` port of the first line the frontend rule accepts. */
  function FrontendPort(lines: seq<string>): (r: Option<string>)
    ensures r.Some? ==> exists k :: 0 <= k < |lines| && FrontendHit(lines[k]) && First(Localhost, lines[k]) == r
                                  && forall j :: 0 <= j < k ==> !FrontendHit(lines[j])
    ensures r.None? <==> forall k :: 0 <= k < |lines| ==> !FrontendHit(lines[k])
  {
    var hits := seq(|lines|, j requires 0 <= j < |lines| => FrontendHit(lines[j]));
    assert forall j :: 0 <= j < |lines| ==> hits[j] == FrontendHit(lines[j]);
    var k := FirstTrue(hits);
    if k < |lines| then First(Localhost, lines[k]) else None
  }

  /**
    `_port_from_command`: `--port`, then `--bind host:N`, then `-p N`, then a
    `localhost:N` on a frontend/client line, then the first `localhost:N` anywhere.
  */
  function PortFromCommand(cmd: string): (r: Option<string>)
    ensures r.Some? ==> IsDigits(r.value) && Contains(cmd, r.value)
    ensures First(PortFlag, cmd).Some? ==> r == First(PortFlag, cmd)
    ensures First(PortFlag, cmd).None? && First(BindFlag, cmd).Some? ==> r == First(BindFlag, cmd)
    ensures First(PortFlag, cmd).None? && First(BindFlag, cmd).None? && First(ShortPortFlag, cmd).Some? ==>
              r == First(ShortPortFlag, cmd)
    ensures First(PortFlag, cmd).None? && First(BindFlag, cmd).None? && First(ShortPortFlag, cmd).None? ==>
              r == (if FrontendPort(SplitLines(cmd)).Some? then FrontendPort(SplitLines(cmd)) else First(Localhost, cmd))
  {
    var port := First(PortFlag, cmd);
    if port.Some? then port
    else
      var bind := First(BindFlag, cmd);
      if bind.Some? then bind
      else
        var short := First(ShortPortFlag, cmd);
        if short.Some? then short
        else
          var front := FrontendPort(SplitLines(cmd));
          if front.Some? then FrontendPortInScript(cmd); front
          else First(Localhost, cmd)
  }

  /** The frontend-line port is a `localhost:N` port of the whole script, and a substring of it. */
  lemma FrontendPortInScript(cmd: string)
    ensures FrontendPort(SplitLines(cmd)).Some? ==>
              Contains(cmd, FrontendPort(SplitLines(cmd)).value) && First(Localhost, cmd).Some?
  {
    var lines := SplitLines(cmd);
    var front := FrontendPort(lines);
    if front.Some? {
      var k :| 0 <= k < |lines| && FrontendHit(lines[k]) && First(Localhost, lines[k]) == front;
      ContainsTrans(cmd, lines[k], front.value);
      LocalhostInLine(cmd, lines[k]);
    }
  }

  /** Where `mid` occurs in `s`, each of its characters is the matching one of `s`. */
  lemma OccursAtChars(s: string, mid: string, o: nat)
    requires OccursAt(s, mid, o)
    ensures forall j :: 0 <= j < |mid| ==> s[o + j] == mid[j]
  {
    forall j | 0 <= j < |mid| ensures s[o + j] == mid[j] {
      assert s[o..o + |mid|][j] == mid[j];
    }
  }

  /** A substring of a substring is a substring. */
  lemma ContainsTrans(s: string, mid: string, p: string)
    requires Contains(s, mid) && Contains(mid, p)
    ensures Contains(s, p)
  {
    var o: nat :| o <= |s| && OccursAt(s, mid, o);
    var q: nat :| q <= |mid| && OccursAt(mid, p, q);
    OccursAtChars(s, mid, o);
    OccursAtChars(mid, p, q);
    assert s[o + q..o + q + |p|] == p;
    assert OccursAt(s, p, o + q);
  }

  /** A `localhost:N` match at `i` of a line is one at `o + i` of a text the line occurs in at `o`. */
  lemma LocalhostShift(s: string, line: string, o: nat, i: nat)
    requires OccursAt(s, line, o)
    requires MatchAt(Localhost, line, i).Some?
    ensures MatchAt(Localhost, s, o + i).Some?
  {
    var lit := "localhost:";
    assert OccursAt(line, lit, i) && DigitsAt(line, i + 10).Some?;
    OccursAtChars(s, line, o);
    OccursAtChars(line, lit, i);
    assert s[o + i..o + i + |lit|] == lit;
    assert IsDigit(s[o + i + 10]);
  }

  /** A `localhost:N` inside a line of the script is also one in the whole script. */
  lemma LocalhostInLine(s: string, line: string)
    requires Contains(s, line)
    requires First(Localhost, line).Some?
    ensures First(Localhost, s).Some?
  {
    var o: nat :| o <= |s| && OccursAt(s, line, o);
    var i :| 0 <= i <= |line| && MatchAt(Localhost, line, i) == First(Localhost, line)
             && forall j :: 0 <= j < i ==> MatchAt(Localhost, line, j).None?;
    LocalhostShift(s, line, o, i);
  }

  /**
    No port is inferred exactly when none of `--port`, `--bind`, `-p` and
    `localhost:` gives one: the frontend-line preference only ever picks
    among the `localhost:` ports the final fallback would also find.
  */
  lemma PortFromCommandNone(cmd: string)
    ensures PortFromCommand(cmd).None? <==>
              First(PortFlag, cmd).None? && First(BindFlag, cmd).None?
              && First(ShortPortFlag, cmd).None? && First(Localhost, cmd).None?
  {
    FrontendPortInScript(cmd);
  }

  /**
    `_port_from_python_source`: the first of `.run(... port=N`, a bare
    `port = N` and `os.environ.get("PORT", N)` that is found.
  */
  function PortFromPythonSource(content: string): (r: Option<string>)
    ensures r.Some? ==> IsDigits(r.value) && Contains(content, r.value)
    ensures r.None? <==> First(RunCallPort, content).None? && First(PortAssign, content).None?
                         && First(EnvPort, content).None?
    ensures First(RunCallPort, content).Some? ==> r == First(RunCallPort, content)
    ensures First(RunCallPort, content).None? && First(PortAssign, content).Some?
            ==> r == First(PortAssign, content)
    ensures First(RunCallPort, content).None? && First(PortAssign, content).None?
            ==> r == First(EnvPort, content)
  {
    var run := First(RunCallPort, content);
    if run.Some? then run
    else
      var assign := First(PortAssign, content);
      if assign.Some? then assign else First(EnvPort, content)
  }

  /** A `--port=N` flag at the head of a command is the port read back from it. */
  lemma CommandPortRoundTrip(d: string, rest: string)
    requires IsDigits(d) && (rest == [] || IsSpace(rest[0]))
    ensures PortFromCommand(Rendered(PortFlag, d) + rest) == Some(d)
  {
    FirstRendered(PortFlag, d, rest);
  }

  /** A `.run(port=N)` call at the head of a Python file is the port read back from it. */
  lemma PythonPortRoundTrip(d: string, rest: string)
    requires IsDigits(d) && (rest == [] || IsSpace(rest[0]))
    ensures PortFromPythonSource(Rendered(RunCallPort, d) + rest) == Some(d)
  {
    FirstRendered(RunCallPort, d, rest);
  }

  /** `f"http://localhost:{port}" if port else ""` */
  function LocalUrl(port: Option<string>): (url: string)
    ensures port.None? <==> url == ""
    ensures port.Some? ==> StartsWith(url, "http://localhost:") && url[17..] == port.value
  {
    if port.Some? then "http://localhost:" + port.value else ""
  }
}

=== FILE: procs.dfy ===
/**
  `ProcessManager`: the table of live child processes, keyed by service name.

  A process is reduced to what the supervisor can observe of it, its exit status
  (`None` while it runs). Starting overwrites any entry under the same name;
  stopping pops the entry first, so a second stop finds nothing to do. Signals,
  the 5 s grace period and the log file handle are not modelled.
*/
module ProcessTable {

  import opened Wrappers

  datatype Proc = Proc(exitCode: Option<int>)

  type Table = map<string, Proc>

  /** `start_one`: a fresh running process under `name`, replacing any previous entry. */
  function StartOne(t: Table, name: string): (r: Table)
    ensures IsRunning(r, name) && PollOne(r, name) == None
    ensures r.Keys == t.Keys + {name}
    ensures forall n :: n in t && n != name ==> n in r && r[n] == t[n]
  {
    t[name := Proc(None)]
  }

  /** `stop_one`: pop the entry; an absent name is a no-op. */
  function StopOne(t: Table, name: string): (r: Table)
    ensures !IsRunning(r, name)
    ensures r.Keys == t.Keys - {name}
    ensures forall n :: n in r ==> r[n] == t[n]
    ensures name !in t ==> r == t
  {
    t - {name}
  }

  /** `poll_one`: `None` for an unknown name, otherwise the process's exit status. */
  function PollOne(t: Table, name: string): (r: Option<int>)
    ensures name !in t ==> r == None
    ensures name in t ==> r == t[name].exitCode
  {
    if name in t then t[name].exitCode else None
  }

  /** `is_running`: the table has an entry, whether or not the process has exited. */
  predicate IsRunning(t: Table, name: string) {
    name in t
  }

  /** The operating system reports that the process under `name` exited with `code`. */
  function Exit(t: Table, name: string, code: int): (r: Table)
    ensures r.Keys == t.Keys
    ensures name in t ==> PollOne(r, name) == Some(code)
    ensures forall n :: n in t && n != name ==> r[n] == t[n]
  {
    if name in t then t[name := Proc(Some(code))] else t
  }

  /**
    `stop_all`: stop every entry, one name at a time. `stopped` lists the names
    in the order they were stopped: each name of the table exactly once.
  */
  method StopAll(t: Table) returns (r: Table, stopped: seq<string>)
    ensures r == map[]
    ensures |stopped| == |t.Keys|
    ensures forall n :: n in t <==> n in stopped
    ensures forall i, j :: 0 <= i < j < |stopped| ==> stopped[i] != stopped[j]
  {
    r := t;
    stopped := [];
    while r != map[]
      invariant r.Keys <= t.Keys
      invariant forall n :: n in t <==> n in r || n in stopped
      invariant forall n :: n in r ==> n !in stopped
      invariant |stopped| + |r.Keys| == |t.Keys|
      invariant forall i, j :: 0 <= i < j < |stopped| ==> stopped[i] != stopped[j]
      decreases |r.Keys|
    {
      var name :| name in r;
      r := StopOne(r, name);
      stopped := stopped + [name];
    }
  }
}

=== FILE: service.dfy ===
/**
  The configured service record and the per-service state, shared by the
  supervisor, the worker and the configuration writer.

  Two variants of the program exist: the newer one (`FairyStart`) carries a
  per-service backup opt-out and writes `fairy-start.log`; the older one
  (`Autostart`) has no opt-out and writes `autostart.log`.
*/
module Service {

  import opened Wrappers
  import opened Text

  datatype Variant = FairyStart | Autostart

  /** The name of the log file a service's output is redirected to, inside its package directory. */
  function LogFileName(v: Variant): string {
    match v
    case FairyStart => "fairy-start.log"
    case Autostart => "autostart.log"
  }

  /** The four states a service card can be in. */
  datatype PkgState = OFF | STARTING | RUNNING | ERROR

  /**
    One `[[package]]` entry. `fairyBackup` exists only in the newer variant; the
    older one behaves as if it were always true.
  */
  datatype PackageConfig = PackageConfig(
    name: string,
    repo: string,
    branch: string,
    startCommand: string,
    url: Option<string>,
    fairyBackup: bool)

  /** Python's `if pkg.url:` — set and non-empty. */
  predicate HasUrl(pkg: PackageConfig) {
    pkg.url.Some? && pkg.url.value != ""
  }

  /** Whether backups apply to this package in this variant. */
  predicate BackupEnabled(v: Variant, pkg: PackageConfig) {
    v == Autostart || pkg.fairyBackup
  }

  /** A repository locator that is already a full URL. */
  predicate IsFullUrl(repo: string) {
    StartsWith(repo, "https://") || StartsWith(repo, "http://") || StartsWith(repo, "git@")
  }

  /** `PackageConfig.github_url`: full URLs pass through, `owner/repo` slugs become HTTPS clone URLs. */
  function GithubUrl(repo: string): (r: string)
    ensures IsFullUrl(repo) ==> r == repo
    ensures !IsFullUrl(repo) ==> r == "https://github.com/" + repo + ".git"
  {
    if IsFullUrl(repo) then repo else "https://github.com/" + repo + ".git"
  }

  /** The names of a package list, in order. */
  function Names(pkgs: seq<PackageConfig>): (r: set<string>)
    ensures forall k :: 0 <= k < |pkgs| ==> pkgs[k].name in r
    ensures forall n :: n in r ==> exists k :: 0 <= k < |pkgs| && pkgs[k].name == n
  {
    set k | 0 <= k < |pkgs| :: pkgs[k].name
  }

  lemma NamesCons(p: PackageConfig, rest: seq<PackageConfig>)
    ensures Names([p] + rest) == {p.name} + Names(rest)
  {
    var all := [p] + rest;
    forall n | n in Names(all) ensures n in {p.name} + Names(rest) {
      var k :| 0 <= k < |all| && all[k].name == n;
      if k > 0 {
        assert all[k] == rest[k - 1];
      }
    }
    forall n | n in Names(rest) ensures n in Names(all) {
      var k :| 0 <= k < |rest| && rest[k].name == n;
      assert all[k + 1] == rest[k];
    }
    assert all[0] == p;
  }

  /** `next((p for p in packages if p.name == name), None)`. */
  function Find(pkgs: seq<PackageConfig>, name: string): (r: Option<PackageConfig>)
    ensures r.Some? <==> name in Names(pkgs)
    ensures r.Some? ==> r.value.name == name
    ensures r.Some? ==> r.value in pkgs
  {
    if |pkgs| == 0 then None
    else if pkgs[0].name == name then Some(pkgs[0])
    else
      assert Names(pkgs) == {pkgs[0].name} + Names(pkgs[1..]);
      Find(pkgs[1..], name)
  }

  /** `[p for p in packages if p.name != name]`. */
  function RemoveNamed(pkgs: seq<PackageConfig>, name: string): (r: seq<PackageConfig>)
    ensures |r| <= |pkgs|
  {
    if |pkgs| == 0 then []
    else
      var rest := RemoveNamed(pkgs[1..], name);
      if pkgs[0].name == name then rest else [pkgs[0]] + rest
  }

  /** The remaining names are the old names minus the removed one. */
  lemma {:induction false} RemoveNamedNames(pkgs: seq<PackageConfig>, name: string)
    ensures Names(RemoveNamed(pkgs, name)) == Names(pkgs) - {name}
  {
    if |pkgs| > 0 {
      assert Names(pkgs) == {pkgs[0].name} + Names(pkgs[1..]);
      var rest := RemoveNamed(pkgs[1..], name);
      RemoveNamedNames(pkgs[1..], name);
      if pkgs[0].name != name {
        NamesCons(pkgs[0], rest);
      }
    }
  }

  /** Exactly the records with another name survive a removal. */
  lemma {:induction false} RemoveNamedKeeps(pkgs: seq<PackageConfig>, name: string)
    ensures forall p :: p in RemoveNamed(pkgs, name) <==> p in pkgs && p.name != name
  {
    if |pkgs| > 0 {
      RemoveNamedKeeps(pkgs[1..], name);
      assert forall p :: p in pkgs <==> p == pkgs[0] || p in pkgs[1..];
    }
  }

  /** Removal works record by record: the survivors of two lists are the survivors of each, in order. */
  lemma {:induction false} RemoveNamedAppend(a: seq<PackageConfig>, b: seq<PackageConfig>, name: string)
    ensures RemoveNamed(a + b, name) == RemoveNamed(a, name) + RemoveNamed(b, name)
  {
    if a == [] {
      assert a + b == b;
    } else {
      var head := if a[0].name == name then [] else [a[0]];
      var x, y := RemoveNamed(a[1..], name), RemoveNamed(b, name);
      assert (a + b)[0] == a[0] && (a + b)[1..] == a[1..] + b;
      RemoveNamedAppend(a[1..], b, name);
      assert RemoveNamed(a + b, name) == head + (x + y);
      assert RemoveNamed(a, name) == head + x;
      assert head + (x + y) == (head + x) + y;
    }
  }
}

=== FILE: supervisor.dfy ===
/**
  The supervisor (`FairyStartApp`) as a pure state machine.

  The main thread owns the per-service states, the stop events, the set of
  services being stopped and the process table. User actions and the messages
  that worker, monitor and health threads post on the UI queue are events; each
  is handled to completion before the next one, as `_poll_queue` and the Tk
  event loop do. Widgets are not modelled: a service has a card exactly when it
  is configured.
*/
module Supervisor {

  import opened Wrappers
  import opened Service
  import opened Advisory
  import opened Health
  import ProcessTable

  /**
    `states` is `_pkg_states`; `tokens` is `_pkg_stop_events`, each event
    reduced to whether it has been set; `stopping` is `_stopping`.
  */
  datatype App = App(
    packages: seq<PackageConfig>,
    states: map<string, PkgState>,
    tokens: map<string, bool>,
    stopping: set<string>,
    procs: ProcessTable.Table)

  datatype Event =
    | Action(name: string)                                 // the card's Start / Stop / Restart button
    | GlobalAction                                         // the header's Start All / Stop All button
    | Remove(name: string, confirmed: bool)                // "Remove" and the answer to its confirmation
    | Added(pkg: PackageConfig)                            // the add-service dialog confirmed
    | StateMsg(name: string, state: PkgState)              // ("pkg_state", name, state, message)
    | Exited(name: string)                                 // ("pkg_exited", name, log tail)
    | HealthMsg(name: string, status: int, logTail: string) // ("pkg_health", name, status), with the log tail it reads
    | Launched(name: string)                               // a worker's `start_one`
    | ProcessEnded(name: string, code: int)                // the operating system reaps a child
    | StopFinished(name: string)                           // a stop thread's `stop_one` and `_stopping.discard`

  /** Every configured service has a state; stop events exist only for configured services. */
  predicate Wf(a: App) {
    Names(a.packages) <= a.states.Keys && a.tokens.Keys <= Names(a.packages)
  }

  /** `states.get(name, default)` */
  function StateOr(states: map<string, PkgState>, name: string, default: PkgState): PkgState {
    if name in states then states[name] else default
  }

  predicate Startable(st: PkgState) {
    st == OFF || st == ERROR
  }

  /** `_signal_stop_event`: set the service's stop event if it has one. */
  function Signal(tokens: map<string, bool>, name: string): (r: map<string, bool>)
    ensures r.Keys == tokens.Keys
    ensures name in tokens ==> r[name]
    ensures forall n :: n in tokens && n != name ==> r[n] == tokens[n]
  {
    if name in tokens then tokens[name := true] else tokens
  }

  /**
    `_do_start_pkg`: for a configured service, a fresh unset stop event, no
    longer stopping, state STARTING; an unknown name is ignored.
  */
  function DoStart(a: App, name: string): (r: App)
    ensures name !in Names(a.packages) ==> r == a
    ensures name in Names(a.packages) ==>
              r.states == a.states[name := STARTING] && r.tokens == a.tokens[name := false]
              && r.stopping == a.stopping - {name}
    ensures r.packages == a.packages && r.procs == a.procs
  {
    if Find(a.packages, name).None? then a
    else a.(tokens := a.tokens[name := false], stopping := a.stopping - {name},
            states := a.states[name := STARTING])
  }

  /** `_do_stop_pkg`: mark as stopping and set the stop event; the state waits for the stop thread's report. */
  function DoStop(a: App, name: string): (r: App)
    ensures r.stopping == a.stopping + {name}
    ensures r.tokens == Signal(a.tokens, name)
    ensures r.states == a.states && r.packages == a.packages && r.procs == a.procs
  {
    a.(stopping := a.stopping + {name}, tokens := Signal(a.tokens, name))
  }

  /** `_on_pkg_action`: a missing state counts as OFF. */
  function OnAction(a: App, name: string): (r: App)
    ensures r.packages == a.packages && r.procs == a.procs
    ensures Startable(StateOr(a.states, name, OFF)) && name in Names(a.packages) ==>
              r.states == a.states[name := STARTING] && r.tokens == a.tokens[name := false]
              && r.stopping == a.stopping - {name}
    ensures Startable(StateOr(a.states, name, OFF)) && name !in Names(a.packages) ==> r == a
    ensures StateOr(a.states, name, OFF) == RUNNING ==>
              r.states == a.states && r.stopping == a.stopping + {name} && r.tokens == Signal(a.tokens, name)
    ensures StateOr(a.states, name, OFF) == STARTING ==> r == a
  {
    var st := StateOr(a.states, name, OFF);
    if Startable(st) then DoStart(a, name)
    else if st == RUNNING then DoStop(a, name)
    else a
  }

  /** Every service state is RUNNING, and there is at least one. */
  predicate AllRunning(states: map<string, PkgState>) {
    states != map[] && forall n :: n in states ==> states[n] == RUNNING
  }

  /** `_update_global_btn`: the header button's label and whether it is enabled. */
  function GlobalButton(states: map<string, PkgState>): (r: (string, bool))
    ensures r.1 <==> states != map[]
    ensures r.0 == "Stop All" <==> AllRunning(states)
    ensures r.0 == "Stop All" || r.0 == "Start All"
  {
    if states == map[] then ("Start All", false)
    else if AllRunning(states) then ("Stop All", true)
    else ("Start All", true)
  }

  /** A service the start half of `_on_global_action` starts: listed in `pkgs`, configured, OFF or ERROR. */
  predicate StartedBy(a: App, pkgs: seq<PackageConfig>, n: string) {
    n in Names(pkgs) && n in Names(a.packages) && n in a.states && Startable(a.states[n])
  }

  /** A service the stop half of `_on_global_action` stops: listed in `pkgs` and RUNNING. */
  predicate StoppedBy(a: App, pkgs: seq<PackageConfig>, n: string) {
    n in Names(pkgs) && n in a.states && a.states[n] == RUNNING
  }

  /** The start loop: in list order, start each service whose state is OFF or ERROR (a missing state is skipped). */
  function StartEach(a: App, pkgs: seq<PackageConfig>): (r: App)
    ensures r.packages == a.packages && r.procs == a.procs
    decreases |pkgs|
  {
    if pkgs == [] then a
    else
      var name := pkgs[0].name;
      var a1 := if name in a.states && Startable(a.states[name]) then DoStart(a, name) else a;
      StartEach(a1, pkgs[1..])
  }

  /** The stop loop: in list order, stop each service whose state is RUNNING. */
  function StopEach(a: App, pkgs: seq<PackageConfig>): (r: App)
    ensures r.packages == a.packages && r.procs == a.procs && r.states == a.states
    decreases |pkgs|
  {
    if pkgs == [] then a
    else
      var name := pkgs[0].name;
      var a1 := if name in a.states && a.states[name] == RUNNING then DoStop(a, name) else a;
      StopEach(a1, pkgs[1..])
  }

  /** What the start loop does: exactly the `StartedBy` services become STARTING, with fresh stop events. */
  lemma StartEachEffect(a: App, pkgs: seq<PackageConfig>)
    ensures StartEach(a, pkgs).states.Keys == a.states.Keys
    ensures forall n :: n in a.states ==>
              StartEach(a, pkgs).states[n] == (if StartedBy(a, pkgs, n) then STARTING else a.states[n])
    ensures forall n :: n in StartEach(a, pkgs).stopping <==> n in a.stopping && !StartedBy(a, pkgs, n)
    ensures forall n :: StartedBy(a, pkgs, n) ==> n in StartEach(a, pkgs).tokens && !StartEach(a, pkgs).tokens[n]
    ensures forall n :: !StartedBy(a, pkgs, n) ==>
              (n in StartEach(a, pkgs).tokens <==> n in a.tokens)
              && (n in a.tokens ==> StartEach(a, pkgs).tokens[n] == a.tokens[n])
  {
    StartEachStates(a, pkgs);
    StartEachTokens(a, pkgs);
  }

  /** Starting the head service and then the rest starts exactly the services the whole loop starts. */
  lemma StartedByStep(a: App, pkgs: seq<PackageConfig>, a1: App)
    requires pkgs != []
    requires a1 == if pkgs[0].name in a.states && Startable(a.states[pkgs[0].name]) then DoStart(a, pkgs[0].name) else a
    ensures forall n :: StartedBy(a1, pkgs[1..], n) <==> StartedBy(a, pkgs, n) && n != pkgs[0].name
    ensures StartEach(a, pkgs) == StartEach(a1, pkgs[1..])
  {
    var name := pkgs[0].name;
    assert pkgs == [pkgs[0]] + pkgs[1..];
    NamesCons(pkgs[0], pkgs[1..]);
    forall n ensures StartedBy(a1, pkgs[1..], n) <==> StartedBy(a, pkgs, n) && n != name {
      if n == name && StartedBy(a, pkgs, n) {
        assert a1.states[n] == STARTING;
      }
    }
  }

  lemma {:induction false} StartEachStates(a: App, pkgs: seq<PackageConfig>)
    ensures StartEach(a, pkgs).states.Keys == a.states.Keys
    ensures forall n :: n in a.states ==>
              StartEach(a, pkgs).states[n] == (if StartedBy(a, pkgs, n) then STARTING else a.states[n])
    ensures forall n :: n in StartEach(a, pkgs).stopping <==> n in a.stopping && !StartedBy(a, pkgs, n)
    decreases |pkgs|
  {
    if pkgs == [] {
      assert forall n :: !StartedBy(a, pkgs, n);
    } else {
      var name := pkgs[0].name;
      var a1 := if name in a.states && Startable(a.states[name]) then DoStart(a, name) else a;
      StartedByStep(a, pkgs, a1);
      StartEachStates(a1, pkgs[1..]);
      assert forall n :: n in a.states <==> n in a1.states;
    }
  }

  lemma {:induction false} StartEachTokens(a: App, pkgs: seq<PackageConfig>)
    ensures forall n :: StartedBy(a, pkgs, n) ==> n in StartEach(a, pkgs).tokens && !StartEach(a, pkgs).tokens[n]
    ensures forall n :: !StartedBy(a, pkgs, n) ==>
              (n in StartEach(a, pkgs).tokens <==> n in a.tokens)
              && (n in a.tokens ==> StartEach(a, pkgs).tokens[n] == a.tokens[n])
    decreases |pkgs|
  {
    if pkgs == [] {
      assert forall n :: !StartedBy(a, pkgs, n);
    } else {
      var name := pkgs[0].name;
      var a1 := if name in a.states && Startable(a.states[name]) then DoStart(a, name) else a;
      StartedByStep(a, pkgs, a1);
      StartEachTokens(a1, pkgs[1..]);
      assert StartedBy(a, pkgs, name) ==> name in a1.tokens && !a1.tokens[name];
    }
  }

  /** What the stop loop does: exactly the `StoppedBy` services are marked stopping and signalled. */
  lemma {:induction false} StopEachEffect(a: App, pkgs: seq<PackageConfig>)
    ensures forall n :: n in StopEach(a, pkgs).stopping <==> n in a.stopping || StoppedBy(a, pkgs, n)
    ensures StopEach(a, pkgs).tokens.Keys == a.tokens.Keys
    ensures forall n :: n in a.tokens ==> StopEach(a, pkgs).tokens[n] == (a.tokens[n] || StoppedBy(a, pkgs, n))
    decreases |pkgs|
  {
    if pkgs == [] {
      assert forall n :: !StoppedBy(a, pkgs, n);
    } else {
      var name := pkgs[0].name;
      var rest := pkgs[1..];
      var a1 := if name in a.states && a.states[name] == RUNNING then DoStop(a, name) else a;
      assert pkgs == [pkgs[0]] + rest;
      NamesCons(pkgs[0], rest);
      assert StopEach(a, pkgs) == StopEach(a1, rest);
      StopEachEffect(a1, rest);
      assert forall n :: StoppedBy(a, pkgs, n) <==> StoppedBy(a1, rest, n) || (n == name && StoppedBy(a, pkgs, n));
    }
  }

  /** `_on_global_action`: stop everything when all are RUNNING, otherwise start the OFF and ERROR ones. */
  function OnGlobal(a: App): (r: App)
    ensures r.packages == a.packages && r.procs == a.procs
    ensures AllRunning(a.states) ==>
              r.states == a.states
              && (forall n :: n in r.stopping <==> n in a.stopping || StoppedBy(a, a.packages, n))
              && r.tokens.Keys == a.tokens.Keys
              && (forall n :: n in a.tokens ==> r.tokens[n] == (a.tokens[n] || StoppedBy(a, a.packages, n)))
    ensures !AllRunning(a.states) ==>
              r.states.Keys == a.states.Keys
              && (forall n :: n in a.states ==>
                    r.states[n] == (if StartedBy(a, a.packages, n) then STARTING else a.states[n]))
              && (forall n :: n in r.stopping <==> n in a.stopping && !StartedBy(a, a.packages, n))
              && (forall n :: StartedBy(a, a.packages, n) ==> n in r.tokens && !r.tokens[n])
              && (forall n :: !StartedBy(a, a.packages, n) ==>
                    (n in r.tokens <==> n in a.tokens) && (n in a.tokens ==> r.tokens[n] == a.tokens[n]))
  {
    if AllRunning(a.states) then
      StopEachEffect(a, a.packages);
      StopEach(a, a.packages)
    else
      StartEachEffect(a, a.packages);
      StartEach(a, a.packages)
  }

  /** `_on_service_added`: append the service and show it as OFF. */
  function OnAdded(a: App, pkg: PackageConfig): (r: App)
    ensures Names(r.packages) == Names(a.packages) + {pkg.name}
    ensures r.states == a.states[pkg.name := OFF]
    ensures r.tokens == a.tokens && r.stopping == a.stopping && r.procs == a.procs
  {
    NamesSnoc(a.packages, pkg);
    a.(packages := a.packages + [pkg], states := a.states[pkg.name := OFF])
  }

  lemma NamesSnoc(pkgs: seq<PackageConfig>, pkg: PackageConfig)
    ensures Names(pkgs + [pkg]) == Names(pkgs) + {pkg.name}
  {
    var all := pkgs + [pkg];
    forall n | n in Names(all) ensures n in Names(pkgs) + {pkg.name} {
      var k :| 0 <= k < |all| && all[k].name == n;
      if k < |pkgs| {
        assert all[k] == pkgs[k];
      }
    }
    assert all[|pkgs|] == pkg;
    forall n | n in Names(pkgs) ensures n in Names(all) {
      var k :| 0 <= k < |pkgs| && pkgs[k].name == n;
      assert all[k] == pkgs[k];
    }
  }

  /**
    `_on_remove_service`: after a confirmation, stop the process when the
    service is RUNNING or STARTING, then forget the service everywhere.
  */
  function OnRemove(a: App, name: string, confirmed: bool): (r: App)
    ensures !confirmed ==> r == a
    ensures confirmed ==> name !in Names(r.packages) && name !in r.states && name !in r.tokens
                          && name !in r.stopping
    ensures confirmed && StateOr(a.states, name, OFF) in {RUNNING, STARTING} ==>
              !ProcessTable.IsRunning(r.procs, name)
    ensures confirmed ==> Names(r.packages) == Names(a.packages) - {name}
    ensures confirmed ==> r.states == a.states - {name} && r.tokens == a.tokens - {name}
                          && r.stopping == a.stopping - {name}
    ensures forall n :: n != name && n in a.procs ==> n in r.procs && r.procs[n] == a.procs[n]
    ensures confirmed && StateOr(a.states, name, OFF) !in {RUNNING, STARTING} ==> r.procs == a.procs
    ensures r.procs.Keys <= a.procs.Keys
  {
    if !confirmed then a
    else
      var st := StateOr(a.states, name, OFF);
      var procs := if st == RUNNING || st == STARTING then ProcessTable.StopOne(a.procs, name) else a.procs;
      RemoveNamedNames(a.packages, name);
      App(RemoveNamed(a.packages, name), a.states - {name}, a.tokens - {name}, a.stopping - {name}, procs)
  }

  /** A `pkg_state` report: record the state; ERROR and OFF also set the stop event. */
  function OnStateMsg(a: App, name: string, st: PkgState): (r: App)
    ensures r.states == a.states[name := st]
    ensures Startable(st) ==> r.tokens == Signal(a.tokens, name)
    ensures !Startable(st) ==> r.tokens == a.tokens
    ensures r.packages == a.packages && r.stopping == a.stopping && r.procs == a.procs
  {
    a.(states := a.states[name := st], tokens := if Startable(st) then Signal(a.tokens, name) else a.tokens)
  }

  /** A `pkg_exited` report: an exit the user did not ask for is an error; the stop event is left alone. */
  function OnExited(a: App, name: string): (r: App)
    ensures name in a.stopping ==> r == a
    ensures name !in a.stopping ==> r.states == a.states[name := ERROR] && r.tokens == a.tokens
    ensures r.packages == a.packages && r.stopping == a.stopping && r.procs == a.procs
  {
    if name in a.stopping then a else a.(states := a.states[name := ERROR])
  }

  /**
    A `pkg_health` report. It only matters for a configured service that is
    RUNNING; then only a healthy answer while the log reports a port already in
    use changes anything: the service goes to ERROR and its stop event is set.
    The process itself is left running.
  */
  function OnHealth(a: App, name: string, status: int, logTail: string): (r: App)
    ensures StateOr(a.states, name, OFF) != RUNNING ==> r == a
    ensures Classify(status) != Healthy ==> r == a
    ensures r.packages == a.packages && r.stopping == a.stopping && r.procs == a.procs
    ensures r != a <==>
              StateOr(a.states, name, OFF) == RUNNING && name in Names(a.packages)
              && Classify(status) == Healthy && Matches(PortInUse, logTail)
    ensures r != a ==> r.states == a.states[name := ERROR] && r.tokens == Signal(a.tokens, name)
  {
    if StateOr(a.states, name, OFF) != RUNNING then a
    else match Find(a.packages, name)
      case None => a
      case Some(pkg) =>
        if ApplyHealth(status, pkg, logTail).PortConflict? then
          var r := a.(states := a.states[name := ERROR], tokens := Signal(a.tokens, name));
          assert r.states[name] != a.states[name];
          r
        else a
  }

  /** One event, handled to completion. Only the add dialog and a confirmed removal touch the configuration. */
  function Step(a: App, e: Event): (r: App)
    ensures !e.Added? && !e.Remove? ==> r.packages == a.packages
    ensures e.Added? ==> Names(r.packages) == Names(a.packages) + {e.pkg.name}
    ensures e.Remove? && e.confirmed ==> Names(r.packages) == Names(a.packages) - {e.name}
    ensures e.Remove? && !e.confirmed ==> r == a
  {
    match e
    case Action(name) => OnAction(a, name)
    case GlobalAction => OnGlobal(a)
    case Remove(name, confirmed) => OnRemove(a, name, confirmed)
    case Added(pkg) => OnAdded(a, pkg)
    case StateMsg(name, st) => OnStateMsg(a, name, st)
    case Exited(name) => OnExited(a, name)
    case HealthMsg(name, status, logTail) => OnHealth(a, name, status, logTail)
    case Launched(name) => a.(procs := ProcessTable.StartOne(a.procs, name))
    case ProcessEnded(name, code) => a.(procs := ProcessTable.Exit(a.procs, name, code))
    case StopFinished(name) => a.(procs := ProcessTable.StopOne(a.procs, name), stopping := a.stopping - {name})
  }

  /** A sequence of events, in order. */
  function Run(a: App, es: seq<Event>): (r: App)
    ensures (forall k :: 0 <= k < |es| ==> !es[k].Added? && !es[k].Remove?) ==> r.packages == a.packages
    decreases |es|
  {
    if es == [] then a else Run(Step(a, es[0]), es[1..])
  }

  /**
    The header button and `_on_global_action` agree: under "Stop All" every
    configured service is asked to stop and none is started; under "Start All"
    every configured OFF or ERROR service goes to STARTING, the others keep their
    state, and nothing is asked to stop.
  */
  lemma GlobalActionEffect(a: App)
    requires Wf(a)
    ensures GlobalButton(a.states).0 == "Stop All" ==>
              OnGlobal(a).states == a.states && OnGlobal(a).stopping == a.stopping + Names(a.packages)
    ensures GlobalButton(a.states).0 == "Start All" ==>
              OnGlobal(a).states.Keys == a.states.Keys
              && (forall n :: n in a.states ==>
                    OnGlobal(a).states[n] == (if n in Names(a.packages) && Startable(a.states[n]) then STARTING
                                              else a.states[n]))
              && OnGlobal(a).stopping <= a.stopping
  {
    if AllRunning(a.states) {
      StopEachEffect(a, a.packages);
      assert forall n :: StoppedBy(a, a.packages, n) <==> n in Names(a.packages);
    } else {
      StartEachEffect(a, a.packages);
    }
  }

  /** Every event keeps every configured service stated, and stop events only for configured services. */
  lemma StepPreservesWf(a: App, e: Event)
    requires Wf(a)
    ensures Wf(Step(a, e))
  {
    match e
    case GlobalAction =>
      if AllRunning(a.states) {
        StopEachEffect(a, a.packages);
      } else {
        StartEachEffect(a, a.packages);
      }
    case _ =>
  }

  lemma {:induction false} RunPreservesWf(a: App, es: seq<Event>)
    requires Wf(a)
    ensures Wf(Run(a, es))
    decreases |es|
  {
    if es != [] {
      StepPreservesWf(a, es[0]);
      RunPreservesWf(Step(a, es[0]), es[1..]);
    }
  }

  /**
    A report that arrives after its service was removed re-creates the
    service's state although it has no configuration any more: removing the
    only service while it is starting, then receiving the worker's RUNNING
    report, leaves the header button enabled and reading "Stop All" with no
    service configured.
  */
  lemma LateReportAfterRemove(a: App, pkg: PackageConfig)
    requires a.packages == [pkg] && a.states == map[pkg.name := STARTING]
    ensures var b := Run(a, [Remove(pkg.name, true), StateMsg(pkg.name, RUNNING)]);
            Names(b.packages) == {} && pkg.name in b.states && GlobalButton(b.states) == ("Stop All", true)
  {
    var b1 := Step(a, Remove(pkg.name, true));
    assert Names(b1.packages) == {};
    assert b1.states == map[];
    var b := Step(b1, StateMsg(pkg.name, RUNNING));
    assert b.states == map[pkg.name := RUNNING];
    assert Run(a, [Remove(pkg.name, true), StateMsg(pkg.name, RUNNING)]) == Run(b1, [StateMsg(pkg.name, RUNNING)]);
    assert Run(b1, [StateMsg(pkg.name, RUNNING)]) == Run(b, []);
  }

  /**
    A stop the user asked for is not reported as a crash while it is in
    progress: once the Stop button of a RUNNING service is pressed, the
    service is stopping and its stop event is set (so a monitor that has not
    yet reported an exit never will), and an exit report that does arrive
    leaves the state alone.
  */
  lemma UserStopIsNoCrash(a: App, name: string)
    requires name in a.states && a.states[name] == RUNNING
    ensures Run(a, [Action(name), Exited(name)]).states == a.states
    ensures name in Run(a, [Action(name), Exited(name)]).stopping
    ensures name in a.tokens ==> name in Run(a, [Action(name), Exited(name)]).tokens
                                 && Run(a, [Action(name), Exited(name)]).tokens[name]
  {
    var b := Step(a, Action(name));
    assert name in b.stopping;
    var c := Step(b, Exited(name));
    assert Run(a, [Action(name), Exited(name)]) == Run(b, [Exited(name)]);
    assert Run(b, [Exited(name)]) == Run(c, []);
  }

  /**
    An exit report the monitor queued just before the Stop button was pressed
    and that is handled only after the stop thread finished is taken for a
    crash: the card shows ERROR until the stop thread's OFF report, queued
    behind it, arrives.
  */
  lemma QueuedExitAfterStop(a: App, name: string)
    requires name in a.states && a.states[name] == RUNNING
    ensures var b := Run(a, [Action(name), StopFinished(name), Exited(name)]);
            name in b.states && b.states[name] == ERROR
    ensures var b := Run(a, [Action(name), StopFinished(name), Exited(name), StateMsg(name, OFF)]);
            name in b.states && b.states[name] == OFF
  {
    var b := Step(a, Action(name));
    var c := Step(b, StopFinished(name));
    assert name !in c.stopping;
    var d := Step(c, Exited(name));
    assert d.states[name] == ERROR;
    var e := Step(d, StateMsg(name, OFF));
    assert Run(a, [Action(name), StopFinished(name), Exited(name)]) == Run(b, [StopFinished(name), Exited(name)]);
    assert Run(b, [StopFinished(name), Exited(name)]) == Run(c, [Exited(name)]);
    assert Run(c, [Exited(name)]) == Run(d, []);
    assert Run(a, [Action(name), StopFinished(name), Exited(name), StateMsg(name, OFF)])
        == Run(b, [StopFinished(name), Exited(name), StateMsg(name, OFF)]);
    assert Run(b, [StopFinished(name), Exited(name), StateMsg(name, OFF)])
        == Run(c, [Exited(name), StateMsg(name, OFF)]);
    assert Run(c, [Exited(name), StateMsg(name, OFF)]) == Run(d, [StateMsg(name, OFF)]);
    assert Run(d, [StateMsg(name, OFF)]) == Run(e, []);
  }
}

=== FILE: text.dfy ===
/**
  Character classes and string helpers shared by the log, parsing and detection
  modules. Each one follows the Python built-in or `re` construct it stands for;
  where Python works on full Unicode and this module on a subset, the doc comment
  says so.
*/
module Text {

  import opened Wrappers

  /** Python's `str.isspace()`; CPython's `\s` in a str pattern is the same set. */
  predicate IsSpace(c: char) {
    var k := c as int;
    (9 <= k <= 13) || (28 <= k <= 32) || k == 0x85 || k == 0xA0 || k == 0x1680
    || (0x2000 <= k <= 0x200A) || k == 0x2028 || k == 0x2029 || k == 0x202F
    || k == 0x205F || k == 0x3000
  }

  /** The boundaries `str.splitlines()` splits on (`\r\n` counts once). */
  predicate IsLineBreak(c: char) {
    var k := c as int;
    (10 <= k <= 13) || (28 <= k <= 30) || k == 0x85 || k == 0x2028 || k == 0x2029
  }

  /** `\d`, restricted to ASCII digits. */
  predicate IsDigit(c: char) {
    '0' <= c <= '9'
  }

  /** `\w`, restricted to ASCII letters, digits and underscore. */
  predicate IsWordChar(c: char) {
    ('a' <= c <= 'z') || ('A' <= c <= 'Z') || IsDigit(c) || c == '_'
  }

  /** A non-empty run of digits: what every `(\d+)` group captures. */
  predicate IsDigits(s: string) {
    |s| > 0 && forall i :: 0 <= i < |s| ==> IsDigit(s[i])
  }

  /** ASCII lower-casing, the case folding the rule tables rely on. */
  function Lower(c: char): (r: char)
    ensures 'A' <= c <= 'Z' ==> 'a' <= r <= 'z' && r as int == c as int + 32
    ensures !('A' <= c <= 'Z') ==> r == c
  {
    if 'A' <= c <= 'Z' then (c as int + 32) as char else c
  }

  function LowerStr(s: string): (r: string)
    ensures |r| == |s|
    ensures forall i :: 0 <= i < |s| ==> r[i] == Lower(s[i])
  {
    seq(|s|, i requires 0 <= i < |s| => Lower(s[i]))
  }

  /** `p` occurs in `s` starting at index `i`. */
  predicate OccursAt(s: string, p: string, i: nat) {
    i + |p| <= |s| && s[i..i + |p|] == p
  }

  /** Python's `p in s`. */
  predicate Contains(s: string, p: string) {
    exists i: nat :: i <= |s| && OccursAt(s, p, i)
  }

  /** Python's `s.startswith(p)`. */
  predicate StartsWith(s: string, p: string) {
    OccursAt(s, p, 0)
  }

  /** Python's `s.endswith(p)`. */
  predicate EndsWith(s: string, p: string) {
    |p| <= |s| && s[|s| - |p|..] == p
  }

  /** Leading whitespace removed (`str.lstrip()`). */
  function LStrip(s: string): (r: string)
    ensures |r| <= |s| && r == s[|s| - |r|..]
    ensures r == [] || !IsSpace(r[0])
    ensures forall i :: 0 <= i < |s| - |r| ==> IsSpace(s[i])
  {
    if |s| > 0 && IsSpace(s[0]) then LStrip(s[1..]) else s
  }

  /** Trailing whitespace removed (`str.rstrip()`). */
  function RStrip(s: string): (r: string)
    ensures |r| <= |s| && r == s[..|r|]
    ensures r == [] || !IsSpace(r[|r| - 1])
    ensures forall i :: |r| <= i < |s| ==> IsSpace(s[i])
  {
    if |s| > 0 && IsSpace(s[|s| - 1]) then RStrip(s[..|s| - 1]) else s
  }

  /** `str.strip()`: whitespace removed at both ends. */
  function Strip(s: string): (r: string)
    ensures |r| <= |s|
    ensures r == [] || (!IsSpace(r[0]) && !IsSpace(r[|r| - 1]))
  {
    var l := LStrip(s);
    var r := RStrip(l);
    assert |r| > 0 ==> r[0] == l[0];
    r
  }

  /** Stripping keeps a single line a single line. */
  lemma StripSingleLine(s: string)
    requires IsSingleLine(s)
    ensures IsSingleLine(Strip(s))
  {
    var l := LStrip(s);
    var r := RStrip(l);
    assert IsSingleLine(l) by {
      forall k | 0 <= k < |l| ensures !IsLineBreak(l[k]) {
        assert l[k] == s[|s| - |l| + k];
      }
    }
    forall k | 0 <= k < |r| ensures !IsLineBreak(r[k]) {
      assert r[k] == l[k];
    }
  }

  /** The first index at or after `i` that is not whitespace (what `\s*` consumes). */
  function SkipSpaces(s: string, i: nat): (j: nat)
    requires i <= |s|
    ensures i <= j <= |s|
    ensures forall k :: i <= k < j ==> IsSpace(s[k])
    ensures j == |s| || !IsSpace(s[j])
    decreases |s| - i
  {
    if i < |s| && IsSpace(s[i]) then SkipSpaces(s, i + 1) else i
  }

  /** The end of the maximal digit run starting at `i` (what a greedy `\d*` consumes). */
  function DigitEnd(s: string, i: nat): (j: nat)
    requires i <= |s|
    ensures i <= j <= |s|
    ensures forall k :: i <= k < j ==> IsDigit(s[k])
    ensures j == |s| || !IsDigit(s[j])
    decreases |s| - i
  {
    if i < |s| && IsDigit(s[i]) then DigitEnd(s, i + 1) else i
  }

  /** The end of the maximal non-whitespace run starting at `i` (a greedy `\S*`). */
  function NonSpaceEnd(s: string, i: nat): (j: nat)
    requires i <= |s|
    ensures i <= j <= |s|
    ensures forall k :: i <= k < j ==> !IsSpace(s[k])
    ensures j == |s| || IsSpace(s[j])
    decreases |s| - i
  {
    if i < |s| && !IsSpace(s[i]) then NonSpaceEnd(s, i + 1) else i
  }

  /** A `(\d+)` group starting at `i`: the maximal digit run there, if it is non-empty. */
  function DigitsAt(s: string, i: nat): (r: Option<string>)
    ensures r.Some? <==> i < |s| && IsDigit(s[i])
    ensures r.Some? ==> IsDigits(r.value) && OccursAt(s, r.value, i)
    ensures r.Some? ==> i + |r.value| == |s| || !IsDigit(s[i + |r.value|])
  {
    if i < |s| && IsDigit(s[i]) then Some(s[i..DigitEnd(s, i)]) else None
  }

  /** Where the digits `d` are followed by a non-digit or the end, `(\d+)` captures exactly `d`. */
  lemma DigitsAtRun(s: string, i: nat, d: string)
    requires IsDigits(d) && OccursAt(s, d, i)
    requires i + |d| == |s| || !IsDigit(s[i + |d|])
    ensures DigitsAt(s, i) == Some(d)
  {
    assert s[i] == d[0];
    assert forall k :: i <= k < i + |d| ==> s[k] == d[k - i];
  }

  /** `[f(x) for x in s]`. */
  function Map<A, B>(f: A -> B, s: seq<A>): (r: seq<B>)
    ensures |r| == |s|
    ensures forall k :: 0 <= k < |s| ==> r[k] == f(s[k])
  {
    seq(|s|, k requires 0 <= k < |s| => f(s[k]))
  }

  /** Mapping works element by element, so it distributes over concatenation. */
  lemma MapAppend<A, B>(f: A -> B, a: seq<A>, b: seq<A>)
    ensures Map(f, a + b) == Map(f, a) + Map(f, b)
  {
    var whole, parts := Map(f, a + b), Map(f, a) + Map(f, b);
    forall k | 0 <= k < |whole| ensures whole[k] == parts[k] {
      if k < |a| {
        assert (a + b)[k] == a[k];
      } else {
        assert (a + b)[k] == b[k - |a|];
      }
    }
  }

  lemma MapOne<A, B>(f: A -> B, x: A)
    ensures Map(f, [x]) == [f(x)]
  {
    assert Map(f, [x])[0] == f(x);
  }

  /** The index of the first `true` in `bs`, `|bs|` when there is none. */
  function FirstTrue(bs: seq<bool>): (k: nat)
    ensures k <= |bs|
    ensures k < |bs| ==> bs[k]
    ensures forall j :: 0 <= j < k ==> !bs[j]
  {
    if |bs| == 0 || bs[0] then 0
    else
      var k := FirstTrue(bs[1..]);
      assert forall j :: 0 < j < k + 1 ==> bs[j] == bs[1..][j - 1];
      k + 1
  }

  /** The first index of `c` in `s`, or `|s|` when there is none. */
  function FindChar(s: string, c: char): (k: nat)
    ensures k <= |s|
    ensures forall j :: 0 <= j < k ==> s[j] != c
    ensures k < |s| ==> s[k] == c
  {
    if |s| == 0 then 0
    else if s[0] == c then 0
    else 1 + FindChar(s[1..], c)
  }

  /** The first index of a line boundary in `s`, or `|s|`. */
  function FindLineBreak(s: string): (k: nat)
    ensures k <= |s|
    ensures forall j :: 0 <= j < k ==> !IsLineBreak(s[j])
    ensures k < |s| ==> IsLineBreak(s[k])
  {
    if |s| == 0 then 0
    else if IsLineBreak(s[0]) then 0
    else 1 + FindLineBreak(s[1..])
  }

  /** No character of `s` is a line boundary. */
  predicate IsSingleLine(s: string) {
    forall j :: 0 <= j < |s| ==> !IsLineBreak(s[j])
  }

  /**
    Python's `str.splitlines()`: no trailing empty line for a final
    terminator, `""` gives no lines at all, `\r\n` is one boundary.
  */
  function SplitLines(s: string): (lines: seq<string>)
    ensures forall k :: 0 <= k < |lines| ==> IsSingleLine(lines[k])
    ensures forall k :: 0 <= k < |lines| ==> Contains(s, lines[k])
    ensures s == [] <==> lines == []
    decreases |s|
  {
    if s == [] then []
    else
      var k := FindLineBreak(s);
      if k == |s| then
        assert OccursAt(s, s, 0);
        [s]
      else
        var next := if s[k] == '\r' && k + 1 < |s| && s[k + 1] == '\n' then k + 2 else k + 1;
        var rest := SplitLines(s[next..]);
        assert OccursAt(s, s[..k], 0);
        forall j | 0 <= j < |rest| ensures Contains(s, rest[j]) {
          var o: nat :| o <= |s[next..]| && OccursAt(s[next..], rest[j], o);
          assert s[next + o..next + o + |rest[j]|] == s[next..][o..o + |rest[j]|];
          assert OccursAt(s, rest[j], next + o);
        }
        [s[..k]] + rest
  }

  /** The front of a concatenation is its first part. */
  lemma PrefixOfConcat(a: string, b: string)
    ensures (a + b)[..|a|] == a
  {
  }

  /** Two texts without line breaks make one without. */
  lemma SingleLineConcat(a: string, b: string)
    requires IsSingleLine(a) && IsSingleLine(b)
    ensures IsSingleLine(a + b)
  {
    forall k | 0 <= k < |a + b| ensures !IsLineBreak((a + b)[k]) {
      if k < |a| { assert (a + b)[k] == a[k]; } else { assert (a + b)[k] == b[k - |a|]; }
    }
  }

  /** A non-empty text without line breaks is one line. */
  lemma SplitLinesSingle(s: string)
    requires s != [] && IsSingleLine(s)
    ensures SplitLines(s) == [s]
  {
    assert FindLineBreak(s) == |s|;
  }

  /** The first line of a non-empty text is everything before its first line break. */
  lemma SplitLinesFirst(s: string)
    requires s != []
    ensures SplitLines(s)[0] == s[..FindLineBreak(s)]
  {
  }

  /** Python's `sep.join(parts)` for a one-character separator. */
  function Join(parts: seq<string>, sep: char): string {
    if |parts| == 0 then ""
    else if |parts| == 1 then parts[0]
    else parts[0] + [sep] + Join(parts[1..], sep)
  }

  /** Python's `s.split(sep)` for a one-character separator: always at least one part. */
  function Split(s: string, sep: char): (parts: seq<string>)
    ensures |parts| >= 1
    ensures forall k :: 0 <= k < |parts| ==> sep !in parts[k]
    decreases |s|
  {
    var k := FindChar(s, sep);
    if k == |s| then [s] else [s[..k]] + Split(s[k + 1..], sep)
  }

  /** Splitting a joined list on its separator gives the list back. */
  lemma {:induction false} SplitJoin(parts: seq<string>, sep: char)
    requires |parts| >= 1
    requires forall k :: 0 <= k < |parts| ==> sep !in parts[k]
    ensures Split(Join(parts, sep), sep) == parts
    decreases |parts|
  {
    if |parts| == 1 {
      assert FindChar(parts[0], sep) == |parts[0]|;
    } else {
      var s := Join(parts, sep);
      var tail := Join(parts[1..], sep);
      assert s == parts[0] + [sep] + tail;
      var k := FindChar(s, sep);
      assert forall j :: 0 <= j < |parts[0]| ==> s[j] == parts[0][j];
      assert s[|parts[0]|] == sep;
      assert k == |parts[0]|;
      assert s[..k] == parts[0];
      assert s[k + 1..] == tail;
      SplitJoin(parts[1..], sep);
      assert Split(s, sep) == [parts[0]] + parts[1..];
    }
  }

  /** A piece of a concatenation occurs where it was put. */
  lemma OccursInConcat(a: string, p: string, b: string)
    ensures OccursAt(a + p + b, p, |a|)
  {
    assert (a + p + b)[|a|..|a| + |p|] == p;
  }

  /** Stripping a space put in front of an already stripped text gives the text back. */
  lemma StripSpaceBefore(s: string)
    requires s != [] && !IsSpace(s[0]) && !IsSpace(s[|s| - 1])
    ensures Strip(" " + s) == s
  {
    var t := " " + s;
    assert t[0] == ' ' && t[1..] == s;
    assert LStrip(t) == LStrip(s);
    StripUnchanged(s);
  }

  /** A string with no whitespace at either end is its own `strip()`. */
  lemma StripUnchanged(s: string)
    requires s == [] || (!IsSpace(s[0]) && !IsSpace(s[|s| - 1]))
    ensures Strip(s) == s
  {
    assert LStrip(s) == s;
    assert RStrip(s) == s;
  }
}

=== FILE: worker.dfy ===
/**
  The start worker `_pkg_worker`: sync the repository, install dependencies,
  launch the process, then watch it through a 1.5 s probation window and post one
  `("pkg_state", name, state, message)` report.

  The repository sync, the install and the launch are external; only how they
  ended is an input here. The probation loop polls the process every 0.1 s; its
  observations are the input `polls`, one `poll_one` result per iteration.
*/
module Worker {

  import opened Wrappers
  import opened Service
  import opened Advisory

  /** How the synchronous part of a start cycle ended. */
  datatype SetupOutcome =
    | Launched                 // the process was started
    | Failed(message: string)  // the program's own error type, raised by sync or install
    | Crashed(detail: string)  // any other exception, such as an OSError from the launch

  /** The report the worker posts on the queue. */
  datatype Report = Report(state: PkgState, message: string)

  const EarlyExitMessage: string := "Service stopped immediately after starting."

  /** Length of the probation window in milliseconds, and the polling period inside it. */
  const ProbationMillis: nat := 1500
  const ProbationPollMillis: nat := 100

  /** Some poll of the probation window saw an exit status. */
  predicate ExitObserved(polls: seq<Option<int>>) {
    exists k :: 0 <= k < |polls| && polls[k].Some?
  }

  /**
    The worker's report. `log` is the full log text read after an early exit,
    `None` when reading it raised `OSError` (the source then uses "").
  */
  function ProbationOutcome(setup: SetupOutcome, polls: seq<Option<int>>, log: Option<string>): (r: Report)
    ensures r.state == RUNNING || r.state == ERROR
    ensures r.state == RUNNING <==> setup.Launched? && !ExitObserved(polls)
    ensures r.state == RUNNING ==> r.message == ""
    ensures r.state == ERROR && !setup.Failed? ==> r.message != ""
    ensures setup.Launched? && ExitObserved(polls) ==>
              r.message == (if MakeAdvisory(log.GetOr("")) != "" then MakeAdvisory(log.GetOr("")) else EarlyExitMessage)
    ensures setup.Failed? ==> r.message == setup.message
    ensures setup.Crashed? ==> r.message == "Unexpected error: " + setup.detail
  {
    match setup
    case Failed(m) => Report(ERROR, m)
    case Crashed(d) => Report(ERROR, "Unexpected error: " + d)
    case Launched =>
      if ExitObserved(polls) then
        var advice := MakeAdvisory(log.GetOr(""));
        Report(ERROR, if advice != "" then advice else EarlyExitMessage)
      else Report(RUNNING, "")
  }

  /**
    The polls of a probation window for a process that exits at `exitAt`
    milliseconds after launch (never, for `None`): one every 100 ms from the
    launch while the 1.5 s deadline has not passed, each seeing the exit
    status once the process has exited.
  */
  function PollsFor(exitAt: Option<nat>, code: int): (polls: seq<Option<int>>)
    ensures |polls| == ProbationMillis / ProbationPollMillis
  {
    seq(ProbationMillis / ProbationPollMillis,
        k => if exitAt.Some? && exitAt.value <= k * ProbationPollMillis then Some(code) else None)
  }

  /**
    A launched service is reported RUNNING exactly when it is still alive at
    the last poll of the window, 1.4 s after launch; an exit at or before then
    is an ERROR.
  */
  lemma ProbationTiming(exitAt: Option<nat>, code: int, log: Option<string>)
    ensures ProbationOutcome(Launched, PollsFor(exitAt, code), log).state == RUNNING <==>
              exitAt.None? || exitAt.value > 1400
  {
    var polls := PollsFor(exitAt, code);
    if exitAt.Some? && exitAt.value <= 1400 {
      assert polls[14].Some?;
    } else {
      assert forall k :: 0 <= k < |polls| ==> polls[k].None?;
    }
  }
}

=== FILE: wrappers.dfy ===
/** Option and Result, the two failure-carrying shapes the model needs. */
module Wrappers {

  /** A value that may be absent: Python's `Optional[T]` / a `None` return. */
  datatype Option<+T> = None | Some(value: T) {

    /** The wrapped value, or `default` when absent. */
    function GetOr(default: T): T {
      match this
      case Some(v) => v
      case None => default
    }
  }

  /** Either a value or an error: a Python function that returns or raises. */
  datatype Result<+R, +E> = Ok(value: R) | Err(error: E)
}
